=== FILE: README.md ===
# Firmware allocation and arithmetic, modelled in Dafny

This project models the register and table arithmetic of several coreboot
firmware components. Each is a pure function over register words, SPD
bytes and device lookups, and its contracts and lemmas state what the
firmware promises about the result:

- **AMD family 10h northbridge.** Bus numbering of HyperTransport chains
  and the order chains are scanned (`fam10_chain.dfy`). The base/limit
  register slot search, the store-once resource write and the decode of
  preset pairs (`fam10_slots.dfy`). The memory hoist hole, undoing the
  hoist, the MMIO base and the split of each node's DRAM around it
  (`fam10_memory.dfy`).
- **Intel i915 DDR2 initialisation.** CAS-latency masks and speed
  selection (`i915_spd.dfy`, `i915_cas.dfy`). The smallest-cycle searches
  for tRAS, tRP, tRCD and tWR (`i915_timing.dfy`). DIMM sizes, row
  boundaries, TOLUD, channel mode and row attributes (`i915_geometry.dfy`).
  Clock gates, DCC commands and the top of RAM (`i915_registers.dfy`).
- **Samsung Exynos5250 clocks.** PLL decoding and the EPLL table
  (`exynos_pll.dfy`). The best-divisor search (`exynos_scalar.dfy`). The
  read-modify-write divider updates (`exynos_clock.dfy`).
- **Intel E7501 and i945 northbridges.** The E7501 remap window, its
  register encoding and the RAM it reports (`e7501_northbridge.dfy`). The
  i945 PCIe BAR, the TSEG and graphics memory stolen from low memory, and
  the subsystem ID (`i945_northbridge.dfy`).
- **ChromeOS EC host commands.** The bounded ready wait, request framing
  and checksums, and response acceptance (`chromeec_ec.dfy`).
- **Board bus maps.** The run-once `get_bus_conf` of the Supermicro H8DMR
  (`h8dmr_bus_conf.dfy`) and the AMD Dinar (`dinar_bus_conf.dfy`). The
  device lookup is an arbitrary partial map (`pci_slots.dfy`).

Supporting files:

- `common.dfy` holds `Option` and `Result`. A `Die` result stands for the
  firmware's `die()`. The file also has fixed-width helpers.
- `arith.dfy` holds the nonlinear arithmetic facts the proofs use.

Register values the firmware reads are inputs. Polling loops become their
outcome. Helpers defined outside these files are inputs or function
parameters. C's unsigned wrap-around is written out explicitly where the
source relies on it.

Each `#if` is fixed to one configuration. The south-bridge chain sits on
bus 0 (`SB_HT_CHAIN_ON_BUS0 = 1`). The extended configuration space and
HT3 support are parameters. `CONFIG_OVERRIDE_CLOCK_DISABLE` is off.

Where a header constant is not available, it is a parameter. This covers
the EC flags and ports, the DCC command codes, the I2S mask and
`HIGH_MEMORY_SIZE`.

## Model

| member | source | states |
|---|---|---|
| Fam10Chain.SysconfInit | src/northbridge/amd/amdfam10/northbridge.c:1164-1179 | The south-bridge link is a three-bit field, the segment bits, chain count and chain-bus table start empty, and the node count lies between 1 and 8 (64 with more than eight physical CPUs). |
| Fam10Chain.SysconfInitRoundTrip | src/northbridge/amd/amdfam10/northbridge.c:1166-1179 | Registers that encode a south-bridge link and node-count fields decode to that link and to the count plus one (plus eight times the high field with more than eight CPUs). |
| Fam10Chain.UnitIds | src/northbridge/amd/amdfam10/northbridge.c:250-252 | Four unit-id bases; every one the chain probe did not rewrite is 0x20. |
| Fam10Chain.PackUnitIdsRoundTrip | src/northbridge/amd/amdfam10/northbridge.c:273-281 | Unpacking byte `i` of the packed unit-id word gives back the low byte of unit id `i`. |
| Fam10Chain.UntouchedUnitIds | src/northbridge/amd/amdfam10/northbridge.c:250-281 | A probe that rewrites no unit id leaves 0x20202020 in the chain's unit-id register. |
| Fam10Chain.WithSecondary | src/northbridge/amd/amdfam10/northbridge.c:232-240 | The bridge's bus register keeps its bits 7:0 and holds the low byte of the secondary bus in bits 15:8; bits 31:16 are the old ones ORed with the secondary bus shifted left by 8, so they are kept whenever the secondary bus is below 256. |
| Fam10Chain.ProvisionalSubordinate | src/northbridge/amd/amdfam10/northbridge.c:224 | The provisional subordinate bus is bus 0xfc of the segment the bus counter is in. |
| Fam10Chain.SecondaryBus | src/northbridge/amd/amdfam10/northbridge.c:202-223 | The south-bridge link of node 0 reuses the bus counter; every other chain starts on the next bus. |
| Fam10Chain.MapOps | src/northbridge/amd/amdfam10/northbridge.c:243-270 | One chain writes the provisional configuration-map range first and the final range last, with a clear of the unused tail in between only for an extended map slot (index above 3). |
| Fam10Chain.ScanChain | src/northbridge/amd/amdfam10/northbridge.c:142-285 | An unreached link (ganged sublink 1, no connection, coherent, or no map slot without the extended map) changes nothing. A reached one gets the secondary bus of `SecondaryBus`, a provisional subordinate in the counter's segment and a final subordinate equal to the new counter, which is the secondary plus the probe's buses. It counts one more chain, stores the packed unit ids in the chain's slot, appends the chain's bus range and its configuration-map writes (`MapOps`), sets the bridge's bus register with the secondary bus, and keeps the south-bridge link, segment bits and node count. |
| Fam10Chain.Positions | src/northbridge/amd/amdfam10/northbridge.c:302-325 | The positions picked lie below the bound, rise strictly, and each is a link that is (or is not) the south-bridge link of node 0. |
| Fam10Chain.PositionsComplete | src/northbridge/amd/amdfam10/northbridge.c:302-325 | A position is picked exactly when it lies below the bound and its link is (or is not) the south-bridge link of node 0, so together with `Positions` the list is every such link in list order. |
| Fam10Chain.NoSbPositions | src/northbridge/amd/amdfam10/northbridge.c:297-305 | On any node other than 0 no link is scanned as the south-bridge chain. |
| Fam10Chain.AtMostOneSbPosition | src/northbridge/amd/amdfam10/northbridge.c:302-304 | With distinct link numbers at most one link is scanned ahead as the south-bridge chain. |
| Fam10Chain.ScanSbLinks | src/northbridge/amd/amdfam10/northbridge.c:297-305 | The first loop equals the reference fold over the south-bridge positions, in list order. |
| Fam10Chain.ScanOtherLinks | src/northbridge/amd/amdfam10/northbridge.c:312-325 | The second loop equals the reference fold over every other position, in list order. |
| Fam10Chain.ScanChains | src/northbridge/amd/amdfam10/northbridge.c:287-327 | Scanning a node equals the reference fold over the south-bridge chain of node 0 followed by every other link in list order. |
| Fam10Chain.FoldScanSound | src/northbridge/amd/amdfam10/northbridge.c:202-227 | When a south-bridge position can only come first and the buses needed fit in 32 bits, the counter only grows, by at most the order's cost, and the ranges handed out lie between the counters and do not overlap. |
| Fam10Chain.ScanChainsSound | src/northbridge/amd/amdfam10/northbridge.c:287-327 | The bus ranges a node's scan hands out lie between the incoming and outgoing counters and never overlap; only node 0's south-bridge chain starts on the incoming counter. |
| Fam10Slots.FirstFromMeaning | src/northbridge/amd/amdfam10/northbridge.c:337-345 | The search finds the earliest owner of the pair, in node-major then link order, at or after its starting point; None means no present node owns the pair there. |
| Fam10Slots.UseableMeaning | src/northbridge/amd/amdfam10/northbridge.c:330-356 | reg_useable gives 2 exactly when no present node owns the pair. It gives 1 exactly when the goal node and link own it, no owner comes before them, and their flags are at most 1. |
| Fam10Slots.RegUseable | src/northbridge/amd/amdfam10/northbridge.c:330-356 | The C loops, with their early exits and the recovery of the stopping point from `link - 1` and `nodeid - 1`, compute the same value as the reference definition. |
| Fam10Slots.Slots | src/northbridge/amd/amdfam10/northbridge.c:364 | The candidate pairs are first, first + 8, and so on up to the last register: entry `k` is first + 8k, there are (last - first) / 8 + 1 of them (none when first is past last), and all lie in [first, last]. |
| Fam10Slots.ChooseSlotMeaning | src/northbridge/amd/amdfam10/northbridge.c:364-378 | The pair chosen is the first one the goal owns, if any. Otherwise it is the last free pair, or the extended index when every candidate is taken by someone else. |
| Fam10Slots.FindIoPair | src/northbridge/amd/amdfam10/northbridge.c:358-390 | The I/O window gets a fresh resource for the node and link on the chosen pair between 0xc0 and 0xd8, or on the extended register 0x110 + (index << 24) + (4 << 20). |
| Fam10Slots.FindMemPair | src/northbridge/amd/amdfam10/northbridge.c:392-425 | The MMIO window gets a fresh resource for the node and link on the chosen pair between 0x80 and 0xb8, or on the extended register 0x110 + (index << 24) + (6 << 20). |
| Fam10Slots.ExtRegLow | src/northbridge/amd/amdfam10/northbridge.c:384 | Every extended register number has 0x110 in its low 20 bits. |
| Fam10Slots.IoWindow | src/northbridge/amd/amdfam10/northbridge.c:432-449 | The I/O window has I/O and bridge flags, base and size 0, limit 0xffff, and alignment 8 in the extended space or the host I/O alignment otherwise, and every other resource is unchanged. |
| Fam10Slots.MemWindow | src/northbridge/amd/amdfam10/northbridge.c:451-484 | An MMIO window has memory and bridge flags (prefetchable or not), base and size 0, limit 2^40 - 1 and the host memory alignment, and every other resource is unchanged. |
| Fam10Slots.HeldPairNotUseable | src/northbridge/amd/amdfam10/northbridge.c:347-353 | A pair the goal already holds with flags above 1 is neither reusable nor free for it. |
| Fam10Slots.SecondMemWindowDistinct | src/northbridge/amd/amdfam10/northbridge.c:451-484 | When the prefetchable window took a fixed pair, the non-prefetchable window that follows gets a different pair. |
| Fam10Slots.LinkReadBasesDistinctMem | src/northbridge/amd/amdfam10/northbridge.c:428-485 | Both MMIO windows of one link differ whenever the first one took a fixed pair. |
| Fam10Slots.SetResource | src/northbridge/amd/amdfam10/northbridge.c:499-547 | Only an assigned, not yet stored I/O or memory resource of function 1 is programmed. The write names the node, the link, register bits 11:0 and the extended index from bits 31:24, with base and end in 256-byte units. The resource is then marked stored; any other resource is left unchanged. |
| Fam10Slots.SetResourceIdempotent | src/northbridge/amd/amdfam10/northbridge.c:511-514 | Setting a resource a second time programs nothing and changes nothing. |
| Fam10Slots.DecodePair | src/northbridge/amd/amdfam10/northbridge.c:643-651 | A pair with either enable bit set routes to a node below 64 and a link below 8; a pair with neither is unrouted. |
| Fam10Slots.DomainReadKeys | src/northbridge/amd/amdfam10/northbridge.c:638-662 | After the decode, a pair has a resource for a node and link exactly when it had one before or its preset routing names them. A preset one is a reservation with flag word 1. |
| Fam10Slots.PresetPairReused | src/northbridge/amd/amdfam10/northbridge.c:632-662 | After decoding the preset pairs, the node and link a preset pair routes to are offered that pair again, and a pair with no preset routing is free. |
| Fam10Memory.FieldK | src/northbridge/amd/amdfam10/northbridge.c:747 | Bits 28:8 of a DRAM base or limit word become a kilobyte address that is a multiple of 128 MiB, below 256 GiB. |
| Fam10Memory.HoistStartK | src/northbridge/amd/amdfam10/northbridge.c:732 | The hoist register's bits 31:24 become a kilobyte address that is a multiple of 16 MiB, below 4 GiB. |
| Fam10Memory.HoistNodeMeaning | src/northbridge/amd/amdfam10/northbridge.c:724-736 | The hoist search finds the first populated node whose hoist bit is set, and finds none exactly when no such node exists. |
| Fam10Memory.GapNodeMeaning | src/northbridge/amd/amdfam10/northbridge.c:739-757 | The gap search stops at the first enabled node, before any node above 4 GiB, whose base differs from the previous enabled node's limit. The hole then starts at that limit; with no such node it finds nothing. |
| Fam10Memory.HwMemHoleInfo | src/northbridge/amd/amdfam10/northbridge.c:716-760 | The node is -1 or one of the nodes; with -1 the hole start is the configured hole size. |
| Fam10Memory.HwMemHoleInfoMeaning | src/northbridge/amd/amdfam10/northbridge.c:716-760 | The hole is the first hoisting node, starting at its hoist address, when there is one. Otherwise it is the first gap. Node -1 means there is neither. |
| Fam10Memory.DisableHoistMemory | src/northbridge/amd/amdfam10/northbridge.c:765-840 | Nodes below the hole's node and unpopulated nodes above it are untouched. The hole's node loses its hoist bit and, if it hoisted, keeps its base. |
| Fam10Memory.ShiftLaterMoves | src/northbridge/amd/amdfam10/northbridge.c:791-806 | A populated node above the hole moves down by the hole size and keeps its size. |
| Fam10Memory.ShiftOwnerMoves | src/northbridge/amd/amdfam10/northbridge.c:808-838 | The hoisting owner keeps its base and loses the hole from its limit; a non-hoisting owner moves down like a later node. |
| Fam10Memory.DisableHoistConserves | src/northbridge/amd/amdfam10/northbridge.c:765-840 | When the hole is a whole number of 128 MiB limit steps, the owner has its enable bit 0 set and the later nodes can move down by the hole, undoing a hoist shrinks the populated DRAM by exactly the hole size when the owner hoisted, and leaves the total unchanged otherwise. |
| Fam10Memory.TotalSizeSteps | src/northbridge/amd/amdfam10/northbridge.c:744-750 | Every node's size, and so the populated total, is a whole number of 128 MiB steps, because the base and limit fields count in those steps. |
| Fam10Memory.SubStepHoleNotExact | src/northbridge/amd/amdfam10/northbridge.c:789-831 | No register contents before and after a hoist undo can shrink the total by a hole that is not a whole 128 MiB step, so an exact undo for such a hole does not exist in this register layout. |
| Fam10Memory.DisableHoistSubStepHole | src/northbridge/amd/amdfam10/northbridge.c:789-831 | A 16 MiB hole (the hoist register's step) on a hoisting owner shrinks the total by a full 128 MiB limit step. |
| Fam10Memory.MmioRound | src/northbridge/amd/amdfam10/northbridge.c:945-952 | The MMIO base is the largest 64 MiB multiple at or below the PCI top of low memory in KiB. |
| Fam10Memory.MaskTwice | src/northbridge/amd/amdfam10/northbridge.c:947-952 | Clearing the low 6 bits before the low 16 bits changes nothing. |
| Fam10Memory.MmioBaseK | src/northbridge/amd/amdfam10/northbridge.c:961-967 | The MMIO base is the rounded value, lowered to the hole's start when a hole exists below it, and never above the rounded value. |
| Fam10Memory.Number | src/northbridge/amd/amdfam10/northbridge.c:1009-1076 | Resources are numbered from the start index in steps of 0x10, tagged with their node, with each piece's base and size cut to the 32-bit KiB argument of `ram_resource`. |
| Fam10Memory.NodeRamShape | src/northbridge/amd/amdfam10/northbridge.c:1010-1088 | A populated node adds one to three resources after the existing ones. |
| Fam10Memory.PiecesSound | src/northbridge/amd/amdfam10/northbridge.c:1016-1073 | For the corrected split (see Findings), one node's pieces avoid the legacy VGA window [640K, 768K) and the MMIO window [mmio, 4 GiB), and lie inside the node. They add up to the node's size less exactly what those windows take from it. |
| Fam10Memory.LegacyShape | src/northbridge/amd/amdfam10/northbridge.c:1020-1027 | A node cut by the legacy window starts at 0; its pieces are [0, 640K) followed by the split of the rest from 768K. |
| Fam10Memory.PlainShape | src/northbridge/amd/amdfam10/northbridge.c:1031-1073 | Without the legacy cut a node is empty at 0 or starts above the legacy window, and its pieces are the MMIO split alone. |
| Fam10Memory.TailSound | src/northbridge/amd/amdfam10/northbridge.c:1031-1073 | For the corrected split (see Findings), the part around the MMIO window keeps out of it, stays inside the node and loses exactly the overlap. |
| Fam10Memory.NodeRamSound | src/northbridge/amd/amdfam10/northbridge.c:1010-1088 | For the corrected split (see Findings) and a node ending below 4 TiB, the resources one node adds avoid both windows and lie inside the node. They add up to its size less what the windows take. |
| Fam10Memory.NodeRamAgrees | src/northbridge/amd/amdfam10/northbridge.c:1032-1073 | The code as written and the corrected split agree whenever the node, after the legacy cut, starts at or below the MMIO base. |
| Fam10Memory.NodeRamAsWrittenWraps | src/northbridge/amd/amdfam10/northbridge.c:1066-1075 | Take the MMIO base at 3 GiB and a node at [3.5 GiB, 4.25 GiB). As written, the 64-bit size wraps below zero and reaches `ram_resource` as 4 TiB less 0.25 GiB; the corrected split reports the 0.25 GiB above 4 GiB. |
| Fam10Memory.NodeRamTruncatesAbove4TiB | src/northbridge/amd/amdfam10/northbridge.c:1074-1075 | A node at 4 TiB does not fit the 32-bit KiB argument: its resource is reported at 0, over the legacy window. |
| Fam10Memory.Windows | src/northbridge/amd/amdfam10/northbridge.c:1012-1017 | Each node's window is decoded from its own base and limit registers, in node order. |
| Fam10Memory.WindowOfOk | src/northbridge/amd/amdfam10/northbridge.c:1016-1018 | A decoded window is well-formed exactly when its limit is not below its base. |
| Fam10Memory.DomainRamIndices | src/northbridge/amd/amdfam10/northbridge.c:1009-1088 | Resources are numbered 0x10, 0x20, ... in order, each tagged with a populated node, so no two share an index. high_tables_base, once set, is not changed. |
| Fam10Memory.DomainRamSound | src/northbridge/amd/amdfam10/northbridge.c:1009-1088 | With the corrected per-node split (see Findings) and every populated node ending below 4 TiB, no RAM resource over the whole domain overlaps the legacy window or the MMIO window. The RAM reported is each node's size less what those windows take from it. |
| I915Spd.Lowest | src/northbridge/intel/i915/raminit.c:541-547 | The lowest latency a CAS mask lists, 3 to 5 exactly when it lists one, 0 otherwise. |
| I915Spd.Highest | src/northbridge/intel/i915/raminit.c:568-576 | The highest latency a CAS mask lists, 3 to 5 exactly when it lists one, 0 otherwise. |
| I915Spd.Without | src/northbridge/intel/i915/raminit.c:600 | Dropping a latency the mask lists leaves a mask with strictly fewer latencies, so the per-DIMM loop ends. |
| I915Spd.CasRoundTrip | src/northbridge/intel/i915/raminit.c:494-501 | The SPD CAS byte and its decoded mask convert back and forth without loss. |
| I915Spd.AllCasIs0x38 | src/northbridge/intel/i915/raminit.c:494-496 | The initial mask of supported latencies is the byte 0x38, CAS 3, 4 and 5. |
| I915Spd.MeetIsAnd | src/northbridge/intel/i915/raminit.c:500 | Meeting two decoded masks is the same as AND-ing the bytes. |
| I915Spd.WithoutIsClear | src/northbridge/intel/i915/raminit.c:600 | Clearing bit `c` of the byte removes latency `c` from the decoded mask. |
| I915Spd.ZeroIsZero | src/northbridge/intel/i915/raminit.c:504 | The decoded mask is empty exactly when the byte is zero. |
| I915Cas.CasMaskMeaning | src/northbridge/intel/i915/raminit.c:494-502 | The common mask lists a latency exactly when every fitted DIMM accepts it, and nothing outside CAS 3 to 5. |
| I915Cas.PossibleCasMeaning | src/northbridge/intel/i915/raminit.c:488-509 | The mask succeeds exactly when some latency is accepted by every fitted DIMM, lists exactly those latencies, and otherwise dies with the no-CAS message. |
| I915Cas.MaxRamSpeed | src/northbridge/intel/i915/raminit.c:529-536 | The fastest speed tried follows the controller's capability, and is 533 MHz whenever the front-side bus runs at 533 MHz. |
| I915Cas.FirstFast | src/northbridge/intel/i915/raminit.c:565-596 | The first fast latency found is one the mask lists, between 3 and the mask's highest. |
| I915Cas.FirstFastSkip | src/northbridge/intel/i915/raminit.c:587-600 | Dropping a latency that is too slow keeps the highest latency and the first fast one unchanged. |
| I915Cas.DropMeaning | src/northbridge/intel/i915/raminit.c:565-601 | The loop keeps the mask from its first fast latency upward; with none it keeps nothing, or dies when bits other than CAS 3 to 5 remain. |
| I915Cas.SurvivingMeaning | src/northbridge/intel/i915/raminit.c:563-601 | A DIMM's mask at a speed is its acceptable mask from the first latency whose SPD cycle and access times meet the speed. |
| I915Cas.SpeedMaskMeaning | src/northbridge/intel/i915/raminit.c:550-608 | A latency is in the common mask at a speed exactly when the starting mask lists it and it survives on every fitted DIMM. |
| I915Cas.SpeedSearchMeaning | src/northbridge/intel/i915/raminit.c:550-625 | The search succeeds exactly when some speed at or below the cap has a usable common mask, and picks the highest such speed and that mask's lowest latency. |
| I915Cas.CasAndSpeedSound | src/northbridge/intel/i915/raminit.c:511-633 | The chosen CAS latency is one every fitted DIMM accepts and meets at the chosen speed, which is at most the cap. |
| I915Timing.Raise | src/northbridge/intel/i915/raminit.c:660-665 | Stepping one clock at a time stops at the first count at or above the start that covers the SPD minimum. |
| I915Timing.SmallestCycles | src/northbridge/intel/i915/raminit.c:635-795 | tRAS, tRP, tRCD and tWR: a zero SPD byte dies; otherwise the result is the fewest clocks from the timing's minimum that cover every fitted DIMM, and a count above the controller's cap dies. |
| I915Geometry.Log2Bounds | src/northbridge/intel/i915/raminit.c:948-960 | `Log2(n)` names the power of two at or just below `n`. |
| I915Geometry.WidthLog2 | src/northbridge/intel/i915/raminit.c:960 | The 64- and 72-bit data widths both contribute log2 6 to a side's size. |
| I915Geometry.DimmSizeMeaning | src/northbridge/intel/i915/raminit.c:925-999 | A DIMM whose bytes read is accepted exactly when its geometry is usable; side 1 is rows + columns + log2(banks) + 6 bits, and side 2 is absent, equal, or uses the high nibbles. When a read fails, the DIMM reports no memory unless an earlier byte already stopped the boot. |
| I915Geometry.BanksOfMeaning | src/northbridge/intel/i915/raminit.c:1019-1033 | Each bank size counts 32 MiB units of its side, and a side below 128 MiB dies. |
| I915Geometry.BankSizesMeaning | src/northbridge/intel/i915/raminit.c:1001-1037 | The sizes succeed exactly when every socket's do, and entries `2i` and `2i+1` are socket `i`'s two sides. |
| I915Geometry.RowBoundaries | src/northbridge/intel/i915/raminit.c:1039-1093 | Each DRB byte is the running total of bank sizes, with channel 1 continuing from channel 0 or restarting when interleaved, and TOLUD is twice the total capped at 0xd0. |
| I915Geometry.ChannelModeMeaning | src/northbridge/intel/i915/raminit.c:1413-1459 | Interleaving is chosen exactly when allowed and the channels hold the same memory; the mode bits name single channel 1, dual asymmetric, or channel 0 alone (all mode bits clear) exactly in the source's cases, and the other DCC bits are kept. |
| I915Geometry.DraCodeMeaning | src/northbridge/intel/i915/raminit.c:1117-1124 | A geometry is supported exactly for 13 or 14 row bits and 9 to 11 column bits, except 14 with 9, and its code is the column count less 7. |
| I915Geometry.SocketDraMeaning | src/northbridge/intel/i915/raminit.c:1105-1129 | A socket's DRA byte is 0 when empty, else the code in the low nibble and again in the high one when its second side has memory; an unsupported geometry dies. |
| I915Geometry.PackDraMeaning | src/northbridge/intel/i915/raminit.c:1131-1138 | The two 16-bit DRA registers hold the four socket bytes, each readable back in its place. |
| I915Geometry.RowAttributesMeaning | src/northbridge/intel/i915/raminit.c:1095-1144 | Every socket's byte reads back from the registers with the meaning above, and the step dies exactly when some fitted socket has an unsupported geometry. |
| I915Registers.ClockGatesMeaning | src/northbridge/intel/i915/raminit.c:2108-2139 | The clock pairs run exactly for the fitted sockets, each socket's three-bit group is all set or all clear, and the top bits stay clear. |
| I915Registers.CommandReg | src/northbridge/intel/i915/raminit.c:75-77 | A command within the field replaces the command field and keeps every other DCC bit. |
| I915Registers.RamCommand | src/northbridge/intel/i915/raminit.c:71-92 | A command is one DCC write, and the normal-operation command a second one that also sets the initialisation-complete bit. |
| I915Registers.RamCommandField | src/northbridge/intel/i915/raminit.c:75-82 | After the writes the DCC command field holds the command. |
| I915Registers.RamCommandKeeps | src/northbridge/intel/i915/raminit.c:75-85 | After the writes every other DCC bit except initialisation-complete is the old one. |
| I915Registers.RamCommandComplete | src/northbridge/intel/i915/raminit.c:84-85 | The initialisation-complete bit ends set after the normal-operation command and is left as it was after any other. |
| I915Registers.TopOfMemoryMeaning | src/northbridge/intel/i915/raminit.c:2569-2574 | With graphics enabled the top of memory is the BSM register whatever TOLUD holds; otherwise it is TOLUD in 16 MiB units, with TOLUD bit 3 ignored. |
| I915Registers.TsegSizes | src/northbridge/intel/i915/raminit.c:2576-2593 | The corrected TSEG sizes are the MiB counts the ESMRAM cases name, and the sizes as written are a sixteenth of them. |
| I915Registers.TopOfRamMeaning | src/northbridge/intel/i915/raminit.c:2565-2595 | The corrected top of RAM is exactly the TSEG size below the top of memory when TSEG fits, and the top of memory without TSEG. |
| I915Registers.TopOfRamAsWrittenMissesTseg | src/northbridge/intel/i915/raminit.c:2578-2581 | As written, a 1 MiB TSEG under a 1 GiB TOLUD leaves the top of RAM at 0x3fff_0000, inside TSEG. |
| ExynosScalar.ErrorAccepted | src/cpu/samsung/exynos5250/clock.c:530-535 | The test on the signed error accepts exactly the rates at or below the target whose shortfall is below 2^31 and within the best error so far. A rate above the target never wraps into an accepted error. |
| ExynosScalar.EffDiv | src/cpu/samsung/exynos5250/clock.c:526-527 | The fine divisor tried is clamped to [1, cap]. |
| ExynosScalar.EffRate | src/cpu/samsung/exynos5250/clock.c:528-529 | The rate the two divisors give never exceeds the input rate. |
| ExynosScalar.TryDivisor | src/cpu/samsung/exynos5250/clock.c:526-539 | One pass of the loop keeps the best pair over the main divisors tried so far, including this one. |
| ExynosScalar.BestScalar | src/cpu/samsung/exynos5250/clock.c:501-543 | A zero input or target gives -1. A target at or above the input gives 1. Otherwise the result is -1 exactly when no divisor pair reaches the target from below; else it is the pair, fine divisor within [1, cap], with the highest rate not above the target, the last main divisor winning a tie. The fine divisor is 1 unless a pair was found. |
| ExynosClock.SetMmcClkMeaning | src/cpu/samsung/exynos5250/clock.c:378-402 | The device's pre-ratio byte, at bit 16 * (dev % 2) + 8 of DIV_FSYS1 or DIV_FSYS2, reads back as the divisor's low byte. Every other bit of that register and every other register is kept. |
| ExynosClock.SpiLayout | src/cpu/samsung/exynos5250/clock.c:420-445 | On every SPI the ratio byte lies below the pre-ratio byte, inside one register. |
| ExynosClock.SetRatioMeaning | src/cpu/samsung/exynos5250/clock.c:404-484 | Each setter changes only its one byte, to the divisor's low byte, and changes nothing for a peripheral other than SPI0-4. |
| ExynosClock.SpiFieldsReadBack | src/cpu/samsung/exynos5250/clock.c:404-484 | A ratio below 16 and then a pre-ratio below 256 read back as written, even on SPI3 and SPI4 where the two bytes overlap by a nibble. On SPI0 to SPI2 the ratio byte's high nibble becomes 0. Nothing outside the two bytes changes. |
| ExynosClock.SetRate | src/cpu/samsung/exynos5250/clock.c:545-572 | The status is -1, with nothing written, exactly for a non-SPI peripheral, a zero rate, or a rate no divisor pair reaches from below. Otherwise it is 0 and the registers hold the best divisors minus one. |
| ExynosClock.SpiWriteOutcome | src/cpu/samsung/exynos5250/clock.c:556-563 | After a successful search the registers hold the chosen divisors, which give the highest rate not above the target. |
| ExynosClock.SpiWrite | src/cpu/samsung/exynos5250/clock.c:562-563 | The ratio nibble holds main - 1 and the pre-ratio byte fine - 1. Where the bytes do not overlap (SPI0 to SPI2) the ratio byte's high nibble is cleared. All bits outside the two bytes, and all other registers, are kept. |
| ExynosClock.MshciWordMeaning | src/cpu/samsung/exynos5250/clock.c:603-606 | The MSHCI write reads back as ratio `i` in bits 3:0 and pre-ratio 0 in bits 15:8, and keeps bits 7:4 and 31:16. |
| ExynosClock.SetMshci | src/cpu/samsung/exynos5250/clock.c:574-611 | A peripheral other than SDMMC0 or SDMMC2 gives -1 and writes nothing. Otherwise the status is 0 and only that device's divider register changes. It gets the smallest ratio `i` with (MPLL MHz) / (i + 1) at most 400, or is left alone when no ratio up to 15 is small enough. |
| ExynosClock.I2sRatio | src/cpu/samsung/exynos5250/clock.c:706 | The ratio is the source rate over the destination rate, rounded down. |
| ExynosClock.SetMasked | src/cpu/samsung/exynos5250/clock.c:712-713 | The bits under the mask take the new value and every other bit is kept. |
| ExynosClock.I2sPrescaler | src/cpu/samsung/exynos5250/clock.c:694-715 | The status is -1, with no write, exactly for a zero source or destination rate or a ratio above the field mask; otherwise it is 0. |
| ExynosClock.I2sPrescalerMeaning | src/cpu/samsung/exynos5250/clock.c:712-714 | A successful write holds the ratio's bits under the mask and keeps every bit outside it. |
| ExynosPll.DecodeFields | src/cpu/samsung/exynos5250/clock.c:216-226 | MDIV, PDIV and SDIV fit their fields, with a 10-bit MDIV on APLL, BPLL and MPLL and a 9-bit one on EPLL and VPLL. |
| ExynosPll.FieldsRoundTrip | src/cpu/samsung/exynos5250/clock.c:210-226 | Decoding an encoded PLL register gives back its fields. |
| ExynosPll.PllClkAsWrittenMeaning | src/cpu/samsung/exynos5250/clock.c:180-244 | As written, the EPLL K term is always 0 and the VPLL K term at most 3. An unsupported PLL reads 0, and a zero PDIV has no value (division by zero). |
| ExynosPll.PllClkMeaning | src/cpu/samsung/exynos5250/clock.c:228-243 | The corrected output of a supported PLL is MDIV steps plus the K fraction: under one step on EPLL, under four on VPLL, none on the others. |
| ExynosPll.ArmClkMeaning | src/cpu/samsung/exynos5250/clock.c:341-360 | The two ARM dividers act as one divider by their product and never speed the clock up. |
| ExynosPll.EpllIndex | src/cpu/samsung/exynos5250/clock.c:647-650 | The search finds the first table row for the rate, and no row when none has it. |
| ExynosPll.EpllSetRate | src/cpu/samsung/exynos5250/clock.c:631-683 | A rate with no table row returns -1 and writes nothing. A rate with a row writes that row and a lock count of 3000 PDIV cycles, and returns 0 exactly when the PLL then locks in time, -1 otherwise. |
| ExynosPll.EpllTableFits | src/cpu/samsung/exynos5250/clock.c:169-177 | Every table row fits the EPLL register fields. |
| ExynosPll.RowReadBack | src/cpu/samsung/exynos5250/clock.c:655-670 | Reading back an encoded row gives that row's corrected rate. |
| ExynosPll.RowRates | src/cpu/samsung/exynos5250/clock.c:169-177 | The corrected rate of every row is within 10 Hz of the rate it stands for. |
| ExynosPll.EpllReadBack | src/cpu/samsung/exynos5250/clock.c:631-683 | Programming a table rate and reading the EPLL back with the fraction kept is within 10 Hz of that rate. |
| ExynosPll.EpllAsWrittenDropsFraction | src/cpu/samsung/exynos5250/clock.c:230-233 | As written, the 73.728 MHz row reads back as 73 MHz: the K fraction of a 1 MHz step is lost. |
| E7501Northbridge.Tomk | src/northbridge/intel/e7501/northbridge.c:43-47 | The top of memory from the highest DRB is a whole number of 64 MiB units, below 16 GiB. |
| E7501Northbridge.LowAndBase | src/northbridge/intel/e7501/northbridge.c:47-57 | The top of low memory is the lower of the PCI hole and the top of memory, below 4 GiB. |
| E7501Northbridge.PlanAsWritten | src/northbridge/intel/e7501/northbridge.c:47-71 | As written: with the hole above memory no window is set; otherwise the window starts at or above both 4 GiB and the top of memory, and spans the whole hole below 4 GiB whatever memory it hides. |
| E7501Northbridge.Plan | src/northbridge/intel/e7501/northbridge.c:47-71 | The corrected map (see Findings): the window spans only the memory the hole hides, up to 4 GiB or to the top of memory. |
| E7501Northbridge.PlanAgreesAboveFourGiB | src/northbridge/intel/e7501/northbridge.c:58-71 | With 4 GiB of memory or more the corrected map is the one the source computes. |
| E7501Northbridge.KeepReserved | src/northbridge/intel/e7501/northbridge.c:79-85 | The programmed remap register holds the 10-bit field in bits 9:0 and the reserved bits 15:10 read before. |
| E7501Northbridge.WriteRegs | src/northbridge/intel/e7501/northbridge.c:75-85 | TOLM holds the top of low memory in 128 MiB units above its 11 kept bits; each remap register holds its address in 64 MiB units and keeps bits 15:10. |
| E7501Northbridge.WriteRegsRoundTrip | src/northbridge/intel/e7501/northbridge.c:75-85 | For both the map as written and the corrected one, reading the registers back gives TOLM rounded down to 128 MiB, the remap base exactly and the limit rounded down to 64 MiB, and the hardware window is on exactly when the map's is. |
| E7501Northbridge.RangesMeaning | src/northbridge/intel/e7501/northbridge.c:88-99 | For the corrected remap plan (see Findings), the ranges are ordered and disjoint: 768 KiB to the top of low memory, memory above 4 GiB, and the window holding exactly the hidden memory; the top of RAM is at or below the hole and memory. |
| E7501Northbridge.RangesConserve | src/northbridge/intel/e7501/northbridge.c:88-97 | For the corrected plan (see Findings), the reported RAM never exceeds installed memory less the legacy hole, and equals it exactly when the hole is above memory or the window is on. |
| E7501Northbridge.AsWrittenOverReports | src/northbridge/intel/e7501/northbridge.c:58-71 | As written, a window under less than 4 GiB of memory makes the reported RAM reach 4 GiB, more than is installed. |
| E7501Northbridge.AsWrittenThreeGiB | src/northbridge/intel/e7501/northbridge.c:65-70 | As written, 3 GiB of memory under a hole from 2 GiB reports a 2 GiB window for the 1 GiB the hole hides; the corrected map reports 1 GiB. |
| I945Northbridge.BarLength | src/northbridge/intel/i945/northbridge.c:51-63 | Size fields 0, 1 and 2 select 256, 128 and 64 MiB, each the 256 MiB window divided by 2 to the field; field 3 selects no BAR. |
| I945Northbridge.GetPcieBar | src/northbridge/intel/i945/northbridge.c:34-66 | A BAR is found exactly when the host bridge is present, the enable bit is set and the size field is not 3; then its length is the one the field selects, and otherwise base and length are 0. |
| I945Northbridge.GetPcieBarMeaning | src/northbridge/intel/i945/northbridge.c:51-63 | A BAR found is aligned to its length, contains the register's address and ends at or below 4 GiB. |
| I945Northbridge.StealMemory | src/northbridge/intel/i945/northbridge.c:101-155 | The top of memory is TOLUD in 16 MiB units; TSEG is 1, 2 or 8 MiB when decoded (none for size field 3) and graphics memory 1 or 8 MiB when decoded (none for other fields), and otherwise the TSEG region is empty and the graphics region keeps its earlier value. |
| I945Northbridge.StealMemoryLayout | src/northbridge/intel/i945/northbridge.c:104-155 | When TOLUD covers both stolen regions, TSEG ends at TOLUD, graphics memory ends where TSEG starts, and the memory left is TOLUD less both. |
| I945Northbridge.ResourcesMeaning | src/northbridge/intel/i945/northbridge.c:164-167 | RAM runs from 768 KiB to TOLUD, and decoded stolen regions lie inside it at its top without overlapping each other; every base and size reaches the resource helpers as a 32-bit KiB count. |
| I945Northbridge.HighTablesBase | src/northbridge/intel/i945/northbridge.c:173-175 | The high tables end exactly where the memory left for the system ends, when that memory can hold them. |
| I945Northbridge.SubsystemId | src/northbridge/intel/i945/northbridge.c:231-240 | With either ID 0 the device's own vendor/device word is copied; otherwise the low 16 bits hold the vendor ID and the high 16 bits the device ID. |
| ChromeEc.WaitReady | src/ec/google/chromeec/ec.c:52-72 | The wait succeeds exactly when one of the first 1000001 status reads shows neither busy bit, stops at the first such read, and otherwise gives -1 after every read was busy. |
| ChromeEc.RequestArgs | src/ec/google/chromeec/ec.c:133-151 | The argument block carries the host flag, the version and the size cut to a byte, with a checksum the controller's check accepts. |
| ChromeEc.ChecksumDetectsOneByte | src/ec/google/chromeec/ec.c:138-149 | Changing any single data byte of a checksummed frame makes the checksum check fail. |
| ChromeEc.ReadWindow | src/ec/google/chromeec/ec.c:191-196 | Byte `i` of the response is byte `i` of the controller's parameter window. |
| ChromeEc.WriteWindow | src/ec/google/chromeec/ec.c:141-146 | Byte `i` of the request data goes to port `i` of the parameter window. |
| ChromeEc.Command | src/ec/google/chromeec/ec.c:74-205 | The argument-block protocol is used exactly when advertised. It writes the data to the parameter window, then the argument block (flags with the from-host bit, version, size and checksum of the request), then the command; it succeeds exactly when the controller answers in time with status 0, its flag, a size within the buffer and a matching checksum, and then returns those bytes. The command-code field reads back the command after a timeout, the controller's status when it is non-zero, and 0 otherwise. The old protocol refuses a non-zero version without any write; for version 0 it writes nothing unless the controller is idle, then writes the data to the old window and the command, and succeeds exactly when the controller is idle before and after, returning the whole old window and the status byte. |
| ChromeEc.CallerStatusAsWrittenHidesFailure | src/ec/google/chromeec/ec.c:177-224 | A controller that answers status 0 without the to-host flag makes the exchange fail while the command-code field, which `kbbacklight` and `hello` return, is 0. |
| ChromeEc.CallerStatus | src/ec/google/chromeec/ec.c:218-224 | The corrected caller status is 0 exactly when the exchange succeeded with status 0, and is the command-code field whenever that is non-zero or the exchange succeeded. |
| ChromeEc.ResponseRoundTrip | src/ec/google/chromeec/ec.c:163-204 | A controller answering status 0 with its flag and a correctly checksummed payload within the buffer is accepted, and the firmware receives exactly that payload. |
| ChromeEc.BacklightPercent | src/ec/google/chromeec/ec.c:212-216 | A non-negative percent is sent as its remainder mod 101 and one already in 0..100 unchanged; a negative one becomes 0 or a byte of at least 156. |
| ChromeEc.PostPercentMeaning | src/ec/google/chromeec/ec.c:228-235 | A POST code shows as about three eighths of itself, always 0..100 so the backlight keeps it, and a later code never shows dimmer. |
| ChromeEc.QueryValue | src/ec/google/chromeec/ec.c:241-256 | A failed query reads 0. A successful one is below 2^(8n) for an n-byte buffer, and its byte `i` is the controller's byte `i` where one was sent and the buffer's earlier byte otherwise. |
| ChromeEc.LittleEndianBytes | src/ec/google/chromeec/ec.c:241-256 | A little-endian value built from n bytes is below 2^(8n) and gives back each of its bytes, so a query value determines the response buffer. |
| ChromeEc.GetEvent | src/ec/google/chromeec/ec.c:350-367 | Once both waits succeed the event is the data byte; after either timeout it is 0 (see Findings for the first timeout). |
| ChromeEc.GetEventStuckController | src/ec/google/chromeec/ec.c:343-367 | As written, a controller never ready yields event 1 on every read, so the logging loop never ends; the corrected read yields 0, and the two agree whenever the controller is ready. |
| H8dmrBusConf.Preset | src/mainboard/supermicro/h8dmr/get_bus_conf.c:84-88 | The two preset chain words and unit-id words are copied into the first two chain slots, the possible-chain count becomes 2, and every other slot is kept. |
| H8dmrBusConf.FirstBridges | src/mainboard/supermicro/h8dmr/get_bus_conf.c:109-120 | With the bridge at `sbdn + 6` present, its secondary bus and its subordinate bus plus one wrapped to a byte; without it the defaults 2 and 3. |
| H8dmrBusConf.ScanMcp55 | src/mainboard/supermicro/h8dmr/get_bus_conf.c:122-130 | The scan keeps the entries before `i`, and each later entry becomes its bridge's secondary bus or stays as it was when the bridge is absent. |
| H8dmrBusConf.ScanPcix | src/mainboard/supermicro/h8dmr/get_bus_conf.c:133-139 | Entry `i + 1` of the PCI-X table is the secondary bus of function `i` of device 0 behind MCP55 bus 2, and entry 0 is that bus once either bridge is found. |
| H8dmrBusConf.Mcp55Table | src/mainboard/supermicro/h8dmr/get_bus_conf.c:97-130 | The MCP55 table holds the chain's bus, the bridge at `sbdn + 6`'s secondary bus (default 2), the bridge at `sbdn + 0x0a`'s secondary bus or else the bus after `sbdn + 6`'s last one, and the secondary buses at `sbdn + 0x0b` to `sbdn + 0x0f` or 0. |
| H8dmrBusConf.PcixTable | src/mainboard/supermicro/h8dmr/get_bus_conf.c:132-140 | The PCI-X table stays all zero unless MCP55 bus 2 is non-zero, and is then the scan behind it. |
| H8dmrBusConf.GetBusConfTables | src/mainboard/supermicro/h8dmr/get_bus_conf.c:84-140 | After a first call, the MCP55 table is the chain's bus, the secondary bus of the bridge at `sbdn + 6` (else 2), that of the bridge at `sbdn + 0x0a` (else the bus after `sbdn + 6`'s subordinate one, wrapped to a byte, else 3), and those at `sbdn + 0x0b` to `sbdn + 0x0f` (else 0); `sbdn` and `sbdnb` are the low bytes of the two unit-id words; the PCI-X table is zero unless MCP55 bus 2 is non-zero, and then holds the secondary buses of functions 0 and 1 of device 0 behind it. |
| H8dmrBusConf.GetBusConfOnce | src/mainboard/supermicro/h8dmr/get_bus_conf.c:80-82 | After one call the configuration is done, and any later call returns it unchanged. |
| DinarBusConf.DefaultTypes | src/mainboard/amd/dinar/get_bus_conf.c:110-115 | Every bus is ISA except bus 0, which is PCI. |
| DinarBusConf.MarkRange | src/mainboard/amd/dinar/get_bus_conf.c:130-131 | Exactly the buses in the range become PCI; the others keep their type. |
| DinarBusConf.Sb700BusesAsWritten | src/mainboard/amd/dinar/get_bus_conf.c:125-132 | As written, the SB700 range is marked correctly below subordinate bus 255, and for 255 the end bound wraps to 0 and no bus is marked. |
| DinarBusConf.Sb700Buses | src/mainboard/amd/dinar/get_bus_conf.c:125-132 | For the corrected marking (see Findings), exactly the buses from the SB700 bridge's secondary to its subordinate one become PCI; the others keep their type. |
| DinarBusConf.Sb700BusesAgree | src/mainboard/amd/dinar/get_bus_conf.c:128-131 | Below subordinate bus 255 the byte-sized end bound does not wrap, and the code as written marks the same buses as the corrected range. |
| DinarBusConf.Sb700BusesAsWrittenMissesAll | src/mainboard/amd/dinar/get_bus_conf.c:128-131 | As written, an SB700 bridge spanning buses 1 to 255 marks none of them PCI, where the corrected range marks all of them. |
| DinarBusConf.ScanRd890Table | src/mainboard/amd/dinar/get_bus_conf.c:135-145 | The RD890 scan keeps the entries before `i`, and each later entry becomes its port bridge's secondary bus or stays as it was when the bridge is absent. |
| DinarBusConf.ScanRd890Types | src/mainboard/amd/dinar/get_bus_conf.c:135-145 | The scan marks PCI exactly the buses, other than 255, that some port bridge from `i` on has as its secondary bus, and keeps every other bus's type. |
| DinarBusConf.Rd890Reset | src/mainboard/amd/dinar/get_bus_conf.c:106-117 | The reset RD890 table holds the chain's bus in entry 0 and zero in the others. |
| DinarBusConf.GetBusConf | src/mainboard/amd/dinar/get_bus_conf.c:67-156 | A second call changes nothing; the first sets the done flag, the SB700 device number 0, the ISA bus 10, and the chain's bus in entry 0 of the SB700 table. Its bus types use the corrected SB700 marking (see Findings). |
| DinarBusConf.GetBusConfOnce | src/mainboard/amd/dinar/get_bus_conf.c:74-77 | After one call the configuration is done, and any later call returns it unchanged. |
| DinarBusConf.PresetBusZero | src/mainboard/amd/dinar/get_bus_conf.c:117-118 | The preset chain word puts both bridge tables on bus 0. |
| DinarBusConf.GetBusConfTables | src/mainboard/amd/dinar/get_bus_conf.c:101-145 | RD890 entry 0 is bus 0, each later entry is its port bridge's secondary bus or 0, and SB700 entry 1 is the SB700 bridge's secondary bus or 0. |
| DinarBusConf.GetBusConfTypes | src/mainboard/amd/dinar/get_bus_conf.c:110-145 | For the corrected SB700 marking (see Findings), a bus is PCI exactly when it is bus 0, lies behind the SB700 bridge, or is an RD890 port bridge's secondary bus other than 255; every other bus is ISA. |

## Left out

- Link training and the EPLL lock wait (`amdfam10/northbridge.c:177-185`, `exynos5250/clock.c:672-680`) are hardware polls. They become inputs: the link's training state, and `locked` of `ExynosPll.EpllSetRate`, saying whether the PLL locked before the timeout.
- `hypertransport_scan_chain`, `pci_scan_bus`, `set_config_map_reg`, `get_ht_c_index`, the DRAM base/mask accessors, the DctSel accessors, `hoist_memory`, `new_resource`/`probe_resource`, `get_sblk_pci1234` and `agesawrapper_amdinitlate` are defined outside these files. Their results are inputs or function parameters.
- `add_more_links`, `cpu_bus_scan` and `get_fx_devs` build linked device lists with allocation and are not modelled.
- The i915 JEDEC command sequence (`sdram_jedec_enable`), the fixed register writes and every `#if 0` block are ordered hardware writes or dead code.
- tRFC and refresh-rate detection (`raminit.c:796-879`) are not modelled.
- I915Cas.MaxRamSpeed: the controller's capability is a parameter. With the `#if 0` at `raminit.c:143-165`, the compiled `sdram_capabilities_max_supported_memory_frequency` always returns 533.
- The E7501 ranges lemmas require a top of low memory of at least 768 KiB. Below that, the C subtraction `tolmk - 768` wraps, and nothing is claimed about the result.
- I945Northbridge.StealMemoryLayout and I945Northbridge.ResourcesMeaning require TOLUD to cover the stolen regions. Below that, the 64-bit subtractions wrap; `StealMemory` models the wrap, and nothing more is claimed.
- I945Northbridge.HighTablesBase: `HIGH_MEMORY_SIZE` is a parameter.
- The i945 64 MiB PCIe BAR resource added in `mc_read_resources` (`i945/northbridge.c:195-215`) is a fixed constant report, and is not modelled.
- The other `ec.c` functions (event masks, USB charge mode, event logging, hello, init) are fixed-format commands built on `google_chromeec_command`. Only the query results and `get_event` are modelled.
- ChromeEc.Command: the `ec_lpc_host_args` layout (flags, version, size, checksum, one byte each) comes from a header that is not part of this model.
- The old protocol's data is copied from the old parameter window, and its result byte is an input.
- DinarBusConf.GetBusConf: the `bus_isa` values computed at `dinar/get_bus_conf.c:140-141` are overwritten by the final `bus_isa = 10`, so only that final value is modelled. `sbdn_rd890` is a parameter.
- H8dmrBusConf.GetBusConf: the first I/O APIC ID, from `get_apicid_base` or `CONFIG_MAX_PHYSICAL_CPUS`, is a parameter.
- Fam10Memory.DisableHoistMemory is compiled only without `CONFIG_AMDMCT`. It is modelled because the hoist hole logic is part of the allocator. The `hoist_memory` reset in the RAM split is not modelled.
- ExynosClock.I2sPrescaler: the field mask comes from a header that is not part of this model, so it is a parameter.
- Fam10Slots.MemWindow: with the extended configuration space, the source passes an MMIO window on the extended register to `normalize_resource` (`amdfam10/northbridge.c:462-466`, `479-482`). That helper is defined outside these files, and the model does not apply it.
- Fam10Chain.ScanChains: the model is built with `CONFIG_PCI_BUS_SEGN_BITS` = 0, so `check_segn` (`amdfam10/northbridge.c:308-310`) is not called. The segment-per-chain layout of `CONFIG_SB_HT_CHAIN_ON_BUS0` > 1 (lines 210-214) is not modelled either.
- All `printk` output is left out.
- `ram_resource`, `uma_resource` and `mmio_resource` are assumed to take their KiB base and size as a 32-bit `unsigned long` (`Common.ResourceK`), in the i945, E7501 and fam10 models alike. The header that declares them is not part of this model.
- The fam10 model is built without `CONFIG_GFXUMA`: the UMA resource at `amdfam10/northbridge.c:1089-1091` and the UMA-based high_tables_base at line 1081 are not modelled.
- PCI_DEVFN is modelled as slot bits 7:3 and function bits 2:0. The header is not part of this model.
- Fam10Slots.SetResource: resources are keyed by node, register index and link separately. This assumes `IOINDEX` keeps the link (bits 19:16) apart from the extended register index (bits 31:24); the header defining it is not part of this model.
- Fam10Memory.PiecesSound: proved for the corrected split only; as written, a node that starts inside the MMIO window and ends above 4 GiB makes the size wrap (see Findings).
- Fam10Memory.TailSound: proved for the corrected split only, for the same reason.
- Fam10Memory.NodeRamSound: proved for the corrected split only, for the same reason, and only for a node that ends below 4 TiB; above that the 32-bit KiB argument truncates (Fam10Memory.NodeRamTruncatesAbove4TiB).
- Fam10Memory.DomainRamSound: proved only when every populated node ends below 4 TiB, for the same truncation.
- E7501Northbridge.RangesConserve: proved for the corrected plan only; as written, the reported RAM can exceed installed memory (see Findings).
- Fam10Memory.DisableHoistConserves: holds only for holes that are whole 128 MiB steps, with the owner's enable bit set and room for the later nodes to move. The hoist register counts in 16 MiB steps, but the base and limit fields count in 128 MiB steps, so a smaller hole moves the limit by a full step (Fam10Memory.DisableHoistSubStepHole), and no register update could be exact (Fam10Memory.SubStepHoleNotExact).

## Findings

| source | as written | input that shows it | evidently intended | confidence | as-written member | corrected member |
|---|---|---|---|---|---|---|
| src/northbridge/amd/amdfam10/northbridge.c:1066-1072 | A node that starts between the MMIO base and 4 GiB and ends above 4 GiB has `4 GiB - mmio_basek` subtracted from its size. The unsigned size wraps, and `ram_resource` receives 4 TiB less 0.25 GiB. | MMIO base 3 GiB, node [3.5 GiB, 4.25 GiB) | The part above 4 GiB, 0.25 GiB, is reported at 4 GiB. | not executed | Fam10Memory.NodeRamAsWrittenWraps | Fam10Memory.NodeRamSound |
| src/northbridge/intel/i915/raminit.c:2578-2589 | The ESMRAM cases subtract 0x10000, 0x20000 and 0x80000 bytes for TSEG sizes the comments name as 1, 2 and 8 MB. | graphics off, TOLUD 0x40, ESMRAM 0x01: top of RAM 0x3fff_0000 | 0x3ff0_0000, the full 1 MiB below TOLUD | not executed | I915Registers.TopOfRamAsWrittenMissesTseg | I915Registers.TopOfRamMeaning |
| src/mainboard/amd/dinar/get_bus_conf.c:128-131 | The end bound `bus_isa` is a `u8` set to the subordinate bus plus one. It wraps to 0 for subordinate 255, and the marking loop then marks nothing. | SB700 bridge with secondary 1 and subordinate 255 | Buses 1 to 255 marked PCI. | not executed | DinarBusConf.Sb700BusesAsWrittenMissesAll | DinarBusConf.GetBusConfTypes |
| src/cpu/samsung/exynos5250/clock.c:230-233 | The EPLL K term is masked and then divided by 65536 before it is added to MDIV. The fraction is always lost. | the 73.728 MHz EPLL table row | The row reads back as 73.728 MHz, within 10 Hz. | not executed | ExynosPll.EpllAsWrittenDropsFraction | ExynosPll.EpllReadBack |
| src/northbridge/intel/e7501/northbridge.c:58-71 | The remap window spans the whole hole below 4 GiB, and lines 94-97 report all of it as RAM, even when less memory than that is hidden behind it. | DRB 0x30 (3 GiB), PCI hole from 2 GiB: a 2 GiB window is reported | A 1 GiB window, the memory the hole hides. | not executed | E7501Northbridge.AsWrittenThreeGiB | E7501Northbridge.RangesConserve |
| src/ec/google/chromeec/ec.c:350-355 | A timeout before the query returns event 1, not 0. The event-logging loop at lines 343-346 stops only on 0. | a controller that never becomes ready | 0 ("no event"), as on the second timeout. | not executed | ChromeEc.GetEventStuckController | ChromeEc.GetEvent |
| src/ec/google/chromeec/ec.c:177-224 | `google_chromeec_kbbacklight` and `google_chromeec_hello` return the command-code field. After a protocol mismatch, an oversized answer or a bad checksum that field is 0, so the failed command reads as success. | controller answers status 0 without the to-host flag | a non-zero result for a failed command | not executed | ChromeEc.CallerStatusAsWrittenHidesFailure | ChromeEc.CallerStatus |

=== FILE: arith.dfy ===
/**
 * Facts about integer division and multiplication that the clock and
 * memory arithmetic relies on, proved once in small steps.
 */
module Arith {

  lemma MulAtLeast(a: int, b: int)
    requires a >= 1 && b > 0
    ensures a * b >= b
  {
    assert a * b == (a - 1) * b + b;
  }

  lemma MulMono(a: int, a': int, b: int)
    requires a <= a' && b >= 0
    ensures a * b <= a' * b
  {
    assert a' * b == a * b + (a' - a) * b;
  }

  /** Quotient and remainder are the unique pair with `0 <= r < b`. */
  lemma DivModUnique(x: int, b: int, q: int, r: int)
    requires b > 0 && 0 <= r < b && x == q * b + r
    ensures x / b == q && x % b == r
  {
    var q0 := x / b;
    var r0 := x % b;
    assert x == q0 * b + r0;
    assert (q - q0) * b == r0 - r;
    if q > q0 {
      MulAtLeast(q - q0, b);
    } else if q < q0 {
      MulAtLeast(q0 - q, b);
    }
  }

  /** Adding whole multiples of the divisor adds to the quotient. */
  lemma DivAddMultiple(a: nat, c: nat, b: nat)
    requires b > 0
    ensures (a * b + c) / b == a + c / b
    ensures (a * b + c) % b == c % b
  {
    assert c == (c / b) * b + c % b;
    assert a * b + c == (a + c / b) * b + c % b;
    DivModUnique(a * b + c, b, a + c / b, c % b);
  }

  /** A quotient is below `q` whenever the dividend is below `q` divisors. */
  lemma DivBelow(c: nat, b: nat, q: nat)
    requires b > 0 && c < q * b
    ensures c / b < q
  {
    assert c == (c / b) * b + c % b;
    if c / b >= q {
      MulMono(q, c / b, b);
    }
  }

  /** Dividing by `a` and then by `b` is dividing by `a * b`. */
  lemma DivDiv(x: nat, a: nat, b: nat)
    requires a > 0 && b > 0
    ensures x / a / b == x / (a * b)
  {
    var q := x / a / b;
    var r1 := x % a;
    var r2 := (x / a) % b;
    assert x == (x / a) * a + r1;
    assert x / a == q * b + r2;
    assert x == (q * b + r2) * a + r1;
    assert x == q * (a * b) + (r2 * a + r1);
    MulMono(r2, b - 1, a);
    assert r2 * a + r1 < a * b;
    DivModUnique(x, a * b, q, r2 * a + r1);
  }

  /** Dividing by a positive number never increases. */
  lemma DivAtMost(x: nat, b: nat)
    requires b > 0
    ensures x / b <= x
  {
    assert x == (x / b) * b + x % b;
    if x / b > 0 {
      MulAtLeast(b, x / b);
    }
  }
}

=== FILE: chromeec_ec.dfy ===
/**
 * The ChromeOS embedded controller's LPC host-command protocol as the
 * firmware drives it: the bounded wait for the controller to go idle, the
 * choice between the argument-block protocol and the old one, the
 * checksummed request frame, the acceptance rules for a response, and the
 * small value mappings built on top (keyboard backlight, POST codes,
 * queries that answer 0 on failure).
 *
 * Port I/O is modelled as data: what the controller answers is an input
 * (a status byte per poll, the bytes of its parameter windows), and what
 * the firmware writes is an output list of (port, byte) pairs. The flag
 * and port constants come from a header that is not part of this model,
 * so the flag masks are parameters and the ports are named symbolically.
 */
module ChromeEc {
  import opened Common

  /** `x & mask != 0` for two bytes. */
  predicate AnySet(x: Byte, mask: Byte)
  {
    (x as bv8) & (mask as bv8) != 0
  }

  /** The flag masks of the protocol header. */
  datatype Flags = Flags(
    busy: Byte,           // command-register PENDING | BUSY
    argsSupported: Byte,  // host-command flag: the argument block is understood
    fromHost: Byte,       // argument flag set by the host on a request
    toHost: Byte)         // argument flag set by the controller on a response

  // ---------------------------------------------------------------------
  // Waiting for the controller
  // ---------------------------------------------------------------------

  /** Polls allowed after the first read before giving up (one second of 1 us delays). */
  const MaxEcTimeoutUs: nat := 1_000_000

  /**
   * Poll the status register, `status(k)` being the `k`-th read, until
   * neither busy bit is set. Returns 0 once idle and -1 once
   * `MaxEcTimeoutUs + 1` reads were all busy; `polls` counts the reads.
   * It succeeds exactly when one of those reads is idle, and then stops
   * at the first idle read.
   */
  method WaitReady(status: nat -> Byte, flags: Flags) returns (r: int, polls: nat)
    ensures r == 0 || r == -1
    ensures r == 0 <==> exists k :: 0 <= k <= MaxEcTimeoutUs && !AnySet(status(k), flags.busy)
    ensures 1 <= polls <= MaxEcTimeoutUs + 1
    ensures forall k :: 0 <= k < polls - 1 ==> AnySet(status(k), flags.busy)
    ensures r == 0 ==> !AnySet(status(polls - 1), flags.busy)
    ensures r == -1 ==> polls == MaxEcTimeoutUs + 1 && AnySet(status(polls - 1), flags.busy)
  {
    var s := status(0);
    var count: nat := 0;
    while AnySet(s, flags.busy)
      invariant count <= MaxEcTimeoutUs
      invariant s == status(count)
      invariant forall k :: 0 <= k < count ==> AnySet(status(k), flags.busy)
      decreases MaxEcTimeoutUs - count
    {
      if count == MaxEcTimeoutUs {
        return -1, count + 1;
      }
      count := count + 1;
      s := status(count);
    }
    return 0, count + 1;
  }

  // ---------------------------------------------------------------------
  // Frames
  // ---------------------------------------------------------------------

  /** The four-byte argument block exchanged before and after a command. */
  datatype Args = Args(flags: Byte, version: Byte, dataSize: Byte, checksum: Byte)

  /** The mod-256 sum of the command code, the argument bytes and the data. */
  function Checksum(code: Byte, flags: Byte, version: Byte, size: Byte, data: seq<Byte>): Byte
  {
    (code + flags + version + size + Sum(data)) % 256
  }

  /** The check a frame passes: its checksum byte is the sum over its other bytes. */
  predicate ChecksumOk(code: Byte, args: Args, data: seq<Byte>)
  {
    args.checksum == Checksum(code, args.flags, args.version, args.dataSize, data)
  }

  /**
   * The argument block of a request: the host flag, the version, the data
   * size cut to a byte, and the checksum over all of them and the data.
   */
  function RequestArgs(flags: Flags, code: Byte, version: Byte, data: seq<Byte>): (a: Args)
    ensures a.flags == flags.fromHost && a.version == version && a.dataSize == |data| % 256
    ensures ChecksumOk(code, a, data)
  {
    var size := |data| % 256;
    Args(flags.fromHost, version, size, Checksum(code, flags.fromHost, version, size, data))
  }

  lemma {:induction false} SumUpdate(s: seq<Byte>, i: nat, v: Byte)
    requires i < |s|
    ensures Sum(s[i := v]) + s[i] == Sum(s) + v
  {
    if i > 0 {
      assert s[i := v][1..] == s[1..][i - 1 := v];
      SumUpdate(s[1..], i - 1, v);
    }
  }

  /**
   * The checksum catches any single corrupted data byte: the frame with
   * one byte replaced by a different value fails the check that the
   * original passes.
   */
  lemma ChecksumDetectsOneByte(code: Byte, args: Args, data: seq<Byte>, i: nat, v: Byte)
    requires i < |data| && v != data[i]
    requires ChecksumOk(code, args, data)
    ensures !ChecksumOk(code, args, data[i := v])
  {
    SumUpdate(data, i, v);
  }

  // ---------------------------------------------------------------------
  // A command
  // ---------------------------------------------------------------------

  /** The ports the firmware writes: the command register and the byte windows. */
  datatype Port = HostCmd | HostParam(i: nat) | HostArgs(i: nat) | OldParam(i: nat)

  datatype Out = Out(port: Port, value: Byte)

  /** A command: its code, version, request data and the size of the response buffer. */
  datatype Request = Request(code: Byte, version: Byte, data: seq<Byte>, sizeOut: nat)
  {
    predicate Valid() { |data| < U16 && sizeOut < U16 }
  }

  /**
   * What the controller presents: the two memory-mapped ID bytes and the
   * host-command flags, whether it goes idle before the request and after
   * the command, the status byte, the argument block it leaves, and its
   * two parameter windows.
   */
  datatype Ec = Ec(id0: Byte, id1: Byte, hostCmdFlags: Byte,
                   readyBefore: bool, readyAfter: bool,
                   status: Byte, argsBack: Args,
                   param: nat -> Byte, oldParam: nat -> Byte)

  /**
   * The outcome: 0 or 1, the command-code field (the controller's status
   * once read), the response size field, the response bytes stored, and
   * every byte written to a port in order.
   */
  datatype Exchange = Exchange(ret: int, code: Byte, sizeOut: nat, data: seq<Byte>, writes: seq<Out>)

  /** The controller advertises the argument-block protocol: ID "EC" and the flag. */
  predicate ArgsSupported(ec: Ec, flags: Flags)
  {
    ec.id0 == 'E' as Byte && ec.id1 == 'C' as Byte && AnySet(ec.hostCmdFlags, flags.argsSupported)
  }

  /** `n` bytes read from a window. */
  function ReadWindow(window: nat -> Byte, n: nat): (s: seq<Byte>)
    ensures |s| == n && forall i :: 0 <= i < n ==> s[i] == window(i)
  {
    seq(n, (i: nat) => window(i))
  }

  /** The request data written to a window, byte `i` to `port(i)`. */
  function WriteWindow(data: seq<Byte>, port: nat -> Port): (w: seq<Out>)
    ensures |w| == |data| && forall i :: 0 <= i < |data| ==> w[i] == Out(port(i), data[i])
  {
    seq(|data|, i requires 0 <= i < |data| => Out(port(i), data[i]))
  }

  /** The argument block written to its window. */
  function ArgsOut(a: Args): seq<Out>
  {
    [Out(HostArgs(0), a.flags), Out(HostArgs(1), a.version),
     Out(HostArgs(2), a.dataSize), Out(HostArgs(3), a.checksum)]
  }

  /**
   * The argument-block protocol: write the data and the argument block,
   * issue the command, wait, then accept the response only if the status
   * is 0, the controller set its flag, the size fits the buffer and the
   * checksum matches. The size field and the data are updated before the
   * checksum test.
   */
  function CommandArgs(req: Request, ec: Ec, flags: Flags): (x: Exchange)
    requires req.Valid()
  {
    var a := RequestArgs(flags, req.code, req.version, req.data);
    var writes := WriteWindow(req.data, (i: nat) => HostParam(i)) + ArgsOut(a) + [Out(HostCmd, req.code)];
    if !ec.readyAfter then Exchange(1, req.code, req.sizeOut, [], writes)
    else if ec.status != 0 then Exchange(1, ec.status, req.sizeOut, [], writes)
    else if !AnySet(ec.argsBack.flags, flags.toHost) then Exchange(1, 0, req.sizeOut, [], writes)
    else if ec.argsBack.dataSize > req.sizeOut then Exchange(1, 0, req.sizeOut, [], writes)
    else
      var data := ReadWindow(ec.param, ec.argsBack.dataSize);
      var ok := ChecksumOk(req.code, ec.argsBack, data);
      Exchange(if ok then 0 else 1, 0, ec.argsBack.dataSize, data, writes)
  }

  /**
   * The old protocol: only version 0; wait, write the data, issue the
   * command, wait, then read the whole buffer and the status byte.
   */
  function CommandOld(req: Request, ec: Ec): (x: Exchange)
    requires req.Valid()
  {
    if req.version != 0 then Exchange(1, req.code, req.sizeOut, [], [])
    else if !ec.readyBefore then Exchange(1, req.code, req.sizeOut, [], [])
    else
      var writes := WriteWindow(req.data, (i: nat) => OldParam(i)) + [Out(HostCmd, req.code)];
      if !ec.readyAfter then Exchange(1, req.code, req.sizeOut, [], writes)
      else Exchange(0, ec.status, req.sizeOut, ReadWindow(ec.oldParam, req.sizeOut), writes)
  }

  /**
   * A host command. The argument-block protocol is used exactly when the
   * controller advertises it; the old one refuses any version but 0
   * before touching a port. With the argument-block protocol the command
   * succeeds exactly when the controller answers in time with status 0,
   * its flag, a size within the buffer and a matching checksum, and then
   * the response is that many bytes of its window. The request frame
   * always carries a checksum the controller's check accepts. With the
   * old protocol a version-0 command succeeds exactly when the controller
   * is idle before and after it; nothing is written unless it was idle
   * before, and the result is the whole old window and the status byte.
   * The command-code field keeps the command's code after a timeout or a
   * refusal; with the argument-block protocol it otherwise holds the
   * status byte, so it is 0 after every later failure.
   */
  function Command(req: Request, ec: Ec, flags: Flags): (x: Exchange)
    requires req.Valid()
    ensures x.ret == 0 || x.ret == 1
    ensures !ArgsSupported(ec, flags) && req.version != 0 ==> x.ret == 1 && x.writes == []
    ensures !ArgsSupported(ec, flags) && req.version == 0 ==>
      (x.ret == 0 <==> ec.readyBefore && ec.readyAfter) &&
      (x.ret == 0 ==> x.code == ec.status && x.sizeOut == req.sizeOut &&
                      x.data == ReadWindow(ec.oldParam, req.sizeOut)) &&
      (!ec.readyBefore ==> x.writes == []) &&
      (ec.readyBefore ==>
        |x.writes| == |req.data| + 1 && x.writes[|req.data|] == Out(HostCmd, req.code) &&
        forall i :: 0 <= i < |req.data| ==> x.writes[i] == Out(OldParam(i), req.data[i]))
    ensures !ArgsSupported(ec, flags) && x.ret != 0 ==> x.code == req.code
    ensures ArgsSupported(ec, flags) ==>
      |x.writes| == |req.data| + 5 &&
      (forall i :: 0 <= i < |req.data| ==> x.writes[i] == Out(HostParam(i), req.data[i])) &&
      x.writes[|req.data|..|req.data| + 4] == ArgsOut(RequestArgs(flags, req.code, req.version, req.data))
    ensures ArgsSupported(ec, flags) ==>
      (!ec.readyAfter ==> x.code == req.code) &&
      (ec.readyAfter && ec.status != 0 ==> x.code == ec.status) &&
      (ec.readyAfter && ec.status == 0 ==> x.code == 0)
    ensures ArgsSupported(ec, flags) ==>
      var a := ec.argsBack;
      (x.ret == 0 <==>
        (ec.readyAfter && ec.status == 0 && AnySet(a.flags, flags.toHost) && a.dataSize <= req.sizeOut &&
         ChecksumOk(req.code, a, ReadWindow(ec.param, a.dataSize)))) &&
      (x.ret == 0 ==> x.sizeOut == a.dataSize && x.data == ReadWindow(ec.param, a.dataSize)) &&
      |x.writes| == |req.data| + 5 && x.writes[|req.data| + 4] == Out(HostCmd, req.code) &&
      ChecksumOk(req.code, Args(x.writes[|req.data|].value, x.writes[|req.data| + 1].value,
                               x.writes[|req.data| + 2].value, x.writes[|req.data| + 3].value), req.data)
  {
    if ArgsSupported(ec, flags) then CommandArgs(req, ec, flags) else CommandOld(req, ec)
  }

  /** The argument block a well-behaved controller leaves for a response. */
  function ResponseArgs(flags: Flags, code: Byte, version: Byte, payload: seq<Byte>): (a: Args)
    requires |payload| < 256
  {
    Args(flags.toHost, version, |payload|, Checksum(code, flags.toHost, version, |payload|, payload))
  }

  /**
   * A controller that answers status 0 with its flag set and a correctly
   * checksummed payload no larger than the buffer is always accepted, and
   * the firmware receives exactly that payload.
   */
  lemma ResponseRoundTrip(req: Request, ec: Ec, flags: Flags, payload: seq<Byte>)
    requires req.Valid() && |payload| < 256 && |payload| <= req.sizeOut
    requires ArgsSupported(ec, flags) && ec.readyAfter && ec.status == 0 && flags.toHost != 0
    requires ec.argsBack == ResponseArgs(flags, req.code, ec.argsBack.version, payload)
    requires forall i :: 0 <= i < |payload| ==> ec.param(i) == payload[i]
    ensures Command(req, ec, flags).ret == 0
    ensures Command(req, ec, flags).data == payload
  {
    assert AnySet(flags.toHost, flags.toHost) by {
      SelfMask(flags.toHost);
    }
    assert ReadWindow(ec.param, |payload|) == payload;
  }

  lemma SelfMask(x: Byte)
    requires x != 0
    ensures AnySet(x, x)
  {
    assert (x as bv8) & (x as bv8) == x as bv8;
  }

  // ---------------------------------------------------------------------
  // Values built on commands
  // ---------------------------------------------------------------------

  /** C's `%`: the remainder takes the sign of the dividend. */
  function CRem(a: int, b: nat): int
    requires b > 0
  {
    if a >= 0 then a % b else -((-a) % b)
  }

  /** What the keyboard-backlight and hello commands return as written: the command-code field. */
  function CallerStatusAsWritten(x: Exchange): Byte
  {
    x.code
  }

  /**
   * As written, a failed command can be reported as success: a controller
   * that answers status 0 but does not set its flag in the argument block
   * fails the command, and the command-code field the caller returns is 0.
   */
  lemma CallerStatusAsWrittenHidesFailure()
    ensures var flags := Flags(1, 1, 1, 2);
      var window := (i: nat) => 0;
      var ec := Ec('E' as Byte, 'C' as Byte, 1, true, true, 0, Args(0, 0, 0, 0), window, window);
      var x := Command(Request(0x22, 0, [], 1), ec, flags);
      x.ret == 1 && CallerStatusAsWritten(x) == 0
  {
  }

  /**
   * The status a caller should return: the controller's status byte after
   * a completed command, and a non-zero value after any failure, so 0
   * means exactly that the command succeeded with status 0.
   */
  function CallerStatus(x: Exchange): (s: Byte)
    ensures s == 0 <==> x.ret == 0 && x.code == 0
    ensures x.ret == 0 ==> s == x.code
    ensures x.ret != 0 && x.code != 0 ==> s == x.code
  {
    if x.ret != 0 && x.code == 0 then 1 else x.code
  }

  /**
   * The keyboard-backlight byte sent for `percent`: reduced mod 101 with
   * C's remainder and stored in a byte. A non-negative percent becomes
   * 0..100 and one already in range is sent unchanged; a negative one
   * becomes 0 or a byte of 156 or more.
   */
  function BacklightPercent(percent: int): (r: Byte)
    ensures percent >= 0 ==> r <= 100 && r == percent % 101
    ensures 0 <= percent <= 100 ==> r == percent
    ensures percent < 0 ==> r == 0 || r >= 156
  {
    Wrap(CRem(percent, 101), U8)
  }

  /** The backlight percent shown for a POST code. */
  function PostPercent(postcode: Byte): (r: Byte)
  {
    postcode / 4 + postcode / 8
  }

  /**
   * A POST code is shown as roughly three eighths of itself: never more,
   * less by under two; it always lies in 0..100 so the backlight keeps it,
   * and a later code never shows dimmer.
   */
  lemma PostPercentMeaning(p: Byte, q: Byte)
    ensures 8 * PostPercent(p) <= 3 * p < 8 * PostPercent(p) + 16
    ensures PostPercent(p) <= 94 && BacklightPercent(PostPercent(p)) == PostPercent(p)
    ensures p <= q ==> PostPercent(p) <= PostPercent(q)
  {
    var a, b := p / 8, p % 8;
    assert p == 8 * a + b;
    assert p / 4 == 2 * a + b / 4;
    assert PostPercent(p) == 3 * a + b / 4;
    if p <= q {
      assert p / 4 <= q / 4 && p / 8 <= q / 8;
    }
  }

  /** Little-endian value of a byte string. */
  function LittleEndian(s: seq<Byte>): nat
  {
    if |s| == 0 then 0 else s[0] + 256 * LittleEndian(s[1..])
  }

  /** `v >> (8 * i)`. */
  function Shift8(v: nat, i: nat): nat
  {
    if i == 0 then v else Shift8(v / 256, i - 1)
  }

  /** Byte `i` (from the least significant) of `v`. */
  function ByteAt(v: nat, i: nat): Byte
  {
    Shift8(v, i) % 256
  }

  /** A little-endian value has exactly the bytes it was built from, and no more. */
  lemma {:induction false} LittleEndianBytes(s: seq<Byte>)
    ensures LittleEndian(s) < Pow2(8 * |s|)
    ensures forall i :: 0 <= i < |s| ==> ByteAt(LittleEndian(s), i) == s[i]
  {
    if |s| > 0 {
      var t := s[1..];
      LittleEndianBytes(t);
      var v := LittleEndian(s);
      assert v == s[0] + 256 * LittleEndian(t);
      assert v % 256 == s[0] && v / 256 == LittleEndian(t);
      forall i | 0 <= i < |s|
        ensures ByteAt(v, i) == s[i]
      {
        if i > 0 {
          assert Shift8(v, i) == Shift8(LittleEndian(t), i - 1);
          assert t[i - 1] == s[i];
        }
      }
      assert Pow2(8) == 256;
      Pow2Add(8, 8 * |t|);
      assert 8 * |s| == 8 + 8 * |t|;
    }
  }

  /**
   * The response buffer after a command: the bytes the controller sent,
   * cut to the buffer, followed by the earlier contents `prior` of the rest.
   */
  function Buffer(data: seq<Byte>, prior: seq<Byte>): (b: seq<Byte>)
    ensures |b| == |prior|
    ensures forall i :: 0 <= i < |prior| ==> b[i] == (if i < |data| then data[i] else prior[i])
  {
    seq(|prior|, i requires 0 <= i < |prior| => if i < |data| then data[i] else prior[i])
  }

  /**
   * A query (event mask, board version): 0 when the command fails, else
   * the little-endian value of the response buffer: its byte `i` is the
   * controller's byte `i` where it sent one and the earlier byte `prior[i]`
   * elsewhere, and it has no bytes beyond the buffer.
   */
  function QueryValue(x: Exchange, prior: seq<Byte>): (v: nat)
    ensures x.ret != 0 ==> v == 0
    ensures x.ret == 0 ==> v < Pow2(8 * |prior|)
    ensures x.ret == 0 ==>
      forall i :: 0 <= i < |prior| ==> ByteAt(v, i) == (if i < |x.data| then x.data[i] else prior[i])
    ensures x.ret == 0 && |x.data| == |prior| ==> v == LittleEndian(x.data)
    ensures x.ret == 0 && |x.data| == 0 ==> v == LittleEndian(prior)
  {
    if x.ret != 0 then 0
    else
      var b := Buffer(x.data, prior);
      LittleEndianBytes(b);
      assert |x.data| == |prior| ==> b == x.data;
      assert |x.data| == 0 ==> b == prior;
      LittleEndian(b)
  }

  // ---------------------------------------------------------------------
  // ACPI events
  // ---------------------------------------------------------------------

  /**
   * The pending ACPI event as written: 1 when the controller is not ready
   * for the query, 0 when it does not answer it, else its data byte.
   */
  function GetEventAsWritten(readyBefore: bool, readyAfter: bool, data: Byte): Byte
  {
    if !readyBefore then 1 else if !readyAfter then 0 else data
  }

  /** The pending ACPI event: the data byte once both waits succeed, 0 ("none") on either timeout. */
  function GetEvent(readyBefore: bool, readyAfter: bool, data: Byte): (e: Byte)
    ensures readyBefore && readyAfter ==> e == data
    ensures !(readyBefore && readyAfter) ==> e == 0
    ensures e != 0 ==> readyBefore && readyAfter && e == data
  {
    if !readyBefore || !readyAfter then 0 else data
  }

  /**
   * Event logging reads events until one is 0. As written, a controller
   * that never becomes ready yields event 1 on every read, so the loop
   * never ends; the corrected read yields 0 and the loop stops at once.
   * The two agree whenever the controller is ready for the query.
   */
  lemma GetEventStuckController(data: Byte)
    ensures GetEventAsWritten(false, false, data) == 1
    ensures GetEventAsWritten(false, true, data) == 1
    ensures GetEvent(false, false, data) == 0 && GetEvent(false, true, data) == 0
    ensures forall ready: bool :: GetEventAsWritten(true, ready, data) == GetEvent(true, ready, data)
  {
  }
}

=== FILE: common.dfy ===
/**
 * Shared vocabulary for the firmware models: optional values, results that
 * model a fatal `die()`, fixed-width unsigned arithmetic and small sequence
 * helpers.
 */
module Common {

  /** A value that may be absent, such as a device that was not found. */
  datatype Option<T> = None | Some(value: T)

  /** The outcome of a step that can halt the firmware with `die()`. */
  datatype Result<T> = Ok(value: T) | Die(msg: string)

  /** An unsigned 8-bit value. */
  type Byte = x: nat | x < 0x100

  const U8: nat := 0x100
  const U16: nat := 0x1_0000
  const U32: nat := 0x1_0000_0000
  const U64: nat := 0x1_0000_0000_0000_0000

  /** Kilobytes in 4 GiB. */
  const FourGiBK: nat := 4 * 1024 * 1024

  /** The value a C unsigned integer of `m` values holds after storing `x`. */
  function Wrap(x: int, m: nat): (r: nat)
    requires m > 0
    ensures r < m
    ensures 0 <= x < m ==> r == x
    ensures 0 - m <= x < 0 ==> r == x + m
    ensures m <= x < 2 * m ==> r == x - m
  {
    WrapFacts(x, m);
    x % m
  }

  /**
   * A base or size in KiB as the resource helpers (`ram_resource`,
   * `uma_resource`, `mmio_resource`) receive it: a 32-bit `unsigned long`.
   */
  function ResourceK(x: int): (r: nat)
    ensures r < U32
    ensures 0 <= x < U32 ==> r == x
  {
    Wrap(x, U32)
  }

  lemma WrapFacts(x: int, m: nat)
    requires m > 0
    ensures 0 <= x % m < m
    ensures 0 <= x < m ==> x % m == x
    ensures 0 - m <= x < 0 ==> x % m == x + m
    ensures m <= x < 2 * m ==> x % m == x - m
  {
  }

  /** 2 to the power `n`. */
  function Pow2(n: nat): (r: nat)
    ensures r >= 1
  {
    if n == 0 then 1 else 2 * Pow2(n - 1)
  }

  /** `x >> n` for an unbounded natural. */
  function Shr(x: nat, n: nat): (r: nat)
    ensures r <= x
  {
    if n == 0 then x else Shr(x / 2, n - 1)
  }

  lemma {:induction false} Pow2Add(a: nat, b: nat)
    ensures Pow2(a + b) == Pow2(a) * Pow2(b)
  {
    if a > 0 {
      Pow2Add(a - 1, b);
    }
  }

  lemma {:induction false} Pow2Monotone(a: nat, b: nat)
    requires a <= b
    ensures Pow2(a) <= Pow2(b)
  {
    if a < b {
      Pow2Monotone(a, b - 1);
    }
  }

  /** Sum of a sequence of naturals. */
  function Sum(s: seq<nat>): (r: nat)
    ensures |s| > 0 ==> r >= s[0]
  {
    if |s| == 0 then 0 else s[0] + Sum(s[1..])
  }

  lemma {:induction false} SumAppend(a: seq<nat>, b: seq<nat>)
    ensures Sum(a + b) == Sum(a) + Sum(b)
  {
    if |a| == 0 {
      assert a + b == b;
    } else {
      assert (a + b)[1..] == a[1..] + b;
      SumAppend(a[1..], b);
    }
  }
}

=== FILE: dinar_bus_conf.dfy ===
/**
 * The AMD Dinar bus map: run once, it marks which of the 256 buses are
 * PCI buses (the rest default to ISA), records the buses behind the SB700
 * south bridge and behind the RD890 north bridge's ports, and leaves the
 * ISA bus number at 10.
 */
module DinarBusConf {
  import opened Common
  import opened PciSlots

  /** The preset chain word: bus number in bits 23:16. */
  const Pci1234Preset: nat := 0x0000ff0

  /** Bus-type values: 0 for ISA (the default), 1 for PCI. */
  const Isa: nat := 0
  const Pci: nat := 1

  /** The ISA bus number left for the interrupt tables. */
  const IsaBus: Byte := 10

  /** RD890 table entries: the bus itself and up to 13 port bridges. */
  const Rd890Entries: nat := 14

  /** The board's globals: the do-once flag and the bus tables. */
  datatype State = State(done: bool, busIsa: Byte, busSb700: seq<Byte>, busRd890: seq<Byte>,
                         busType: seq<nat>, sbdnSb700: nat)

  /** Bus types with every bus ISA except bus 0. */
  function DefaultTypes(): (t: seq<nat>)
    ensures |t| == 256 && t[0] == Pci && forall b :: 1 <= b < 256 ==> t[b] == Isa
  {
    seq(256, b => if b == 0 then Pci else Isa)
  }

  /** `t` with every bus in [lo, hi) marked PCI. */
  function MarkRange(t: seq<nat>, lo: nat, hi: nat): (r: seq<nat>)
    requires |t| == 256 && hi <= 256
    ensures |r| == 256
    ensures forall b :: 0 <= b < 256 ==> r[b] == (if lo <= b < hi then Pci else t[b])
  {
    seq(256, b requires 0 <= b < 256 => if lo <= b < hi then Pci else t[b])
  }

  /**
   * The buses behind the SB700 bridge as written: from its secondary bus
   * up to, but not including, its subordinate bus plus one computed in a
   * byte, which is 0 for subordinate bus 255.
   */
  function Sb700BusesAsWritten(t: seq<nat>, br: Bridge): (r: seq<nat>)
    requires |t| == 256
    ensures |r| == 256
    ensures br.subordinate == 255 ==> r == t
    ensures br.subordinate < 255 ==> forall b :: 0 <= b < 256 ==>
      r[b] == (if br.secondary <= b <= br.subordinate then Pci else t[b])
  {
    MarkRange(t, br.secondary, Wrap(br.subordinate + 1, U8))
  }

  /** The buses behind the SB700 bridge: every bus from its secondary to its subordinate one. */
  function Sb700Buses(t: seq<nat>, br: Bridge): (r: seq<nat>)
    requires |t| == 256
    ensures |r| == 256
    ensures forall b :: 0 <= b < 256 ==>
      r[b] == (if br.secondary <= b <= br.subordinate then Pci else t[b])
  {
    MarkRange(t, br.secondary, br.subordinate + 1)
  }

  /** Below subordinate bus 255 the two agree. */
  lemma Sb700BusesAgree(t: seq<nat>, br: Bridge)
    requires |t| == 256 && br.subordinate < 255
    ensures Sb700BusesAsWritten(t, br) == Sb700Buses(t, br)
  {
  }

  /**
   * A bridge spanning buses 1 to 255 behind the SB700: as written no bus
   * is marked PCI, where every one of them should be.
   */
  lemma Sb700BusesAsWrittenMissesAll()
    ensures var t := DefaultTypes();
      var br := Bridge(1, 255);
      (forall b :: 1 <= b < 256 ==> Sb700BusesAsWritten(t, br)[b] == Isa) &&
      (forall b :: 1 <= b < 256 ==> Sb700Buses(t, br)[b] == Pci)
  {
  }

  /** Port bridge `k` exists and its secondary bus is `b`. */
  predicate Rd890Bus(find: Finder, bus0: nat, sbdn: nat, k: nat, b: nat)
  {
    find(bus0, DevFn(sbdn + k, 0)).Some? && find(bus0, DevFn(sbdn + k, 0)).value.secondary == b
  }

  /** Some port bridge from `i` on has secondary bus `b`. */
  predicate Rd890From(find: Finder, bus0: nat, sbdn: nat, i: nat, b: nat)
  {
    exists k :: i <= k < Rd890Entries && Rd890Bus(find, bus0, sbdn, k, b)
  }

  lemma Rd890FromStep(find: Finder, bus0: nat, sbdn: nat, i: nat, b: nat)
    requires i < Rd890Entries
    ensures Rd890From(find, bus0, sbdn, i, b) <==>
      Rd890Bus(find, bus0, sbdn, i, b) || Rd890From(find, bus0, sbdn, i + 1, b)
  {
    if Rd890From(find, bus0, sbdn, i, b) {
      var k :| i <= k < Rd890Entries && Rd890Bus(find, bus0, sbdn, k, b);
      if k > i {
        assert Rd890From(find, bus0, sbdn, i + 1, b);
      }
    }
  }

  /**
   * The RD890 port bridges `i` to 13 at devices `sbdn + i` on `bus0`:
   * each one found records its secondary bus, and that bus is marked PCI
   * unless it is 255.
   */
  function ScanRd890(rd: seq<Byte>, t: seq<nat>, find: Finder, bus0: nat, sbdn: nat, i: nat)
    : (r: (seq<Byte>, seq<nat>))
    requires |rd| == Rd890Entries && |t| == 256 && 1 <= i <= Rd890Entries
    ensures |r.0| == Rd890Entries && |r.1| == 256
    decreases Rd890Entries - i
  {
    if i == Rd890Entries then (rd, t)
    else
      var found := find(bus0, DevFn(sbdn + i, 0));
      var rd' := rd[i := SecondaryOr(find, bus0, DevFn(sbdn + i, 0), rd[i])];
      var t' := if found.Some? && found.value.secondary != 255 then t[found.value.secondary := Pci] else t;
      ScanRd890(rd', t', find, bus0, sbdn, i + 1)
  }

  /**
   * The scan keeps the entries before `i` and puts in each later entry its
   * bridge's secondary bus, or leaves it as it was when there is no bridge.
   */
  lemma {:induction false} ScanRd890Table(rd: seq<Byte>, t: seq<nat>, find: Finder, bus0: nat, sbdn: nat, i: nat)
    requires |rd| == Rd890Entries && |t| == 256 && 1 <= i <= Rd890Entries
    ensures var r := ScanRd890(rd, t, find, bus0, sbdn, i).0;
      r[..i] == rd[..i] &&
      forall k :: i <= k < Rd890Entries ==> r[k] == SecondaryOr(find, bus0, DevFn(sbdn + k, 0), rd[k])
    decreases Rd890Entries - i
  {
    if i < Rd890Entries {
      var found := find(bus0, DevFn(sbdn + i, 0));
      var rd' := rd[i := SecondaryOr(find, bus0, DevFn(sbdn + i, 0), rd[i])];
      var t' := if found.Some? && found.value.secondary != 255 then t[found.value.secondary := Pci] else t;
      ScanRd890Table(rd', t', find, bus0, sbdn, i + 1);
      var r := ScanRd890(rd', t', find, bus0, sbdn, i + 1).0;
      assert r[..i] == r[..i + 1][..i];
    }
  }

  /**
   * The scan marks PCI exactly the buses, other than 255, that some port
   * bridge from `i` on has as its secondary bus, and keeps every other
   * bus's type.
   */
  lemma {:induction false} ScanRd890Types(rd: seq<Byte>, t: seq<nat>, find: Finder, bus0: nat, sbdn: nat, i: nat)
    requires |rd| == Rd890Entries && |t| == 256 && 1 <= i <= Rd890Entries
    ensures var r := ScanRd890(rd, t, find, bus0, sbdn, i).1;
      forall b :: 0 <= b < 256 ==>
        r[b] == (if b != 255 && Rd890From(find, bus0, sbdn, i, b) then Pci else t[b])
    decreases Rd890Entries - i
  {
    if i < Rd890Entries {
      var found := find(bus0, DevFn(sbdn + i, 0));
      var rd' := rd[i := SecondaryOr(find, bus0, DevFn(sbdn + i, 0), rd[i])];
      var t' := if found.Some? && found.value.secondary != 255 then t[found.value.secondary := Pci] else t;
      ScanRd890Types(rd', t', find, bus0, sbdn, i + 1);
      var r := ScanRd890(rd', t', find, bus0, sbdn, i + 1).1;
      assert ScanRd890(rd, t, find, bus0, sbdn, i).1 == r;
      forall b | 0 <= b < 256
        ensures r[b] == (if b != 255 && Rd890From(find, bus0, sbdn, i, b) then Pci else t[b])
      {
        MarkStep(t, t', r, find, bus0, sbdn, i, b);
      }
    }
  }

  /** One bus through one step of the scan. */
  lemma MarkStep(t: seq<nat>, t': seq<nat>, r: seq<nat>, find: Finder, bus0: nat, sbdn: nat, i: nat, b: nat)
    requires |t| == |t'| == |r| == 256 && 1 <= i < Rd890Entries && b < 256
    requires var found := find(bus0, DevFn(sbdn + i, 0));
      t' == if found.Some? && found.value.secondary != 255 then t[found.value.secondary := Pci] else t
    requires r[b] == (if b != 255 && Rd890From(find, bus0, sbdn, i + 1, b) then Pci else t'[b])
    ensures r[b] == (if b != 255 && Rd890From(find, bus0, sbdn, i, b) then Pci else t[b])
  {
    Rd890FromStep(find, bus0, sbdn, i, b);
  }

  /** The RD890 table reset: the bus in entry 0, zeros after. */
  function Rd890Reset(bus0: Byte): (rd: seq<Byte>)
    ensures |rd| == Rd890Entries && rd[0] == bus0 && forall k :: 1 <= k < Rd890Entries ==> rd[k] == 0
  {
    [bus0, 0, 0, 0, 0, 0, 0, 0, 0, 0, 0, 0, 0, 0]
  }

  /** The SB700 bridge: device 0x14, function 4 of the bus. */
  function Sb700Bridge(find: Finder, bus0: Byte): Option<Bridge>
  {
    find(bus0, DevFn(0x14, 4))
  }

  /**
   * `get_bus_conf`. `find` is the device lookup and `sbdnRd890` the RD890
   * device number. A second call changes nothing; the first resets the
   * tables, puts the bus in bits 23:16 of the preset chain word in entry
   * 0 of both bridge tables, marks PCI buses, and sets the ISA bus to 10.
   */
  function GetBusConf(st: State, find: Finder, sbdnRd890: nat): (r: State)
    ensures st.done ==> r == st
    ensures !st.done ==> (r.done && r.busIsa == IsaBus && r.sbdnSb700 == 0 &&
      |r.busSb700| == 2 && |r.busRd890| == Rd890Entries && |r.busType| == 256 &&
      r.busSb700[0] == BusOf(Pci1234Preset))
  {
    if st.done then st
    else
      var bus0 := BusOf(Pci1234Preset);
      var sb := Sb700Bridge(find, bus0);
      var sb700 := [bus0, SecondaryOr(find, bus0, DevFn(0x14, 4), 0)];
      var t := if sb.Some? then Sb700Buses(DefaultTypes(), sb.value) else DefaultTypes();
      var (rd, t') := ScanRd890(Rd890Reset(bus0), t, find, bus0, sbdnRd890, 1);
      State(true, IsaBus, sb700, rd, t', 0)
  }

  /** A second call changes nothing: the whole map is computed at most once. */
  lemma GetBusConfOnce(st: State, find: Finder, sbdnRd890: nat, find': Finder, sbdnRd890': nat)
    ensures var once := GetBusConf(st, find, sbdnRd890);
      once.done && GetBusConf(once, find', sbdnRd890') == once
  {
  }

  /** The preset chain word puts both bridges on bus 0. */
  lemma PresetBusZero()
    ensures BusOf(Pci1234Preset) == 0
  {
  }

  /**
   * Entry 0 of the RD890 table is the bus, and each later entry holds its
   * port bridge's secondary bus, or 0 when the bridge is absent; the
   * second SB700 entry is that bridge's secondary bus, or 0.
   */
  lemma GetBusConfTables(st: State, find: Finder, sbdnRd890: nat)
    requires !st.done
    ensures var r := GetBusConf(st, find, sbdnRd890);
      r.busRd890[0] == 0 && r.busSb700[1] == SecondaryOr(find, 0, DevFn(0x14, 4), 0) &&
      forall k :: 1 <= k < Rd890Entries ==> r.busRd890[k] == SecondaryOr(find, 0, DevFn(sbdnRd890 + k, 0), 0)
  {
    PresetBusZero();
    var sb := Sb700Bridge(find, 0);
    var t := if sb.Some? then Sb700Buses(DefaultTypes(), sb.value) else DefaultTypes();
    ScanRd890Table(Rd890Reset(0), t, find, 0, sbdnRd890, 1);
    var rd := ScanRd890(Rd890Reset(0), t, find, 0, sbdnRd890, 1).0;
    assert rd[0] == rd[..1][0];
  }

  /**
   * Exactly these buses are PCI: bus 0, every bus from the SB700 bridge's
   * secondary to its subordinate one, and the secondary bus of every RD890
   * port bridge found, unless it is 255. Every other bus is ISA.
   */
  lemma GetBusConfTypes(st: State, find: Finder, sbdnRd890: nat)
    requires !st.done
    ensures var r := GetBusConf(st, find, sbdnRd890);
      var sb := Sb700Bridge(find, 0);
      forall b :: 0 <= b < 256 ==>
        (r.busType[b] == Pci <==>
          b == 0 ||
          (sb.Some? && sb.value.secondary <= b <= sb.value.subordinate) ||
          (b != 255 && Rd890From(find, 0, sbdnRd890, 1, b))) &&
        (r.busType[b] == Pci || r.busType[b] == Isa)
  {
    PresetBusZero();
    var sb := Sb700Bridge(find, 0);
    var t := if sb.Some? then Sb700Buses(DefaultTypes(), sb.value) else DefaultTypes();
    ScanRd890Types(Rd890Reset(0), t, find, 0, sbdnRd890, 1);
  }
}

=== FILE: e7501_northbridge.dfy ===
/**
 * The Intel E7501 memory map: the top of low memory below the PCI hole,
 * the remap window above 4 GiB that gives back the RAM the hole hides,
 * the encoding of both into the memory controller's 16-bit registers, and
 * the RAM ranges reported to the resource allocator. Everything is in KiB.
 */
module E7501Northbridge {
  import opened Common
  import opened Arith

  /** 64 MiB in KiB: the unit of the DRB and of the remap registers. */
  const Granule: nat := 0x1_0000

  /** 128 MiB in KiB: the unit of the TOLM register. */
  const TolmUnit: nat := 0x2_0000

  /** The base written when there is no remap window: above every limit. */
  const NoWindowBasek: nat := 0x3ff * Granule

  /** The memory map in KiB: top of memory, top of low memory and the remap window. */
  datatype Layout = Layout(tomk: nat, tolmk: nat, remapBasek: nat, remapLimitk: nat)
  {
    /** The window is reported (and decoded) only when its limit is not below its base. */
    predicate WindowOn() { remapLimitk >= remapBasek }

    /** The PCI hole lies at or above the top of memory: nothing to remap. */
    predicate Clamped() { tolmk == tomk }
  }

  /** Every field of a map fits its register: 5 bits of TOLM, 10 of each remap address. */
  predicate Fits(l: Layout)
  {
    l.tolmk < FourGiBK && l.remapBasek < 0x400 * Granule && l.remapLimitk < 0x400 * Granule
  }

  function Min(a: nat, b: nat): nat { if a <= b then a else b }

  /** The highest DRB (in 64 MiB units) in KiB. */
  function Tomk(drb: nat): (r: nat)
    requires drb < U8
    ensures r % Granule == 0 && r < 0x100 * Granule
  {
    drb * Granule
  }

  /**
   * The top of low memory and the remap base: the lower of the PCI hole
   * and the top of memory, and the higher of 4 GiB and the top of memory
   * (the fixed no-window base when the hole is above memory).
   */
  function LowAndBase(drb: nat, pciTolm: nat): (r: (nat, nat))
    requires drb < U8 && pciTolm < U32
    ensures r.0 == Min(pciTolm / 1024, Tomk(drb)) && r.0 < FourGiBK
  {
    var tomk := Tomk(drb);
    var tolmk := pciTolm / 1024;
    if tolmk >= tomk then (tomk, NoWindowBasek)
    else (tolmk, if tomk > FourGiBK then tomk else FourGiBK)
  }

  /**
   * The memory map as the source computes it: a remap window whose size is
   * the whole hole below 4 GiB, whatever the amount of memory behind it.
   */
  function PlanAsWritten(drb: nat, pciTolm: nat): (l: Layout)
    requires drb < U8 && pciTolm < U32
    ensures l.tomk == Tomk(drb) && l.tolmk == Min(pciTolm / 1024, l.tomk) && Fits(l)
    ensures l.Clamped() <==> pciTolm / 1024 >= l.tomk
    ensures l.Clamped() ==> l.remapBasek == NoWindowBasek && l.remapLimitk == 0 && !l.WindowOn()
    ensures !l.Clamped() ==>
      (l.remapBasek >= FourGiBK && l.remapBasek >= l.tomk &&
       (l.WindowOn() <==> FourGiBK - l.tolmk >= Granule) &&
       (l.WindowOn() ==> l.remapLimitk + Granule - l.remapBasek == FourGiBK - l.tolmk))
  {
    var tomk := Tomk(drb);
    var (tolmk, basek) := LowAndBase(drb, pciTolm);
    if pciTolm / 1024 >= tomk then Layout(tomk, tolmk, basek, 0)
    else Layout(tomk, tolmk, basek, basek + (FourGiBK - tolmk) - Granule)
  }

  /**
   * The memory map with the window sized to the memory the hole hides:
   * up to 4 GiB when there is more, up to the top of memory otherwise.
   */
  function Plan(drb: nat, pciTolm: nat): (l: Layout)
    requires drb < U8 && pciTolm < U32
    ensures l.tomk == Tomk(drb) && l.tolmk == Min(pciTolm / 1024, l.tomk) && Fits(l)
    ensures l.Clamped() <==> pciTolm / 1024 >= l.tomk
    ensures l.Clamped() ==> l.remapBasek == NoWindowBasek && l.remapLimitk == 0 && !l.WindowOn()
    ensures !l.Clamped() ==>
      (l.remapBasek >= FourGiBK && l.remapBasek >= l.tomk &&
       (l.WindowOn() <==> Min(l.tomk, FourGiBK) - l.tolmk >= Granule) &&
       (l.WindowOn() ==> l.remapLimitk + Granule - l.remapBasek == Min(l.tomk, FourGiBK) - l.tolmk))
  {
    var tomk := Tomk(drb);
    var (tolmk, basek) := LowAndBase(drb, pciTolm);
    if pciTolm / 1024 >= tomk then Layout(tomk, tolmk, basek, 0)
    else Layout(tomk, tolmk, basek, basek + (Min(tomk, FourGiBK) - tolmk) - Granule)
  }

  /** With 4 GiB of memory or more the two maps agree: the difference is only below 4 GiB. */
  lemma PlanAgreesAboveFourGiB(drb: nat, pciTolm: nat)
    requires drb < U8 && pciTolm < U32
    requires Tomk(drb) >= FourGiBK
    ensures Plan(drb, pciTolm) == PlanAsWritten(drb, pciTolm)
  {
  }

  // ---------------------------------------------------------------------
  // Registers
  // ---------------------------------------------------------------------

  /** The TOLM (0xc4), REMAPBASE (0xc6) and REMAPLIMIT (0xc8) configuration words. */
  datatype McRegs = McRegs(tolm: nat, remapBase: nat, remapLimit: nat)
  {
    predicate Valid() { tolm < U16 && remapBase < U16 && remapLimit < U16 }
  }

  /**
   * `field | (prev & 0xfc00)` for a 10-bit `field` and a 16-bit word
   * `prev`: the two parts share no bit, so the OR is a sum.
   */
  function KeepReserved(field: nat, prev: nat): (r: nat)
    requires field < 0x400 && prev < U16
    ensures r < U16 && r % 0x400 == field && r / 0x400 == prev / 0x400
  {
    var high := prev / 0x400;
    DivBelow(prev, 0x400, 64);
    MulMono(high, 63, 0x400);
    DivAddMultiple(high, field, 0x400);
    high * 0x400 + field
  }

  /**
   * The registers after programming: TOLM holds the top of low memory in
   * 128 MiB units in bits 15:11, each remap register its address in
   * 64 MiB units in bits 9:0; the reserved bits are read back and kept.
   */
  function WriteRegs(l: Layout, prev: McRegs): (r: McRegs)
    requires Fits(l) && prev.Valid()
    ensures r.Valid()
    ensures r.tolm / 0x800 == l.tolmk / TolmUnit && r.tolm % 0x800 == prev.tolm % 0x800
    ensures r.remapBase % 0x400 == l.remapBasek / Granule && r.remapBase / 0x400 == prev.remapBase / 0x400
    ensures r.remapLimit % 0x400 == l.remapLimitk / Granule && r.remapLimit / 0x400 == prev.remapLimit / 0x400
  {
    DivBelow(l.tolmk, TolmUnit, 32);
    DivBelow(l.remapBasek, Granule, 0x400);
    DivBelow(l.remapLimitk, Granule, 0x400);
    var tolmField := l.tolmk / TolmUnit;
    DivAddMultiple(tolmField, prev.tolm % 0x800, 0x800);
    McRegs(tolmField * 0x800 + prev.tolm % 0x800,
           KeepReserved(l.remapBasek / Granule, prev.remapBase),
           KeepReserved(l.remapLimitk / Granule, prev.remapLimit))
  }

  /** The addresses the programmed registers decode to, in KiB. */
  function DecodedTolmk(r: McRegs): nat { r.tolm / 0x800 * TolmUnit }
  function DecodedBasek(r: McRegs): nat { r.remapBase % 0x400 * Granule }
  function DecodedLimitk(r: McRegs): nat { r.remapLimit % 0x400 * Granule }

  /**
   * Reading the registers back gives the map at their granularity: TOLM
   * rounded down to 128 MiB, the remap base exactly, the limit rounded
   * down to 64 MiB; the hardware window is on exactly when the map's is.
   * This holds for the map as written (`asWritten`) and the corrected one.
   */
  lemma WriteRegsRoundTrip(drb: nat, pciTolm: nat, prev: McRegs, asWritten: bool)
    requires drb < U8 && pciTolm < U32 && prev.Valid()
    ensures var l := if asWritten then PlanAsWritten(drb, pciTolm) else Plan(drb, pciTolm);
      var r := WriteRegs(l, prev);
      DecodedTolmk(r) <= l.tolmk < DecodedTolmk(r) + TolmUnit &&
      DecodedBasek(r) == l.remapBasek &&
      DecodedLimitk(r) <= l.remapLimitk < DecodedLimitk(r) + Granule &&
      (DecodedLimitk(r) >= DecodedBasek(r) <==> l.WindowOn())
  {
    var l := if asWritten then PlanAsWritten(drb, pciTolm) else Plan(drb, pciTolm);
    var r := WriteRegs(l, prev);
    FloorBounds(l.tolmk, TolmUnit);
    FloorBounds(l.remapLimitk, Granule);
    if !l.Clamped() {
      assert l.remapBasek % Granule == 0;
    }
    FloorBounds(l.remapBasek, Granule);
  }

  lemma FloorBounds(x: nat, b: nat)
    requires b > 0
    ensures x / b * b <= x < x / b * b + b
    ensures x % b == 0 ==> x / b * b == x
  {
    assert x == (x / b) * b + x % b;
  }

  // ---------------------------------------------------------------------
  // Reported RAM
  // ---------------------------------------------------------------------

  /** A RAM resource: base and size in KiB. */
  datatype Range = Range(basek: nat, sizek: nat)
  {
    function Endk(): nat { basek + sizek }
  }

  /**
   * The RAM reported to the allocator: conventional memory, memory from
   * 768 KiB to the top of low memory, the memory above 4 GiB, and the remap
   * window when it is on. The sizes are computed in, and passed as, 32-bit
   * `unsigned long` KiB counts.
   */
  function Ranges(l: Layout): (rs: seq<Range>)
    ensures 2 <= |rs| <= 4 && rs[0] == Range(0, 640) && rs[1].basek == 768
  {
    var low := [Range(0, 640), Range(768, ResourceK(l.tolmk - 768))];
    var high := if l.tomk > FourGiBK then [Range(FourGiBK, ResourceK(l.tomk - FourGiBK))] else [];
    var remap := if l.WindowOn() then [Range(ResourceK(l.remapBasek), ResourceK(l.remapLimitk + Granule - l.remapBasek))] else [];
    low + high + remap
  }

  /** The top of RAM in bytes handed to the rest of the firmware. */
  function TopOfRam(l: Layout): nat { l.tolmk * 1024 }

  /** Each range ends at or below the start of the next. */
  predicate Ordered(rs: seq<Range>)
  {
    forall i, j :: 0 <= i < j < |rs| ==> rs[i].Endk() <= rs[j].basek
  }

  /** The sizes of a list of ranges, in KiB. */
  function TotalK(rs: seq<Range>): (t: nat)
    ensures |rs| > 0 ==> t >= rs[0].sizek
  {
    if |rs| == 0 then 0 else rs[0].sizek + TotalK(rs[1..])
  }

  /** The total of at most four ranges, spelled out. */
  lemma TotalKSmall(rs: seq<Range>)
    requires 2 <= |rs| <= 4
    ensures |rs| == 2 ==> TotalK(rs) == rs[0].sizek + rs[1].sizek
    ensures |rs| == 3 ==> TotalK(rs) == rs[0].sizek + rs[1].sizek + rs[2].sizek
    ensures |rs| == 4 ==> TotalK(rs) == rs[0].sizek + rs[1].sizek + rs[2].sizek + rs[3].sizek
  {
    assert rs[1..][1..] == rs[2..];
    assert |rs| >= 3 ==> rs[2..][1..] == rs[3..];
    assert |rs| == 4 ==> rs[3..][1..] == [];
  }

  /**
   * Below the top of low memory the ranges cover everything but the
   * legacy hole from 640 KiB to 768 KiB; the memory above 4 GiB follows,
   * and the remap window, when on, starts at or above both 4 GiB and the
   * top of memory and holds exactly the memory the PCI hole hides. The
   * ranges are ordered and disjoint, and the top of RAM lies at or below
   * both the PCI hole and the top of memory.
   */
  lemma RangesMeaning(drb: nat, pciTolm: nat)
    requires drb < U8 && pciTolm < U32
    requires Min(pciTolm / 1024, Tomk(drb)) >= 768
    ensures var l := Plan(drb, pciTolm);
      var rs := Ranges(l);
      Ordered(rs) &&
      rs[1] == Range(768, l.tolmk - 768) &&
      |rs| == 2 + (if l.tomk > FourGiBK then 1 else 0) + (if l.WindowOn() then 1 else 0) &&
      (l.tomk > FourGiBK ==> rs[2] == Range(FourGiBK, l.tomk - FourGiBK)) &&
      (l.WindowOn() ==> rs[|rs| - 1] == Range(l.remapBasek, Min(l.tomk, FourGiBK) - l.tolmk)) &&
      TopOfRam(l) <= pciTolm && TopOfRam(l) <= l.tomk * 1024
  {
  }

  /**
   * The reported RAM adds up to the installed memory less the legacy hole
   * whenever nothing is lost to the remap granularity: the hole lies above
   * memory, or the hidden memory fills at least one 64 MiB unit. Otherwise
   * less is reported, never more.
   */
  lemma RangesConserve(drb: nat, pciTolm: nat)
    requires drb < U8 && pciTolm < U32
    requires Min(pciTolm / 1024, Tomk(drb)) >= 768
    ensures var l := Plan(drb, pciTolm);
      TotalK(Ranges(l)) + 128 <= l.tomk &&
      (TotalK(Ranges(l)) + 128 == l.tomk <==> l.Clamped() || l.WindowOn())
  {
    var l := Plan(drb, pciTolm);
    RangesMeaning(drb, pciTolm);
    TotalKSmall(Ranges(l));
  }

  /**
   * As written, with less than 4 GiB of memory the remap window is the
   * whole hole below 4 GiB, so more RAM is reported than is installed.
   */
  lemma AsWrittenOverReports(drb: nat, pciTolm: nat)
    requires drb < U8 && pciTolm < U32
    requires Min(pciTolm / 1024, Tomk(drb)) >= 768
    requires var l := PlanAsWritten(drb, pciTolm);
      !l.Clamped() && l.WindowOn() && l.tomk < FourGiBK
    ensures TotalK(Ranges(PlanAsWritten(drb, pciTolm))) + 128 == FourGiBK
    ensures TotalK(Ranges(PlanAsWritten(drb, pciTolm))) + 128 > Tomk(drb)
  {
    var l := PlanAsWritten(drb, pciTolm);
    TotalKSmall(Ranges(l));
  }

  /**
   * 3 GiB of memory (DRB 0x30) under a PCI hole from 2 GiB: as written the
   * window reports 2 GiB above 4 GiB for the 1 GiB the hole hides.
   */
  lemma AsWrittenThreeGiB()
    ensures var l := PlanAsWritten(0x30, 0x8000_0000);
      l.tomk == 0x30_0000 && l.tolmk == 0x20_0000 && l.remapBasek == FourGiBK &&
      Ranges(l)[|Ranges(l)| - 1] == Range(FourGiBK, 0x20_0000)
    ensures var l := Plan(0x30, 0x8000_0000);
      Ranges(l)[|Ranges(l)| - 1] == Range(FourGiBK, 0x10_0000)
  {
  }
}

=== FILE: exynos_clock.dfy ===
/**
 * Exynos5250 clock-divider register updates: the MMC pre-ratio fields, the
 * SPI ratio and pre-ratio fields with the rate search behind them, the
 * MSHCI divider and the I2S prescaler. Each is a read-modify-write of one
 * field of one divider register.
 *
 * Every divider field these operations touch in DIV_PERIC1, DIV_PERIC2,
 * SCLK_DIV_ISP and DIV_FSYS1/2 starts on a 4-bit boundary, so those
 * registers are modelled as their eight nibbles, least significant first:
 * the byte at bit `4 * k` is nibbles `k` and `k + 1`.
 */
module ExynosClock {
  import opened Common
  import opened Arith
  import opened ExynosScalar

  /** A 32-bit register as eight nibbles, least significant first. */
  predicate IsWord(w: seq<nat>)
  {
    |w| == 8 && forall i :: 0 <= i < |w| ==> w[i] < 16
  }

  /** The divider registers these operations touch. */
  datatype Regs = Regs(divPeric1: seq<nat>, divPeric2: seq<nat>, sclkDivIsp: seq<nat>,
                       divFsys1: seq<nat>, divFsys2: seq<nat>)
  {
    predicate Valid()
    {
      IsWord(divPeric1) && IsWord(divPeric2) && IsWord(sclkDivIsp) &&
      IsWord(divFsys1) && IsWord(divFsys2)
    }
  }

  datatype Reg = DivPeric1 | DivPeric2 | SclkDivIsp | DivFsys1 | DivFsys2

  function Get(regs: Regs, r: Reg): seq<nat>
  {
    match r
    case DivPeric1 => regs.divPeric1
    case DivPeric2 => regs.divPeric2
    case SclkDivIsp => regs.sclkDivIsp
    case DivFsys1 => regs.divFsys1
    case DivFsys2 => regs.divFsys2
  }

  function Put(regs: Regs, r: Reg, v: seq<nat>): (out: Regs)
    ensures Get(out, r) == v
    ensures forall o :: o != r ==> Get(out, o) == Get(regs, o)
    ensures regs.Valid() && IsWord(v) ==> out.Valid()
  {
    match r
    case DivPeric1 => regs.(divPeric1 := v)
    case DivPeric2 => regs.(divPeric2 := v)
    case SclkDivIsp => regs.(sclkDivIsp := v)
    case DivFsys1 => regs.(divFsys1 := v)
    case DivFsys2 => regs.(divFsys2 := v)
  }

  /** The byte at bit `4 * k`. */
  function GetByte(w: seq<nat>, k: nat): nat
    requires IsWord(w) && k < 7
  {
    w[k] + 16 * w[k + 1]
  }

  /** A byte is its two nibbles. */
  lemma ByteNibbles(v: nat)
    ensures v % 256 == v % 16 + 16 * ((v / 16) % 16)
  {
    var q := v / 256;
    var r := v % 256;
    assert v == (16 * q) * 16 + r;
    DivAddMultiple(16 * q, r, 16);
    DivAddMultiple(q, r / 16, 16);
    DivBelow(r, 16, 16);
    DivModUnique(r / 16, 16, 0, r / 16);
  }

  /**
   * The `clrsetbits` of the byte at bit `4 * k` to the low byte of `v`:
   * that byte reads back as `v % 256` and every other nibble is kept.
   */
  function SetByte(w: seq<nat>, k: nat, v: nat): (r: seq<nat>)
    requires IsWord(w) && k < 7
    ensures IsWord(r)
    ensures GetByte(r, k) == v % 256
    ensures forall i :: 0 <= i < 8 && i != k && i != k + 1 ==> r[i] == w[i]
  {
    ByteNibbles(v);
    w[k := v % 16][k + 1 := (v / 16) % 16]
  }

  // ---------------------------------------------------------------------
  // MMC
  // ---------------------------------------------------------------------

  /** The divider register of MMC device `dev`: DIV_FSYS1 for 0 and 1, DIV_FSYS2 for 2 and 3. */
  function MmcReg(dev: nat): Reg
  {
    if dev < 2 then DivFsys1 else DivFsys2
  }

  /** Sets the MMC pre-ratio of device 0 to 3 to the low byte of `div`. */
  function SetMmcClk(regs: Regs, dev: nat, div: nat): Regs
    requires regs.Valid() && dev < 4
  {
    var r := MmcReg(dev);
    var idx := if dev < 2 then dev else dev - 2;
    Put(regs, r, SetByte(Get(regs, r), 4 * idx + 2, div))
  }

  /**
   * The device's pre-ratio byte, at bit `16 * (dev % 2) + 8` of its
   * register, reads back as the divisor's low byte; every other nibble of
   * that register and every other register is kept.
   */
  lemma SetMmcClkMeaning(regs: Regs, dev: nat, div: nat)
    requires regs.Valid() && dev < 4
    ensures var out := SetMmcClk(regs, dev, div);
      var k := 4 * (dev % 2) + 2;
      var r := MmcReg(dev);
      out.Valid() &&
      4 * k == 16 * (dev % 2) + 8 &&
      GetByte(Get(out, r), k) == div % 256 &&
      (forall i :: 0 <= i < 8 && i != k && i != k + 1 ==> Get(out, r)[i] == Get(regs, r)[i]) &&
      (forall o :: o != r ==> Get(out, o) == Get(regs, o))
  {
  }

  // ---------------------------------------------------------------------
  // SPI
  // ---------------------------------------------------------------------

  datatype Periph = Spi0 | Spi1 | Spi2 | Spi3 | Spi4 | Sdmmc0 | Sdmmc2 | OtherPeriph
  {
    predicate IsSpi() { this in {Spi0, Spi1, Spi2, Spi3, Spi4} }
  }

  /** Where an SPI's divider fields live: the register and the nibble indices of the two bytes. */
  datatype SpiFields = SpiFields(reg: Reg, ratio: nat, preRatio: nat)

  /**
   * Ratio bytes at bits 0, 16, 0, 0 and 12; pre-ratio bytes at bits 8, 24,
   * 8, 4 and 16. On SPI3 and SPI4 the two bytes overlap by a nibble.
   */
  function SpiLayout(p: Periph): (f: SpiFields)
    requires p.IsSpi()
    ensures f.ratio < f.preRatio < 7
  {
    match p
    case Spi0 => SpiFields(DivPeric1, 0, 2)
    case Spi1 => SpiFields(DivPeric1, 4, 6)
    case Spi2 => SpiFields(DivPeric2, 0, 2)
    case Spi3 => SpiFields(SclkDivIsp, 0, 1)
    case Spi4 => SpiFields(SclkDivIsp, 3, 4)
  }

  /** Sets an SPI's ratio byte; any other peripheral is ignored. */
  function SetRatio(regs: Regs, p: Periph, div: nat): Regs
    requires regs.Valid()
  {
    if !p.IsSpi() then regs
    else
      var f := SpiLayout(p);
      Put(regs, f.reg, SetByte(Get(regs, f.reg), f.ratio, div))
  }

  /** Sets an SPI's pre-ratio byte; any other peripheral is ignored. */
  function SetPreRatio(regs: Regs, p: Periph, div: nat): Regs
    requires regs.Valid()
  {
    if !p.IsSpi() then regs
    else
      var f := SpiLayout(p);
      Put(regs, f.reg, SetByte(Get(regs, f.reg), f.preRatio, div))
  }

  /** Both setters change one byte of one register, and nothing for a non-SPI peripheral. */
  lemma SetRatioMeaning(regs: Regs, p: Periph, div: nat)
    requires regs.Valid()
    ensures SetRatio(regs, p, div).Valid() && SetPreRatio(regs, p, div).Valid()
    ensures !p.IsSpi() ==> SetRatio(regs, p, div) == regs && SetPreRatio(regs, p, div) == regs
    ensures p.IsSpi() ==>
      var f := SpiLayout(p);
      var a := Get(SetRatio(regs, p, div), f.reg);
      var b := Get(SetPreRatio(regs, p, div), f.reg);
      GetByte(a, f.ratio) == div % 256 && GetByte(b, f.preRatio) == div % 256 &&
      (forall i :: 0 <= i < 8 && i != f.ratio && i != f.ratio + 1 ==> a[i] == Get(regs, f.reg)[i]) &&
      (forall i :: 0 <= i < 8 && i != f.preRatio && i != f.preRatio + 1 ==> b[i] == Get(regs, f.reg)[i])
    ensures p.IsSpi() ==> forall o :: o != SpiLayout(p).reg ==>
      Get(SetRatio(regs, p, div), o) == Get(regs, o) && Get(SetPreRatio(regs, p, div), o) == Get(regs, o)
  {
  }

  /** Two fields' nibbles outside both bytes. */
  predicate Outside(f: SpiFields, i: nat)
  {
    i != f.ratio && i != f.ratio + 1 && i != f.preRatio && i != f.preRatio + 1
  }

  /**
   * Writing a ratio below 16 and then a pre-ratio below 256 leaves the
   * ratio in the ratio byte's low nibble and the whole pre-ratio byte as
   * written, even on SPI3 and SPI4 where the pre-ratio byte overwrites the
   * ratio byte's high nibble. On SPI0 to SPI2 that nibble is cleared by
   * the byte-wide ratio write. Nothing outside the two bytes changes.
   */
  lemma SpiFieldsReadBack(regs: Regs, p: Periph, ratio: nat, pre: nat)
    requires regs.Valid() && p.IsSpi() && ratio < 16 && pre < 256
    ensures var f := SpiLayout(p);
      var out := SetPreRatio(SetRatio(regs, p, ratio), p, pre);
      var w := Get(out, f.reg);
      out.Valid() &&
      w[f.ratio] == ratio && GetByte(w, f.preRatio) == pre &&
      (f.ratio + 1 != f.preRatio ==> w[f.ratio + 1] == 0) &&
      (forall i :: 0 <= i < 8 && Outside(f, i) ==> w[i] == Get(regs, f.reg)[i]) &&
      (forall o :: o != f.reg ==> Get(out, o) == Get(regs, o))
  {
    var f := SpiLayout(p);
    var w0 := Get(regs, f.reg);
    var w1 := SetByte(w0, f.ratio, ratio);
    var mid := Put(regs, f.reg, w1);
    assert SetRatio(regs, p, ratio) == mid;
    var w2 := SetByte(w1, f.preRatio, pre);
    assert SetPreRatio(mid, p, pre) == Put(mid, f.reg, w2);
    TwoBytes(w0, f.ratio, f.preRatio, ratio, pre);
  }

  /** The word-level half of the read-back: a ratio byte, then a later pre-ratio byte. */
  lemma TwoBytes(w0: seq<nat>, k: nat, q: nat, ratio: nat, pre: nat)
    requires IsWord(w0) && k < q < 7 && ratio < 16 && pre < 256
    ensures var w := SetByte(SetByte(w0, k, ratio), q, pre);
      w[k] == ratio && GetByte(w, q) == pre && (k + 1 != q ==> w[k + 1] == 0) &&
      forall i :: 0 <= i < 8 && i != k && i != k + 1 && i != q && i != q + 1 ==> w[i] == w0[i]
  {
    var w1 := SetByte(w0, k, ratio);
    assert w1[k] == ratio && w1[k + 1] == 0 by {
      ByteNibbles(ratio);
    }
  }

  /** The SPI source clock the rate search divides. */
  const SpiInputHz: nat := 400_000_000

  /** The fine-divisor cap of an 8-bit pre-ratio. */
  const SpiCap: nat := 255

  /**
   * Sets an SPI clock to at most `rate`: searches the 16 main and 255 fine
   * divisors for the highest rate not above `rate` and writes main - 1 as
   * the ratio and fine - 1 as the pre-ratio. -1, with nothing written, for
   * a non-SPI peripheral, a zero rate, or when no divisor pair fits.
   */
  method SetRate(regs: Regs, p: Periph, rate: nat) returns (status: int, out: Regs)
    requires regs.Valid() && rate < U32
    ensures status == -1 || status == 0
    ensures status == -1 <==> (!p.IsSpi() || rate == 0 || (rate < SpiInputHz && NoneFits(SpiInputHz, rate, SpiCap, 16)))
    ensures status == -1 ==> out == regs
    ensures status == 0 ==> p.IsSpi() && out.Valid() && SpiProgrammed(regs, out, p, rate)
  {
    if !p.IsSpi() {
      return -1, regs;
    }
    assert Pow2(4) == 16 && Pow2(8) == 256 by {
      assert Pow2(2) == 4;
      assert Pow2(4) == 4 * Pow2(2);
      assert Pow2(8) == 16 * Pow2(4);
    }
    var s := BestScalar(4, 8, SpiInputHz, rate);
    if s.main < 0 {
      return -1, regs;
    }
    var main := s.main as nat;
    var fine := s.fine;
    assert rate >= SpiInputHz ==> main == 1 && fine == 1;
    assert SpiInputHz / main / fine <= rate;
    out := SpiWrite(regs, p, main, fine);
    SpiWriteOutcome(regs, p, rate, main, fine);
    return 0, out;
  }

  /**
   * `out` is `regs` with the SPI's two divider bytes, and nothing else,
   * rewritten to the pair the search picks for `rate`: main divisor
   * `ratio + 1` in the ratio byte's low nibble (its high nibble cleared
   * where the pre-ratio byte does not cover it), fine divisor
   * `pre-ratio + 1`, at most `rate` apart.
   */
  predicate SpiProgrammed(regs: Regs, out: Regs, p: Periph, rate: nat)
    requires regs.Valid() && out.Valid() && p.IsSpi() && rate > 0
  {
    var f := SpiLayout(p);
    var w := Get(out, f.reg);
    var main := w[f.ratio] + 1;
    var fine := GetByte(w, f.preRatio) + 1;
    (f.ratio + 1 != f.preRatio ==> w[f.ratio + 1] == 0) &&
    (forall i :: 0 <= i < 8 && Outside(f, i) ==> w[i] == Get(regs, f.reg)[i]) &&
    (forall o :: o != f.reg ==> Get(out, o) == Get(regs, o)) &&
    SpiInputHz / main / fine <= rate &&
    (rate >= SpiInputHz ==> main == 1 && fine == 1) &&
    (rate < SpiInputHz ==> IsBest(SpiInputHz, rate, SpiCap, 16, main, fine))
  }

  /** The registers after a successful search hold the chosen divisors. */
  lemma SpiWriteOutcome(regs: Regs, p: Periph, rate: nat, main: nat, fine: nat)
    requires regs.Valid() && p.IsSpi() && 1 <= main <= 16 && 1 <= fine <= 256 && rate > 0
    requires SpiInputHz / main / fine <= rate
    requires rate >= SpiInputHz ==> main == 1 && fine == 1
    requires rate < SpiInputHz ==> IsBest(SpiInputHz, rate, SpiCap, 16, main, fine)
    ensures SpiProgrammed(regs, SpiWrite(regs, p, main, fine), p, rate)
  {
  }

  /** The two divider writes of a successful rate search. */
  function SpiWrite(regs: Regs, p: Periph, main: nat, fine: nat): (out: Regs)
    requires regs.Valid() && p.IsSpi() && 1 <= main <= 16 && 1 <= fine <= 256
    ensures out.Valid()
    ensures var f := SpiLayout(p);
      var w := Get(out, f.reg);
      w[f.ratio] + 1 == main && GetByte(w, f.preRatio) + 1 == fine &&
      (f.ratio + 1 != f.preRatio ==> w[f.ratio + 1] == 0) &&
      (forall i :: 0 <= i < 8 && Outside(f, i) ==> w[i] == Get(regs, f.reg)[i]) &&
      (forall o :: o != f.reg ==> Get(out, o) == Get(regs, o))
  {
    SpiFieldsReadBack(regs, p, main - 1, fine - 1);
    SetPreRatio(SetRatio(regs, p, main - 1), p, fine - 1)
  }

  // ---------------------------------------------------------------------
  // MSHCI
  // ---------------------------------------------------------------------

  /** The highest SD/MMC host clock the divider search aims under, in MHz. */
  const MshciMaxMHz: nat := 400

  /** Ratio `i` leaves a host clock of `mhz` above the limit. */
  predicate TooFast(mhz: nat, i: nat)
  {
    mhz / (i + 1) > MshciMaxMHz
  }

  /**
   * The register value the MSHCI divider write leaves: the ratio nibble
   * (bits 3:0) set to `i`, the pre-ratio byte (bits 15:8) cleared, bits
   * 7:4 and 31:16 kept.
   */
  function MshciWord(w: seq<nat>, i: nat): (r: seq<nat>)
    requires IsWord(w) && i < 16
    ensures IsWord(r)
  {
    w[0 := i][2 := 0][3 := 0]
  }

  /** The MSHCI write reads back as ratio `i` with pre-ratio 0 and keeps bits 7:4 and 31:16. */
  lemma MshciWordMeaning(w: seq<nat>, i: nat)
    requires IsWord(w) && i < 16
    ensures var r := MshciWord(w, i);
      r[0] == i && GetByte(r, 2) == 0 && r[1] == w[1] &&
      forall k :: 4 <= k < 8 ==> r[k] == w[k]
  {
  }

  /**
   * Sets the divider of SDMMC0 (DIV_FSYS1) or SDMMC2 (DIV_FSYS2) from the
   * MPLL rate: the smallest ratio `i` in 0..15 with `mhz / (i + 1)` at most
   * 400, where `mhz` is the MPLL rate in whole MHz. Nothing is written when
   * no ratio is small enough; the result is then still 0. Any other
   * peripheral gives -1.
   */
  method SetMshci(regs: Regs, p: Periph, mpllHz: nat) returns (status: int, out: Regs)
    requires regs.Valid()
    ensures out.Valid()
    ensures p != Sdmmc0 && p != Sdmmc2 ==> status == -1 && out == regs
    ensures p == Sdmmc0 || p == Sdmmc2 ==>
      var r := if p == Sdmmc0 then DivFsys1 else DivFsys2;
      var mhz := mpllHz / 1_000_000;
      status == 0 &&
      (forall o :: o != r ==> Get(out, o) == Get(regs, o)) &&
      ((forall i :: 0 <= i < 16 ==> TooFast(mhz, i)) ==> out == regs) &&
      (forall i :: 0 <= i < 16 && !TooFast(mhz, i) && (forall j :: 0 <= j < i ==> TooFast(mhz, j)) ==>
        Get(out, r) == MshciWord(Get(regs, r), i))
  {
    var mhz := mpllHz / 1_000_000;
    var r;
    if p == Sdmmc0 {
      r := DivFsys1;
    } else if p == Sdmmc2 {
      r := DivFsys2;
    } else {
      return -1, regs;
    }
    var i := 0;
    while i < 16
      invariant 0 <= i <= 16
      invariant forall j :: 0 <= j < i ==> TooFast(mhz, j)
      decreases 16 - i
    {
      if !TooFast(mhz, i) {
        return 0, Put(regs, r, MshciWord(Get(regs, r), i));
      }
      i := i + 1;
    }
    return 0, regs;
  }

  // ---------------------------------------------------------------------
  // I2S
  // ---------------------------------------------------------------------

  /** The prescaler ratio: the source rate over the destination rate, rounded down. */
  function I2sRatio(src: nat, dst: nat): (r: nat)
    requires 0 < dst
    ensures r <= src && r * dst <= src < (r + 1) * dst
  {
    DivAtMost(src, dst);
    src / dst
  }

  /** C's unsigned comparison `ratio > mask`. */
  predicate AboveMask(ratio: nat, mask: bv32)
  {
    ratio > mask as nat
  }

  /** A value below 2^32 as a register value. */
  function ToBv32(n: nat): bv32
    requires n < U32
  {
    n as bv32
  }

  /** `clrsetbits` of the bits under `mask` to those of `v`. */
  function SetMasked(reg: bv32, mask: bv32, v: bv32): (r: bv32)
    ensures r & mask == v & mask && r & !mask == reg & !mask
  {
    (reg & !mask) | (v & mask)
  }

  /**
   * The I2S prescaler write to DIV_PERIC4: -1 and no write for a zero
   * source or destination rate or a ratio above the field mask; otherwise
   * the field under `mask` is set to the ratio. The mask comes from the
   * chipset's clock header and is a parameter.
   */
  function I2sPrescaler(divPeric4: bv32, src: nat, dst: nat, mask: bv32): (r: (int, bv32))
    requires src < U32 && dst < U32
    ensures r.0 == -1 || r.0 == 0
    ensures r.0 == -1 <==> src == 0 || dst == 0 || AboveMask(I2sRatio(src, dst), mask)
    ensures r.0 == -1 ==> r.1 == divPeric4
  {
    if dst == 0 || src == 0 then (-1, divPeric4)
    else
      var div := I2sRatio(src, dst);
      if AboveMask(div, mask) then (-1, divPeric4)
      else (0, SetMasked(divPeric4, mask, ToBv32(div)))
  }

  /**
   * A successful prescaler write holds the ratio's bits under the mask
   * and keeps every bit outside it.
   */
  lemma I2sPrescalerMeaning(divPeric4: bv32, src: nat, dst: nat, mask: bv32)
    requires src < U32 && dst < U32
    requires I2sPrescaler(divPeric4, src, dst, mask).0 == 0
    ensures var reg := I2sPrescaler(divPeric4, src, dst, mask).1;
      reg & mask == ToBv32(I2sRatio(src, dst)) & mask && reg & !mask == divPeric4 & !mask
  {
  }
}

=== FILE: exynos_pll.dfy ===
/**
 * PLL frequencies of the Samsung Exynos5250 clock controller: decoding the
 * MDIV, PDIV and SDIV fields of a PLL control register, the output
 * frequency from the 24 MHz input, the ARM clock behind its two dividers,
 * and the EPLL rate table with its lock count.
 */
module ExynosPll {
  import opened Common
  import opened Arith

  /** The PLL input clock, in Hz. */
  const FinHz: nat := 24_000_000

  datatype PllId = Apll | Bpll | Mpll | Epll | Vpll | Unsupported

  /** The divider fields of a PLL control register. */
  datatype PllFields = PllFields(m: nat, p: nat, s: nat)

  /** Number of MDIV values: 10 bits on APLL, BPLL, MPLL, 9 bits on EPLL and VPLL. */
  function MdivRange(id: PllId): nat
  {
    if id == Apll || id == Bpll || id == Mpll then 0x400 else 0x200
  }

  /** MDIV in bits 25:16 (24:16), PDIV in bits 13:8, SDIV in bits 2:0. */
  function DecodeFields(id: PllId, con0: nat): (f: PllFields)
    ensures f.m < MdivRange(id) && f.p < 0x40 && f.s < 8
  {
    PllFields((con0 / 0x1_0000) % MdivRange(id), (con0 / 0x100) % 0x40, con0 % 8)
  }

  /** The register value holding the given fields, every other bit clear. */
  function EncodeFields(f: PllFields): nat
  {
    f.m * 0x1_0000 + f.p * 0x100 + f.s
  }

  /** Decoding an encoded register gives back its fields. */
  lemma FieldsRoundTrip(id: PllId, f: PllFields)
    requires f.m < MdivRange(id) && f.p < 0x40 && f.s < 8
    ensures DecodeFields(id, EncodeFields(f)) == f
  {
    var x := EncodeFields(f);
    DivModUnique(x, 0x1_0000, f.m, f.p * 0x100 + f.s);
    DivModUnique(f.m, MdivRange(id), 0, f.m);
    DivModUnique(x, 0x100, f.m * 0x100 + f.p, f.s);
    DivModUnique(f.m * 0x100 + f.p, 0x40, f.m * 4, f.p);
    DivModUnique(x, 8, f.m * 0x2000 + f.p * 0x20, f.s);
  }

  /** One MDIV step of output frequency: FIN / (PDIV * 2^SDIV). */
  function Step(f: PllFields): nat
    requires f.p > 0
  {
    FinHz / (f.p * Pow2(f.s))
  }

  /** The K term the source adds to MDIV: an integer quotient of the masked K. */
  function KAsWritten(id: PllId, con1: nat): nat
  {
    if id == Epll then (con1 % 0x1_0000) / 0x1_0000
    else if id == Vpll then (con1 % 0x1000) / 0x400
    else 0
  }

  /**
   * The PLL output frequency as the source computes it, in a 32-bit
   * `unsigned long`: 0 for an unsupported PLL, `None` when PDIV is 0 (a
   * division by zero).
   */
  function PllClkAsWritten(id: PllId, con0: nat, con1: nat): Option<nat>
  {
    if id == Unsupported then Some(0)
    else
      var f := DecodeFields(id, con0);
      if f.p == 0 then None
      else Some(Wrap((f.m + KAsWritten(id, con1)) * Step(f), U32))
  }

  /** The fraction denominator of K, and K's width: 2^16 on EPLL, 2^10 of 12 bits on VPLL. */
  function KScale(id: PllId): nat
  {
    if id == Epll then 0x1_0000 else if id == Vpll then 0x400 else 1
  }

  function KValue(id: PllId, con1: nat): nat
  {
    if id == Epll then con1 % 0x1_0000 else if id == Vpll then con1 % 0x1000 else 0
  }

  /**
   * The PLL output frequency with K kept as the fraction K / scale of an
   * MDIV step, as the register documentation gives it.
   */
  function PllClk(id: PllId, con0: nat, con1: nat): Option<nat>
  {
    if id == Unsupported then Some(0)
    else
      var f := DecodeFields(id, con0);
      if f.p == 0 then None
      else Some(Wrap(Exact(id, f, KValue(id, con1)), U32))
  }

  /** MDIV plus the fraction K / scale, times one step, rounded down. */
  function Exact(id: PllId, f: PllFields, k: nat): nat
    requires f.p > 0
  {
    ((f.m * KScale(id) + k) * Step(f)) / KScale(id)
  }

  /**
   * As written, the EPLL K term is always 0 and the VPLL K term at most 3;
   * an unsupported PLL reads 0 and a zero PDIV has no value.
   */
  lemma PllClkAsWrittenMeaning(id: PllId, con0: nat, con1: nat)
    ensures id == Unsupported ==> PllClkAsWritten(id, con0, con1) == Some(0)
    ensures id != Unsupported ==>
      (PllClkAsWritten(id, con0, con1).None? <==> DecodeFields(id, con0).p == 0)
    ensures KAsWritten(id, con1) <= 3
    ensures id == Epll && DecodeFields(id, con0).p != 0 ==>
      PllClkAsWritten(id, con0, con1) == Some(Wrap(DecodeFields(id, con0).m * Step(DecodeFields(id, con0)), U32))
  {
  }

  /** A fraction below `n` adds at most `n` steps: the output lies in [m * step, (m + n) * step]. */
  lemma FractionBounds(m: nat, k: nat, scale: nat, step: nat, n: nat)
    requires scale > 0 && k < n * scale
    ensures m * step <= ((m * scale + k) * step) / scale <= m * step + n * step
  {
    var x := (m * scale + k) * step;
    var base := m * step;
    var extra := k * step;
    assert x == base * scale + extra;
    DivAddMultiple(base, extra, scale);
    assert x / scale == base + extra / scale;
    MulMono(k, n * scale - 1, step);
    assert extra <= n * step * scale;
    assert extra < (n * step + 1) * scale;
    DivBelow(extra, scale, n * step + 1);
  }

  /** How many whole steps K can reach: K is below 1 on EPLL and below 4 on VPLL. */
  function KSteps(id: PllId): nat
  {
    if id == Vpll then 4 else if id == Epll then 1 else 0
  }

  /**
   * The corrected output of a supported PLL, before 32-bit truncation, is
   * MDIV steps plus the K fraction: under one step on EPLL, under four on
   * VPLL, none on the others.
   */
  lemma PllClkMeaning(id: PllId, con0: nat, con1: nat)
    requires id != Unsupported && DecodeFields(id, con0).p != 0
    ensures var f := DecodeFields(id, con0);
      PllClk(id, con0, con1) == Some(Wrap(Exact(id, f, KValue(id, con1)), U32)) &&
      f.m * Step(f) <= Exact(id, f, KValue(id, con1)) <= f.m * Step(f) + KSteps(id) * Step(f)
  {
    var f := DecodeFields(id, con0);
    var k := KValue(id, con1);
    if id == Epll || id == Vpll {
      FractionBounds(f.m, k, KScale(id), Step(f), KSteps(id));
    } else {
      assert Exact(id, f, k) == f.m * Step(f);
    }
  }

  // ---------------------------------------------------------------------
  // ARM clock
  // ---------------------------------------------------------------------

  /** The APLL output divided by ARM_RATIO + 1 (bits 2:0) and ARM2_RATIO + 1 (bits 30:28). */
  function ArmClk(apll: nat, divCpu0: nat): nat
  {
    apll / (ArmRatio(divCpu0) + 1) / (Arm2Ratio(divCpu0) + 1)
  }

  function ArmRatio(divCpu0: nat): (r: nat)
    ensures r < 8
  {
    divCpu0 % 8
  }

  function Arm2Ratio(divCpu0: nat): (r: nat)
    ensures r < 8
  {
    (divCpu0 / 0x1000_0000) % 8
  }

  /** The two dividers act as one divider by their product, and never speed the clock up. */
  lemma ArmClkMeaning(apll: nat, divCpu0: nat)
    ensures ArmClk(apll, divCpu0) == apll / ((ArmRatio(divCpu0) + 1) * (Arm2Ratio(divCpu0) + 1))
    ensures ArmClk(apll, divCpu0) <= apll
  {
    var a := ArmRatio(divCpu0) + 1;
    var b := Arm2Ratio(divCpu0) + 1;
    DivDiv(apll, a, b);
    DivAtMost(apll, a);
    DivAtMost(apll / a, b);
  }

  // ---------------------------------------------------------------------
  // EPLL rate table
  // ---------------------------------------------------------------------

  /** One row of the EPLL table: output rate, lock-detect enable, MDIV, PDIV, SDIV, K. */
  datatype EpllEntry = EpllEntry(freq: nat, lockDet: nat, m: nat, p: nat, s: nat, k: nat)
  {
    function Fields(): PllFields { PllFields(m, p, s) }
  }

  const EpllTable: seq<EpllEntry> := [
    EpllEntry(192_000_000, 0, 48, 3, 1, 0),
    EpllEntry(180_000_000, 0, 45, 3, 1, 0),
    EpllEntry(73_728_000, 1, 73, 3, 3, 47710),
    EpllEntry(67_737_600, 1, 90, 4, 3, 20762),
    EpllEntry(49_152_000, 0, 49, 3, 3, 9961),
    EpllEntry(45_158_400, 0, 45, 3, 3, 10381),
    EpllEntry(180_633_600, 0, 45, 3, 1, 10381)
  ]

  /** The first table row for `rate`, if any. */
  function EpllIndex(rate: nat, from: nat): (r: Option<nat>)
    requires from <= |EpllTable|
    ensures r.Some? ==> from <= r.value < |EpllTable| && EpllTable[r.value].freq == rate
    ensures r.Some? ==> forall j :: from <= j < r.value ==> EpllTable[j].freq != rate
    ensures r.None? ==> forall j :: from <= j < |EpllTable| ==> EpllTable[j].freq != rate
    decreases |EpllTable| - from
  {
    if from == |EpllTable| then None
    else if EpllTable[from].freq == rate then Some(from)
    else EpllIndex(rate, from + 1)
  }

  /** What setting the EPLL writes: the table row and the lock count. */
  datatype EpllSetting = EpllSetting(entry: EpllEntry, lockCount: nat)

  /** The status returned (0 or -1) and the setting written to the registers, if any. */
  datatype EpllOutcome = EpllOutcome(status: int, written: Option<EpllSetting>)

  /**
   * Setting the EPLL to `rate`. A rate with no table row returns -1 before
   * any register is written. Otherwise the row and a lock time of 3000
   * PDIV cycles are written, and the status is 0 when the PLL reports lock
   * before the timeout (`locked`, the outcome of the polling loop) and -1
   * when it does not; the registers stay written either way.
   */
  function EpllSetRate(rate: nat, locked: bool): (r: EpllOutcome)
    ensures r.status == 0 || r.status == -1
    ensures r.written.Some? <==> exists j :: 0 <= j < |EpllTable| && EpllTable[j].freq == rate
    ensures r.status == 0 <==> r.written.Some? && locked
    ensures r.written.Some? ==> r.written.value.entry in EpllTable && r.written.value.entry.freq == rate
    ensures r.written.Some? ==> r.written.value.lockCount == 3000 * r.written.value.entry.p
  {
    match EpllIndex(rate, 0)
    case None => EpllOutcome(-1, None)
    case Some(j) => EpllOutcome(if locked then 0 else -1, Some(EpllSetting(EpllTable[j], 3000 * EpllTable[j].p)))
  }

  /** Each table row fits the EPLL register fields. */
  lemma EpllTableFits()
    ensures forall e :: e in EpllTable ==> e.m < 0x200 && 0 < e.p < 0x40 && e.s < 8 && e.k < 0x1_0000
  {
  }

  /** The EPLL frequency of a row, with K kept as a fraction of a step. */
  function RowRate(e: EpllEntry): nat
    requires e.p > 0
  {
    Wrap(Exact(Epll, e.Fields(), e.k), U32)
  }

  /** Reading back an encoded row yields its corrected rate. */
  lemma RowReadBack(e: EpllEntry)
    requires e.m < 0x200 && 0 < e.p < 0x40 && e.s < 8 && e.k < 0x1_0000
    ensures PllClk(Epll, EncodeFields(e.Fields()), e.k) == Some(RowRate(e))
  {
    FieldsRoundTrip(Epll, e.Fields());
    assert KValue(Epll, e.k) == e.k;
  }

  /** The corrected rate of each row, within 10 Hz of the rate it stands for. */
  lemma RowRates()
    ensures forall e :: e in EpllTable ==> e.p > 0 && e.freq <= RowRate(e) + 10 && RowRate(e) <= e.freq + 10
  {
    RowRatesFast();
    RowRatesSlow();
  }

  /** The rows with SDIV 1: a 4 MHz step. */
  lemma RowRatesFast()
    ensures RowRate(EpllTable[0]) == 192_000_000
    ensures RowRate(EpllTable[1]) == 180_000_000
    ensures RowRate(EpllTable[6]) == 180_633_605
  {
    assert Pow2(1) == 2;
    assert Step(PllFields(45, 3, 1)) == 4_000_000;
    assert Exact(Epll, PllFields(45, 3, 1), 10381) == 180_633_605;
  }

  /** The rows with SDIV 3: a 1 MHz or 750 kHz step. */
  lemma RowRatesSlow()
    ensures RowRate(EpllTable[2]) == 73_727_996
    ensures RowRate(EpllTable[3]) == 67_737_602
    ensures RowRate(EpllTable[4]) == 49_151_992
    ensures RowRate(EpllTable[5]) == 45_158_401
  {
    assert Pow2(3) == 8;
    assert Step(PllFields(73, 3, 3)) == 1_000_000;
    assert Step(PllFields(90, 4, 3)) == 750_000;
  }

  /** Programming a table rate and reading the EPLL back, with the fraction kept, is within 10 Hz of it. */
  lemma EpllReadBack(rate: nat, locked: bool)
    requires EpllSetRate(rate, locked).written.Some?
    ensures var e := EpllSetRate(rate, locked).written.value.entry;
      var back := PllClk(Epll, EncodeFields(e.Fields()), e.k);
      back.Some? && rate <= back.value + 10 && back.value <= rate + 10
  {
    var e := EpllSetRate(rate, locked).written.value.entry;
    EpllTableFits();
    RowReadBack(e);
    RowRates();
  }

  /**
   * As written, the 73.728 MHz row reads back as 73 MHz: the K fraction
   * 47710/65536 of a 1 MHz step is lost.
   */
  lemma EpllAsWrittenDropsFraction(locked: bool)
    ensures EpllSetRate(73_728_000, locked).written.Some?
    ensures var e := EpllSetRate(73_728_000, locked).written.value.entry;
      PllClkAsWritten(Epll, EncodeFields(e.Fields()), e.k) == Some(73_000_000)
  {
    var e := EpllTable[2];
    FieldsRoundTrip(Epll, e.Fields());
  }
}

=== FILE: exynos_scalar.dfy ===
/**
 * The Exynos5250 divisor search: for an input clock and a target rate,
 * the main and fine divisors whose output is closest to the target
 * without exceeding it.
 */
module ExynosScalar {
  import opened Common
  import opened Arith

  /** A C `int` holding the bits of an unsigned 32-bit value. */
  function ToInt32(x: nat): (r: int)
    requires x < U32
    ensures 0 <= x < 0x8000_0000 ==> r == x
    ensures x >= 0x8000_0000 ==> r < 0
  {
    if x < 0x8000_0000 then x else x - U32
  }

  /** `target - rate` computed in unsigned arithmetic and stored in an `int`. */
  function SignedError(target: nat, rate: nat): int
    requires target < U32 && rate < U32
  {
    ToInt32(Wrap(target - rate, U32))
  }

  /**
   * With `best` at most the target, the search's test `error >= 0 &&
   * error <= best` accepts exactly the rates at or below the target, less
   * than 2^31 below it, whose shortfall is within `best`: a rate above the
   * target never wraps into an accepted error.
   */
  lemma ErrorAccepted(target: nat, rate: nat, best: nat)
    requires target < U32 && rate < U32 && best <= target
    ensures (0 <= SignedError(target, rate) && SignedError(target, rate) <= best) <==>
      (rate <= target && target - rate < 0x8000_0000 && target - rate <= best)
  {
  }

  function Max(a: nat, b: nat): nat { if a >= b then a else b }
  function Min(a: nat, b: nat): nat { if a <= b then a else b }

  /** The fine divisor tried with main divisor `i`: input / i / target, clamped to [1, cap]. */
  function EffDiv(input: nat, target: nat, cap: nat, i: nat): (r: nat)
    requires i > 0 && target > 0
    ensures 1 <= r && (cap >= 1 ==> r <= cap)
  {
    Max(Min(input / i / target, cap), 1)
  }

  /** The rate the two divisors give. */
  function EffRate(input: nat, target: nat, cap: nat, i: nat): (r: nat)
    requires i > 0 && target > 0
    ensures r <= input
  {
    var q := input / i;
    DivAtMost(input, i);
    DivAtMost(q, EffDiv(input, target, cap, i));
    q / EffDiv(input, target, cap, i)
  }

  /** Main divisor `i` gives a rate the search accepts: not above the target and within 2^31 of it. */
  predicate Acceptable(input: nat, target: nat, cap: nat, i: nat)
    requires i > 0 && target > 0
  {
    EffRate(input, target, cap, i) <= target && target - EffRate(input, target, cap, i) < 0x8000_0000
  }

  /** The search result: main divisor (-1 for none found) and fine divisor. */
  datatype Scalars = Scalars(main: int, fine: nat)

  /** What the loop has established after trying main divisors 1 to `i - 1`. */
  predicate Best(input: nat, target: nat, cap: nat, i: nat, main: int, fine: nat, best: nat)
    requires target > 0
  {
    if main == -1 then
      fine == 1 && best == target &&
      forall j :: 1 <= j < i ==> !Acceptable(input, target, cap, j)
    else
      1 <= main < i && Acceptable(input, target, cap, main) &&
      fine == EffDiv(input, target, cap, main) &&
      best == target - EffRate(input, target, cap, main) &&
      (forall j :: 1 <= j < i && Acceptable(input, target, cap, j) ==>
        EffRate(input, target, cap, j) <= EffRate(input, target, cap, main)) &&
      (forall j :: main < j < i && Acceptable(input, target, cap, j) ==>
        EffRate(input, target, cap, j) < EffRate(input, target, cap, main))
  }

  /** One divisor tried: `Best` carries over from `i` to `i + 1`. */
  lemma BestStep(input: nat, target: nat, cap: nat, i: nat, main: int, fine: nat, best: nat,
                 main': int, fine': nat, best': nat)
    requires 0 < target < U32 && input < U32 && i >= 1
    requires Best(input, target, cap, i, main, fine, best)
    requires var rate := EffRate(input, target, cap, i);
      var take := Acceptable(input, target, cap, i) && target - rate <= best;
      (take ==> main' == i && fine' == EffDiv(input, target, cap, i) && best' == target - rate) &&
      (!take ==> main' == main && fine' == fine && best' == best)
    ensures Best(input, target, cap, i + 1, main', fine', best')
  {
    var rate := EffRate(input, target, cap, i);
    if main != -1 && Acceptable(input, target, cap, i) && target - rate > best {
      assert rate < EffRate(input, target, cap, main);
    }
  }

  /** No main divisor in 1..loops gives a rate the search accepts. */
  predicate NoneFits(input: nat, target: nat, cap: nat, loops: nat)
    requires target > 0
  {
    forall i :: 1 <= i <= loops ==> !Acceptable(input, target, cap, i)
  }

  /**
   * `main` is an accepted main divisor in 1..loops whose rate no other
   * accepted one beats, and the last such, with `fine` its fine divisor.
   */
  predicate IsBest(input: nat, target: nat, cap: nat, loops: nat, main: int, fine: nat)
    requires target > 0
  {
    1 <= main <= loops && Acceptable(input, target, cap, main) &&
    fine == EffDiv(input, target, cap, main) &&
    (forall i :: 1 <= i <= loops && Acceptable(input, target, cap, i) ==>
      EffRate(input, target, cap, i) <= EffRate(input, target, cap, main)) &&
    (forall i :: main < i <= loops && Acceptable(input, target, cap, i) ==>
      EffRate(input, target, cap, i) < EffRate(input, target, cap, main))
  }

  /**
   * One pass of the search loop: main divisor `i` with its fine divisor
   * replaces the best so far when its error `target - rate`, computed in
   * unsigned arithmetic and read as a signed `int`, is non-negative and at
   * most the best error.
   */
  function TryDivisor(input: nat, target: nat, cap: nat, i: nat, main: int, fine: nat, best: nat)
    : (r: (int, nat, nat))
    requires 0 < target < U32 && input < U32 && i >= 1
    requires Best(input, target, cap, i, main, fine, best)
    ensures Best(input, target, cap, i + 1, r.0, r.1, r.2)
  {
    var div := EffDiv(input, target, cap, i);
    var rate := EffRate(input, target, cap, i);
    var error := SignedError(target, rate);
    ErrorAccepted(target, rate, best);
    var r := if error >= 0 && error <= best then (i, div, error) else (main, fine, best);
    BestStep(input, target, cap, i, main, fine, best, r.0, r.1, r.2);
    r
  }

  /**
   * The main divisor in 1..2^mainBits and fine divisor in 1..2^fineBits - 1
   * whose rate is the highest not above the target (the last such main
   * divisor on a tie). A zero input or target gives -1; a target at or
   * above the input gives 1; the fine divisor is 1 unless one was found.
   */
  method BestScalar(mainBits: nat, fineBits: nat, input: nat, target: nat) returns (r: Scalars)
    requires 0 < mainBits <= fineBits < 32
    requires input < U32 && target < U32
    ensures input == 0 || target == 0 ==> r == Scalars(-1, 1)
    ensures input > 0 && target >= input ==> r == Scalars(1, 1)
    ensures 0 < target < input ==>
      var cap := Pow2(fineBits) - 1;
      var loops := Pow2(mainBits);
      (r.main == -1 <==> NoneFits(input, target, cap, loops)) &&
      (r.main == -1 ==> r.fine == 1) &&
      (r.main != -1 ==>
        IsBest(input, target, cap, loops, r.main, r.fine) &&
        1 <= r.fine <= cap && input / r.main / r.fine <= target)
  {
    if input == 0 || target == 0 {
      return Scalars(-1, 1);
    }
    if target >= input {
      return Scalars(1, 1);
    }
    var cap := Pow2(fineBits) - 1;
    var loops := Pow2(mainBits);
    var main: int := -1;
    var fine: nat := 1;
    var best: nat := target;
    var i := 1;
    while i <= loops
      invariant 1 <= i <= loops + 1
      invariant Best(input, target, cap, i, main, fine, best)
      decreases loops + 1 - i
    {
      var next := TryDivisor(input, target, cap, i, main, fine, best);
      main, fine, best := next.0, next.1, next.2;
      i := i + 1;
    }
    assert Pow2(1) == 2;
    Pow2Monotone(1, fineBits);
    return Scalars(main, fine);
  }
}

=== FILE: fam10_chain.dfy ===
/**
 * AMD family 10h HyperTransport chain enumeration: how each non-coherent
 * link of a node receives its secondary and subordinate bus numbers, and
 * the order in which a node's links are scanned (the south-bridge chain of
 * node 0 first).
 *
 * Configuration chosen: the south-bridge chain sits on bus 0
 * (SB_HT_CHAIN_ON_BUS0 = 1); HT3 support and the extended configuration
 * map are parameters.
 */
module Fam10Chain {
  import opened Common

  /** Build options that change the scan. */
  datatype Config = Config(ht3: bool, extConf: bool)

  /** What the link-status register says once the training loops have finished. */
  datatype Training = NotConnected | Coherent | NonCoherent

  /**
   * One HyperTransport link of a node as the scan sees it.
   * `sublink0Ganged` is bit 0 of the sublink-0 control register (only read
   * for sublink 1 on HT3 parts); `htcIndex` is the configuration-map slot
   * handed out for this link; `busses` is the bridge's bus-number register.
   * The chain probe behind the link is represented by its effect: the number
   * of buses it adds after the secondary bus, and the unit-id bases it
   * rewrote.
   */
  datatype HtLink = HtLink(
    num: nat,
    sublink0Ganged: bool,
    training: Training,
    htcIndex: nat,
    busses: bv32,
    busCount: nat,
    unitIdWrites: map<nat, bv32>)

  datatype BusRange = BusRange(secondary: nat, subordinate: nat)

  /** A call to the configuration-map register writers. */
  datatype MapOp =
    | SetMap(node: nat, link: nat, index: nat, secondary: nat, subordinate: nat)
    | ClearMap(node: nat, link: nat, index: nat, from: nat, to: nat)

  /** The arguments of one store of a chain's bus range into the system configuration. */
  datatype ChainConf = ChainConf(node: nat, link: nat, index: nat, secondary: nat, subordinate: nat)

  /** The parts of the global system configuration the scan reads and writes. */
  datatype Sysconf = Sysconf(
    sblk: nat,
    segbit: nat,
    htcNum: nat,
    hcdnReg: map<nat, bv32>,
    confBus: seq<ChainConf>,
    mapOps: seq<MapOp>,
    nodes: nat)

  /** A three-bit field of a configuration word. */
  function Field3(w: bv32, shift: bv32): (r: nat)
    requires shift <= 29
    ensures r < 8
  {
    ((w >> shift) & 7) as nat
  }

  /**
   * sysconf_init from node 0's registers: the south-bridge link from bits
   * 10:8 of offset 0x64, the node count from bits 6:4 of offset 0x60 plus,
   * with more than eight physical CPUs, eight times bits 6:4 of offset 0x160;
   * segment bits, chain count and chain bus table start empty.
   */
  function SysconfInit(reg64: bv32, reg60: bv32, reg160: bv32, manyCpus: bool): (s: Sysconf)
    ensures s.sblk < 8 && s.segbit == 0 && s.htcNum == 0 && s.confBus == [] && s.mapOps == []
    ensures 1 <= s.nodes <= (if manyCpus then 64 else 8)
  {
    var nodes := Field3(reg60, 4) + 1 + (if manyCpus then Field3(reg160, 4) * 8 else 0);
    Sysconf(Field3(reg64, 8), 0, 0, map[], [], [], nodes)
  }

  /** Writing a value into a three-bit field and reading it back gives the value. */
  lemma Field3RoundTrip(v: bv32, shift: bv32)
    requires v < 8 && shift <= 29
    ensures Field3(v << shift, shift) == v as nat
  {
  }

  /** Registers that encode a south-bridge link and a node count decode to them. */
  lemma SysconfInitRoundTrip(sblk: bv32, lo: bv32, hi: bv32, manyCpus: bool)
    requires sblk < 8 && lo < 8 && hi < 8
    ensures var s := SysconfInit(sblk << 8, lo << 4, hi << 4, manyCpus);
      s.sblk == sblk as nat && s.nodes == lo as nat + 1 + (if manyCpus then hi as nat * 8 else 0)
  {
    Field3RoundTrip(sblk, 8);
    Field3RoundTrip(lo, 4);
    Field3RoundTrip(hi, 4);
  }

  /** What a scanned link ends up with: its final bus range, the provisional subordinate, and the bus register written. */
  datatype Assigned = Assigned(range: BusRange, provisional: nat, busses: bv32)

  datatype ChainOutcome = ChainOutcome(max: nat, sys: Sysconf, taken: Option<Assigned>)

  /** Unit-id base every chain starts from. */
  const UnitIdBase: bv32 := 0x20

  /** The node-0 link that carries the south bridge. */
  predicate IsSbLink(node: nat, sblk: nat, link: HtLink)
  {
    node == 0 && link.num == sblk
  }

  /** Whether the scan of `link` gets as far as assigning bus numbers. */
  predicate Reaches(cfg: Config, link: HtLink)
  {
    && !(cfg.ht3 && link.num > 3 && link.sublink0Ganged)
    && link.training == NonCoherent
    && (cfg.extConf || link.htcIndex < 4)
  }

  /** The four unit-id bases after the chain probe. */
  function UnitIds(writes: map<nat, bv32>): (r: seq<bv32>)
    ensures |r| == 4
    ensures forall i :: 0 <= i < 4 && i !in writes ==> r[i] == UnitIdBase
  {
    seq(4, i => if i in writes then writes[i] else UnitIdBase)
  }

  /** Packs the low bytes of four unit ids into one word, unit 0 in the lowest byte. */
  function PackUnitIds(u: seq<bv32>): (r: bv32)
    requires |u| == 4
  {
    Pack4(u[0], u[1], u[2], u[3])
  }

  function Pack4(a: bv32, b: bv32, c: bv32, d: bv32): bv32
  {
    (a & 0xff) | ((b & 0xff) << 8) | ((c & 0xff) << 16) | ((d & 0xff) << 24)
  }

  lemma Pack4Low(a: bv32, b: bv32, c: bv32, d: bv32)
    ensures Pack4(a, b, c, d) & 0xff == a & 0xff
    ensures (Pack4(a, b, c, d) >> 8) & 0xff == b & 0xff
  {
  }

  lemma Pack4High(a: bv32, b: bv32, c: bv32, d: bv32)
    ensures (Pack4(a, b, c, d) >> 16) & 0xff == c & 0xff
    ensures (Pack4(a, b, c, d) >> 24) & 0xff == d & 0xff
  {
  }

  /** Byte `i` of a packed unit-id word. */
  function UnitIdByte(w: bv32, i: nat): bv32
    requires i < 4
  {
    if i == 0 then w & 0xff
    else if i == 1 then (w >> 8) & 0xff
    else if i == 2 then (w >> 16) & 0xff
    else (w >> 24) & 0xff
  }

  /** Unpacking a packed word gives back the low byte of every unit id. */
  lemma PackUnitIdsRoundTrip(u: seq<bv32>)
    requires |u| == 4
    ensures forall i :: 0 <= i < 4 ==> UnitIdByte(PackUnitIds(u), i) == u[i] & 0xff
  {
    forall i | 0 <= i < 4
      ensures UnitIdByte(PackUnitIds(u), i) == u[i] & 0xff
    {
      if i == 0 {
        Pack4Low(u[0], u[1], u[2], u[3]);
      } else if i == 1 {
        Pack4Low(u[0], u[1], u[2], u[3]);
      } else if i == 2 {
        Pack4High(u[0], u[1], u[2], u[3]);
      } else {
        Pack4High(u[0], u[1], u[2], u[3]);
      }
    }
  }

  /** A probe that rewrites no unit id leaves the register at 0x20202020. */
  lemma UntouchedUnitIds()
    ensures PackUnitIds(UnitIds(map[])) == 0x20202020
  {
    var u := UnitIds(map[]);
    assert u[0] == 0x20 && u[1] == 0x20 && u[2] == 0x20 && u[3] == 0x20;
  }

  /** The bridge bus register with the secondary bus number in bits 15:8. */
  function WithSecondary(busses: bv32, sec: bv32): (r: bv32)
    ensures r & 0xff == busses & 0xff
    ensures (r >> 8) & 0xff == sec & 0xff
    ensures r & 0xffff0000 == (busses | (sec << 8)) & 0xffff0000
  {
    (busses & 0xffff00ff) | (sec << 8)
  }

  /** Subordinate bus used while the chain is probed: bus 0xfc of the segment of `max`. */
  function ProvisionalSubordinate(max: nat): (r: nat)
    requires max < U32
    ensures r < U32
    ensures r / 256 == max / 256 && r % 256 == 0xfc
  {
    0xfc + (max / 256) * 256
  }

  /** Secondary bus of a chain: the current maximum for the south-bridge link of node 0, the next bus otherwise. */
  function SecondaryBus(node: nat, sblk: nat, link: HtLink, max: nat): (r: nat)
    requires max < U32
    ensures r < U32
    ensures IsSbLink(node, sblk, link) ==> r == max
    ensures !IsSbLink(node, sblk, link) && max + 1 < U32 ==> r == max + 1
  {
    if IsSbLink(node, sblk, link) then max else Wrap(max + 1, U32)
  }

  /**
   * The configuration-map writes of one chain: the provisional range, a clear
   * of the unused tail for an extended map slot, then the final range.
   */
  function MapOps(node: nat, link: HtLink, segbit: nat, minBus: nat, maxBus: nat, newMax: nat): (r: seq<MapOp>)
    requires newMax < U32
    ensures |r| == if link.htcIndex > 3 then 3 else 2
    ensures r[0] == SetMap(node, link.num, link.htcIndex, minBus, maxBus)
    ensures r[|r| - 1] == SetMap(node, link.num, link.htcIndex, minBus, newMax)
  {
    var clear :=
      if link.htcIndex > 3 then
        [ClearMap(node, link.num, link.htcIndex, Shr(Wrap(newMax + 1, U32), segbit), Shr(maxBus, segbit))]
      else [];
    [SetMap(node, link.num, link.htcIndex, minBus, maxBus)] + clear + [SetMap(node, link.num, link.htcIndex, minBus, newMax)]
  }

  /** Scans one link of `node` starting from bus counter `max`; the result carries the new counter. */
  function ScanChain(cfg: Config, sys: Sysconf, node: nat, link: HtLink, max: nat): (r: ChainOutcome)
    requires max < U32
    ensures r.max < U32
    ensures !Reaches(cfg, link) <==> r.taken.None?
    ensures !Reaches(cfg, link) ==> r.max == max && r.sys == sys
    ensures r.taken.Some? ==>
      var a := r.taken.value;
      && a.range.secondary == SecondaryBus(node, sys.sblk, link, max)
      && a.range.subordinate == r.max
      && a.provisional / 256 == max / 256 && a.provisional % 256 == 0xfc
      && (a.range.secondary + link.busCount < U32 ==> r.max == a.range.secondary + link.busCount)
      && r.sys.htcNum == Wrap(sys.htcNum + 1, U32)
      && r.sys.hcdnReg == sys.hcdnReg[link.htcIndex := PackUnitIds(UnitIds(link.unitIdWrites))]
      && r.sys.confBus == sys.confBus + [ChainConf(node, link.num, link.htcIndex, a.range.secondary, r.max)]
      && r.sys.mapOps == sys.mapOps + MapOps(node, link, sys.segbit, a.range.secondary, a.provisional, r.max)
      && a.busses == WithSecondary(link.busses, a.range.secondary as bv32)
      && r.sys.sblk == sys.sblk && r.sys.segbit == sys.segbit && r.sys.nodes == sys.nodes
  {
    if !Reaches(cfg, link) then
      ChainOutcome(max, sys, None)
    else
      var minBus := SecondaryBus(node, sys.sblk, link, max);
      var maxBus := ProvisionalSubordinate(max);
      var busses := WithSecondary(link.busses, minBus as bv32);
      var newMax := Wrap(minBus + link.busCount, U32);
      var ops := MapOps(node, link, sys.segbit, minBus, maxBus, newMax);
      var sys' := sys.(
        htcNum := Wrap(sys.htcNum + 1, U32),
        hcdnReg := sys.hcdnReg[link.htcIndex := PackUnitIds(UnitIds(link.unitIdWrites))],
        confBus := sys.confBus + [ChainConf(node, link.num, link.htcIndex, minBus, newMax)],
        mapOps := sys.mapOps + ops);
      ChainOutcome(newMax, sys', Some(Assigned(BusRange(minBus, newMax), maxBus, busses)))
  }

  /** The scan state threaded through a node's links: bus counter, system configuration, and the ranges given to link positions. */
  datatype ScanState = ScanState(max: nat, sys: Sysconf, chains: map<nat, Assigned>)

  /** Scans the link at position `j`. */
  function Step(cfg: Config, node: nat, links: seq<HtLink>, st: ScanState, j: nat): (r: ScanState)
    requires j < |links| && st.max < U32
    ensures r.max < U32
    ensures r.sys.sblk == st.sys.sblk
  {
    var o := ScanChain(cfg, st.sys, node, links[j], st.max);
    ScanState(o.max, o.sys, if o.taken.Some? then st.chains[j := o.taken.value] else st.chains)
  }

  /** Scans the link positions of `order` one after another. */
  function FoldScan(cfg: Config, node: nat, links: seq<HtLink>, st: ScanState, order: seq<nat>): (r: ScanState)
    requires st.max < U32
    requires forall k :: 0 <= k < |order| ==> order[k] < |links|
    ensures r.max < U32
    ensures r.sys.sblk == st.sys.sblk
  {
    if |order| == 0 then st
    else
      var prev := FoldScan(cfg, node, links, st, order[..|order| - 1]);
      Step(cfg, node, links, prev, order[|order| - 1])
  }

  /** Positions below `k`, in list order, of the links that are (`sb`) or are not (`!sb`) the south-bridge link. */
  function Positions(links: seq<HtLink>, k: nat, node: nat, sblk: nat, sb: bool): (r: seq<nat>)
    requires k <= |links|
    ensures forall m :: 0 <= m < |r| ==> r[m] < k && IsSbLink(node, sblk, links[r[m]]) == sb
    ensures forall m, n :: 0 <= m < n < |r| ==> r[m] < r[n]
  {
    if k == 0 then []
    else Positions(links, k - 1, node, sblk, sb) + (if IsSbLink(node, sblk, links[k - 1]) == sb then [k - 1] else [])
  }

  /** A position is listed exactly when it lies below `k` and its link matches `sb`. */
  lemma {:induction false} PositionsComplete(links: seq<HtLink>, k: nat, node: nat, sblk: nat, sb: bool, j: nat)
    requires k <= |links|
    ensures j in Positions(links, k, node, sblk, sb) <==> j < k && IsSbLink(node, sblk, links[j]) == sb
  {
    if k > 0 {
      PositionsComplete(links, k - 1, node, sblk, sb, j);
    }
  }

  /** Reference scan order: the south-bridge link first, then every other link in list order. */
  function ScanOrder(links: seq<HtLink>, node: nat, sblk: nat): (r: seq<nat>)
  {
    Positions(links, |links|, node, sblk, true) + Positions(links, |links|, node, sblk, false)
  }

  function Start(sys: Sysconf, max: nat): ScanState
  {
    ScanState(max, sys, map[])
  }

  /** Positions of off-node-0 links are never south-bridge positions. */
  lemma {:induction false} NoSbPositions(links: seq<HtLink>, k: nat, node: nat, sblk: nat)
    requires k <= |links| && node != 0
    ensures Positions(links, k, node, sblk, true) == []
  {
    if k > 0 {
      NoSbPositions(links, k - 1, node, sblk);
    }
  }

  /** Appending one position to an order scans that position last. */
  lemma FoldScanSnoc(cfg: Config, node: nat, links: seq<HtLink>, st: ScanState, order: seq<nat>, j: nat)
    requires st.max < U32 && j < |links|
    requires forall k :: 0 <= k < |order| ==> order[k] < |links|
    ensures FoldScan(cfg, node, links, st, order + [j]) == Step(cfg, node, links, FoldScan(cfg, node, links, st, order), j)
  {
    assert (order + [j])[..|order|] == order;
  }

  /** Scanning `a` then `b` is scanning `a + b`. */
  lemma {:induction false} FoldScanAppend(cfg: Config, node: nat, links: seq<HtLink>, st: ScanState, a: seq<nat>, b: seq<nat>)
    requires st.max < U32
    requires forall k :: 0 <= k < |a| ==> a[k] < |links|
    requires forall k :: 0 <= k < |b| ==> b[k] < |links|
    ensures FoldScan(cfg, node, links, st, a + b) == FoldScan(cfg, node, links, FoldScan(cfg, node, links, st, a), b)
  {
    if |b| == 0 {
      assert a + b == a;
    } else {
      var b' := b[..|b| - 1];
      FoldScanAppend(cfg, node, links, st, a, b');
      assert (a + b)[..|a + b| - 1] == a + b';
    }
  }

  /** The first loop: every link whose number is the south-bridge link, in list order. */
  method ScanSbLinks(cfg: Config, node: nat, links: seq<HtLink>, init: ScanState) returns (st: ScanState)
    requires init.max < U32
    ensures st == FoldScan(cfg, node, links, init, Positions(links, |links|, node, init.sys.sblk, true))
  {
    var sblk := init.sys.sblk;
    st := init;
    var i := 0;
    while i < |links|
      invariant 0 <= i <= |links|
      invariant st.max < U32
      invariant st == FoldScan(cfg, node, links, init, Positions(links, i, node, sblk, true))
    {
      if node == 0 && links[i].num == sblk {
        assert Positions(links, i + 1, node, sblk, true) == Positions(links, i, node, sblk, true) + [i];
        FoldScanSnoc(cfg, node, links, init, Positions(links, i, node, sblk, true), i);
        st := Step(cfg, node, links, st, i);
      } else {
        assert Positions(links, i + 1, node, sblk, true) == Positions(links, i, node, sblk, true);
      }
      i := i + 1;
    }
  }

  /** The second loop: every other link, in list order. */
  method ScanOtherLinks(cfg: Config, node: nat, links: seq<HtLink>, init: ScanState) returns (st: ScanState)
    requires init.max < U32
    ensures st == FoldScan(cfg, node, links, init, Positions(links, |links|, node, init.sys.sblk, false))
  {
    var sblk := init.sys.sblk;
    st := init;
    var i := 0;
    while i < |links|
      invariant 0 <= i <= |links|
      invariant st.max < U32
      invariant st == FoldScan(cfg, node, links, init, Positions(links, i, node, sblk, false))
    {
      if !(node == 0 && sblk == links[i].num) {
        assert Positions(links, i + 1, node, sblk, false) == Positions(links, i, node, sblk, false) + [i];
        FoldScanSnoc(cfg, node, links, init, Positions(links, i, node, sblk, false), i);
        st := Step(cfg, node, links, st, i);
      } else {
        assert Positions(links, i + 1, node, sblk, false) == Positions(links, i, node, sblk, false);
      }
      i := i + 1;
    }
  }

  /**
   * Scans all links of a node: on node 0 the south-bridge link first, then
   * every link in list order except that one. The result is the reference
   * fold over ScanOrder.
   */
  method ScanChains(cfg: Config, sys: Sysconf, node: nat, links: seq<HtLink>, max: nat) returns (st: ScanState)
    requires max < U32
    ensures forall k :: 0 <= k < |ScanOrder(links, node, sys.sblk)| ==> ScanOrder(links, node, sys.sblk)[k] < |links|
    ensures st == FoldScan(cfg, node, links, Start(sys, max), ScanOrder(links, node, sys.sblk))
  {
    var first := Start(sys, max);
    if node == 0 {
      first := ScanSbLinks(cfg, node, links, first);
    } else {
      NoSbPositions(links, |links|, node, sys.sblk);
    }
    st := ScanOtherLinks(cfg, node, links, first);
    FoldScanAppend(cfg, node, links, Start(sys, max),
      Positions(links, |links|, node, sys.sblk, true), Positions(links, |links|, node, sys.sblk, false));
  }

  /** Link numbers of a node's links are distinct. */
  predicate DistinctNums(links: seq<HtLink>)
  {
    forall i, j :: 0 <= i < j < |links| ==> links[i].num != links[j].num
  }

  /** Without a south-bridge link below `k` there is no south-bridge position below `k`. */
  lemma {:induction false} NoSbBelow(links: seq<HtLink>, k: nat, node: nat, sblk: nat)
    requires k <= |links|
    requires forall j :: 0 <= j < k ==> !IsSbLink(node, sblk, links[j])
    ensures Positions(links, k, node, sblk, true) == []
  {
    if k > 0 {
      NoSbBelow(links, k - 1, node, sblk);
    }
  }

  /** With distinct link numbers there is at most one south-bridge position. */
  lemma {:induction false} AtMostOneSbPosition(links: seq<HtLink>, k: nat, node: nat, sblk: nat)
    requires k <= |links| && DistinctNums(links)
    ensures |Positions(links, k, node, sblk, true)| <= 1
  {
    if k > 0 {
      if IsSbLink(node, sblk, links[k - 1]) {
        forall j | 0 <= j < k - 1
          ensures !IsSbLink(node, sblk, links[j])
        {
          assert links[j].num != links[k - 1].num;
        }
        NoSbBelow(links, k - 1, node, sblk);
      } else {
        AtMostOneSbPosition(links, k - 1, node, sblk);
      }
    }
  }

  /** Buses an order may consume: one for each link plus the buses its probe adds. */
  function OrderCost(links: seq<HtLink>, order: seq<nat>): nat
    requires forall k :: 0 <= k < |order| ==> order[k] < |links|
  {
    if |order| == 0 then 0
    else OrderCost(links, order[..|order| - 1]) + 1 + links[order[|order| - 1]].busCount
  }

  /** The invariant of a scan: every range lies in [max0, max], ranges do not overlap, and only the south-bridge chain may start at max0. */
  predicate RangesSound(st: ScanState, max0: nat, node: nat, sblk: nat, links: seq<HtLink>)
  {
    && (forall p :: p in st.chains ==> p < |links|)
    && (forall p :: p in st.chains ==>
          max0 <= st.chains[p].range.secondary <= st.chains[p].range.subordinate <= st.max)
    && (forall p :: p in st.chains && st.chains[p].range.secondary == max0 ==> IsSbLink(node, sblk, links[p]))
    && (forall p, q :: p in st.chains && q in st.chains && p != q ==>
          st.chains[p].range.subordinate < st.chains[q].range.secondary
          || st.chains[q].range.subordinate < st.chains[p].range.secondary)
  }

  /** Giving position `j` a range above every existing one (or the first range, from `max0`, to the south-bridge link) keeps the ranges sound. */
  lemma AddRangeSound(prev: ScanState, st: ScanState, j: nat, a: Assigned, max0: nat, node: nat, sblk: nat, links: seq<HtLink>)
    requires RangesSound(prev, max0, node, sblk, links)
    requires j < |links| && st.chains == prev.chains[j := a] && st.max == a.range.subordinate
    requires max0 <= prev.max && max0 <= a.range.secondary <= a.range.subordinate
    requires prev.max < a.range.secondary
      || (prev.chains == map[] && a.range.secondary == max0 && IsSbLink(node, sblk, links[j]))
    ensures RangesSound(st, max0, node, sblk, links)
  {
    var c := st.chains;
    forall p | p in c && p != j
      ensures p in prev.chains && c[p] == prev.chains[p]
      ensures c[p].range.subordinate <= prev.max < a.range.secondary
    {
    }
    forall p, q | p in c && q in c && p != q
      ensures c[p].range.subordinate < c[q].range.secondary || c[q].range.subordinate < c[p].range.secondary
    {
      if p != j && q != j {
        assert prev.chains[p] == c[p] && prev.chains[q] == c[q];
      }
    }
  }

  /** One scan step keeps the ranges sound, given that a south-bridge step only happens before any range exists. */
  lemma StepSound(cfg: Config, node: nat, links: seq<HtLink>, prev: ScanState, max0: nat, j: nat)
    requires prev.max < U32 && j < |links| && max0 <= prev.max
    requires prev.max + 1 + links[j].busCount < U32
    requires RangesSound(prev, max0, node, prev.sys.sblk, links)
    requires IsSbLink(node, prev.sys.sblk, links[j]) ==> prev.chains == map[] && prev.max == max0
    ensures var st := Step(cfg, node, links, prev, j);
      && prev.max <= st.max <= prev.max + 1 + links[j].busCount
      && RangesSound(st, max0, node, prev.sys.sblk, links)
  {
    var o := ScanChain(cfg, prev.sys, node, links[j], prev.max);
    var st := Step(cfg, node, links, prev, j);
    if o.taken.Some? {
      var a := o.taken.value;
      assert st.chains == prev.chains[j := a] && st.max == a.range.subordinate;
      if !IsSbLink(node, prev.sys.sblk, links[j]) {
        assert a.range.secondary == prev.max + 1;
      }
      AddRangeSound(prev, st, j, a, max0, node, prev.sys.sblk, links);
    } else {
      assert st.chains == prev.chains && st.max == prev.max;
    }
  }

  /**
   * Folding a scan order in which a south-bridge position can only come
   * first never wraps the bus counter (when the order's cost fits in 32 bits)
   * and keeps the ranges sound.
   */
  lemma {:induction false} FoldScanSound(cfg: Config, node: nat, links: seq<HtLink>, sys: Sysconf, max0: nat, order: seq<nat>)
    requires max0 < U32
    requires forall k :: 0 <= k < |order| ==> order[k] < |links|
    requires forall k :: 0 < k < |order| ==> !IsSbLink(node, sys.sblk, links[order[k]])
    requires max0 + OrderCost(links, order) < U32
    ensures var st := FoldScan(cfg, node, links, Start(sys, max0), order);
      && max0 <= st.max <= max0 + OrderCost(links, order)
      && RangesSound(st, max0, node, sys.sblk, links)
      && (|order| == 0 ==> st.chains == map[] && st.max == max0)
  {
    if |order| > 0 {
      var init := order[..|order| - 1];
      FoldScanSound(cfg, node, links, sys, max0, init);
      var prev := FoldScan(cfg, node, links, Start(sys, max0), init);
      StepSound(cfg, node, links, prev, max0, order[|order| - 1]);
    }
  }

  /**
   * The secondary/subordinate ranges a node's scan hands out lie between
   * the incoming and outgoing bus counters and never overlap; only the
   * south-bridge chain of node 0 reuses the incoming counter.
   */
  lemma ScanChainsSound(cfg: Config, sys: Sysconf, node: nat, links: seq<HtLink>, max0: nat)
    requires max0 < U32 && DistinctNums(links)
    requires forall k :: 0 <= k < |ScanOrder(links, node, sys.sblk)| ==> ScanOrder(links, node, sys.sblk)[k] < |links|
    requires max0 + OrderCost(links, ScanOrder(links, node, sys.sblk)) < U32
    ensures var st := FoldScan(cfg, node, links, Start(sys, max0), ScanOrder(links, node, sys.sblk));
      max0 <= st.max && RangesSound(st, max0, node, sys.sblk, links)
  {
    var order := ScanOrder(links, node, sys.sblk);
    AtMostOneSbPosition(links, |links|, node, sys.sblk);
    FoldScanSound(cfg, node, links, sys, max0, order);
  }
}

=== FILE: fam10_memory.dfy ===
/**
 * The AMD family 10h memory map: finding the memory hoist hole, undoing the
 * hoist, placing the PCI MMIO base below 4 GiB and splitting every node's
 * DRAM range around it into RAM resources.
 *
 * DRAM base, limit and hole registers are unsigned 32-bit words held as
 * naturals below `U32`; kilobyte quantities are naturals, wrapped explicitly
 * where the C arithmetic wraps.
 */
module Fam10Memory {
  import opened Common

  /**
   * One node's DRAM registers: the base and limit ("mask") words of the
   * address map, the hoist register at function 1 offset 0xf0, and the DCT
   * select registers.
   */
  datatype DramNode = DramNode(
    base: nat,
    mask: nat,
    hole: nat,
    selHiEn: bool,
    selBase: nat,
    selOffset: nat)

  /** Bit 0 of a register word: "enabled" for the base, "populated" for the limit, "hoisting" for the hole register. */
  predicate Bit0(x: nat)
  {
    x % 2 == 1
  }

  /** Bits 28:8 of a DRAM base or limit word, as the kilobyte address `(x & 0x1fffff00) << 9`. */
  function FieldK(x: nat): (r: nat)
    ensures r % 0x2_0000 == 0
    ensures r < 0x40_0000_0000
    ensures x < 0x2000_0000 ==> r == (x / 256) * 0x2_0000
  {
    ((x / 256) % 0x20_0000) * 0x2_0000
  }

  function BaseK(n: DramNode): nat
  {
    FieldK(n.base)
  }

  /** The first kilobyte above the node's DRAM: the limit field plus one 128 MiB step. */
  function LimitK(n: DramNode): nat
  {
    FieldK(Wrap(n.mask + 0x100, U32))
  }

  /** Bits 31:24 of the hoist register, as a kilobyte address: `(hole & 0xff000000) >> 10`. */
  function HoistStartK(hole: nat): (r: nat)
    ensures r % 0x4000 == 0
    ensures hole < U32 ==> r < FourGiBK
  {
    (hole / 0x100_0000) * 0x4000
  }

  /** The memory hole the RAM init left: its start in KB and its node, or node -1 for none. */
  datatype HoleInfo = HoleInfo(startk: nat, nodeId: int)

  // ---------------------------------------------------------------------
  // Hole detection
  // ---------------------------------------------------------------------

  /** A populated node whose hoist register is enabled. */
  predicate HoistAt(nodes: seq<DramNode>, k: nat)
    requires k < |nodes|
  {
    Bit0(nodes[k].mask) && Bit0(nodes[k].hole)
  }

  /** First node in [i, count) that hoists memory. */
  function HoistNode(nodes: seq<DramNode>, i: nat, count: nat): (r: Option<nat>)
    requires count <= |nodes|
    ensures r.Some? ==> i <= r.value < count && HoistAt(nodes, r.value)
    decreases count - i
  {
    if i >= count then None
    else if HoistAt(nodes, i) then Some(i)
    else HoistNode(nodes, i + 1, count)
  }

  /** The limit of the last enabled node below `k`, or 0 if there is none: where node `k` must start for the map to be contiguous. */
  function PrevLimit(nodes: seq<DramNode>, k: nat): nat
    requires k <= |nodes|
  {
    if k == 0 then 0
    else if Bit0(nodes[k - 1].base) then LimitK(nodes[k - 1])
    else PrevLimit(nodes, k - 1)
  }

  /** Node `k` is enabled below 4 GiB and does not start where the previous enabled node ended. */
  predicate GapAt(nodes: seq<DramNode>, k: nat)
    requires k < |nodes|
  {
    Bit0(nodes[k].base) && BaseK(nodes[k]) <= FourGiBK && BaseK(nodes[k]) != PrevLimit(nodes, k)
  }

  /** Node `k` is enabled and starts above 4 GiB, which ends the gap search. */
  predicate StopAt(nodes: seq<DramNode>, k: nat)
    requires k < |nodes|
  {
    Bit0(nodes[k].base) && BaseK(nodes[k]) > FourGiBK
  }

  /** No node below `k` is a gap or a stop. */
  predicate Clean(nodes: seq<DramNode>, k: nat)
    requires k <= |nodes|
  {
    forall j :: 0 <= j < k ==> !GapAt(nodes, j) && !StopAt(nodes, j)
  }

  /** The gap search from node `i`, with `limitPri` the limit of the last enabled node seen. */
  function GapNode(nodes: seq<DramNode>, i: nat, count: nat, limitPri: nat): (r: Option<(nat, nat)>)
    requires count <= |nodes|
    ensures r.Some? ==> i <= r.value.0 < count
    decreases count - i
  {
    if i >= count then None
    else if !Bit0(nodes[i].base) then GapNode(nodes, i + 1, count, limitPri)
    else if BaseK(nodes[i]) > FourGiBK then None
    else if limitPri != BaseK(nodes[i]) then Some((i, Wrap(limitPri, U32)))
    else GapNode(nodes, i + 1, count, LimitK(nodes[i]))
  }

  /**
   * get_hw_mem_hole_info: the first hoisting node, else the first gap below
   * 4 GiB; with neither, node -1 and the configured hole size.
   */
  function HwMemHoleInfo(nodes: seq<DramNode>, count: nat, holeSizeK: nat): (r: HoleInfo)
    requires count <= |nodes|
    ensures r.nodeId == -1 || 0 <= r.nodeId < count
    ensures r.nodeId == -1 ==> r.startk == holeSizeK
  {
    match HoistNode(nodes, 0, count)
    case Some(k) => HoleInfo(HoistStartK(nodes[k].hole), k)
    case None =>
      match GapNode(nodes, 0, count, 0)
      case Some(g) => HoleInfo(g.1, g.0)
      case None => HoleInfo(holeSizeK, -1)
  }

  lemma {:induction false} HoistNodeMeaning(nodes: seq<DramNode>, i: nat, count: nat)
    requires count <= |nodes|
    ensures HoistNode(nodes, i, count).None? <==> (forall k :: i <= k < count ==> !HoistAt(nodes, k))
    ensures HoistNode(nodes, i, count).Some? ==> (forall k :: i <= k < HoistNode(nodes, i, count).value ==> !HoistAt(nodes, k))
    decreases count - i
  {
    if i < count && !HoistAt(nodes, i) {
      HoistNodeMeaning(nodes, i + 1, count);
    }
  }

  /** A node that is neither a gap nor a stop extends the clean prefix. */
  lemma CleanStep(nodes: seq<DramNode>, i: nat)
    requires i < |nodes| && Clean(nodes, i) && !GapAt(nodes, i) && !StopAt(nodes, i)
    ensures Clean(nodes, i + 1)
  {
  }

  /** A stop ends every longer clean prefix. */
  lemma StopEndsClean(nodes: seq<DramNode>, i: nat, count: nat)
    requires i < count <= |nodes| && StopAt(nodes, i)
    ensures forall k :: i < k <= count ==> !Clean(nodes, k)
  {
  }

  lemma {:induction false} GapNodeMeaning(nodes: seq<DramNode>, i: nat, count: nat)
    requires i <= count <= |nodes|
    requires Clean(nodes, i)
    ensures GapNode(nodes, i, count, PrevLimit(nodes, i)).Some? ==>
      (var g := GapNode(nodes, i, count, PrevLimit(nodes, i)).value;
       Clean(nodes, g.0) && GapAt(nodes, g.0) && g.1 == Wrap(PrevLimit(nodes, g.0), U32))
    ensures GapNode(nodes, i, count, PrevLimit(nodes, i)).None? ==>
      (forall k :: i <= k < count && Clean(nodes, k) ==> !GapAt(nodes, k))
    decreases count - i
  {
    if i < count {
      var r := GapNode(nodes, i, count, PrevLimit(nodes, i));
      if !Bit0(nodes[i].base) || (BaseK(nodes[i]) <= FourGiBK && PrevLimit(nodes, i) == BaseK(nodes[i])) {
        assert !GapAt(nodes, i) && !StopAt(nodes, i);
        assert PrevLimit(nodes, i + 1) == (if Bit0(nodes[i].base) then LimitK(nodes[i]) else PrevLimit(nodes, i));
        assert r == GapNode(nodes, i + 1, count, PrevLimit(nodes, i + 1));
        CleanStep(nodes, i);
        GapNodeMeaning(nodes, i + 1, count);
      } else if BaseK(nodes[i]) > FourGiBK {
        assert r.None? && StopAt(nodes, i);
        StopEndsClean(nodes, i, count);
      } else {
        assert r == Some((i, Wrap(PrevLimit(nodes, i), U32)));
        assert GapAt(nodes, i);
      }
    }
  }

  /**
   * The hole is the first hoisting node when there is one; otherwise it is
   * the first gap before any node above 4 GiB, starting at the previous
   * node's limit; node -1 means there is neither.
   */
  lemma HwMemHoleInfoMeaning(nodes: seq<DramNode>, count: nat, holeSizeK: nat)
    requires count <= |nodes|
    ensures var r := HwMemHoleInfo(nodes, count, holeSizeK);
      (exists k :: 0 <= k < count && HoistAt(nodes, k)) ==>
        (0 <= r.nodeId < count && HoistAt(nodes, r.nodeId)
         && (forall j :: 0 <= j < r.nodeId ==> !HoistAt(nodes, j))
         && r.startk == HoistStartK(nodes[r.nodeId].hole))
    ensures var r := HwMemHoleInfo(nodes, count, holeSizeK);
      (forall k :: 0 <= k < count ==> !HoistAt(nodes, k)) ==>
        ((r.nodeId >= 0 ==> Clean(nodes, r.nodeId) && GapAt(nodes, r.nodeId)
                            && r.startk == Wrap(PrevLimit(nodes, r.nodeId), U32))
         && (r.nodeId == -1 ==> forall k :: 0 <= k < count && Clean(nodes, k) ==> !GapAt(nodes, k)))
  {
    HoistNodeMeaning(nodes, 0, count);
    GapNodeMeaning(nodes, 0, count);
  }

  // ---------------------------------------------------------------------
  // Undoing the hoist
  // ---------------------------------------------------------------------

  /** A node above the hole: a populated one moves down by `d` (in base/limit register units) and its DCT select base by `selD`. */
  function ShiftLater(n: DramNode, d: nat, selD: nat): DramNode
  {
    if !Bit0(n.mask) then n
    else n.(base := Wrap(n.base - d, U32),
            mask := Wrap(n.mask - d, U32),
            selBase := if n.selHiEn then Wrap(n.selBase - selD, U32) else n.selBase)
  }

  /** The node that holds the hole: drop the hoist and shorten the limit, or, without a hoist, move the whole node down. */
  function ShiftOwner(n: DramNode, d: nat, selD: nat, oneDct: bool): DramNode
  {
    if Bit0(n.hole) then
      n.(hole := 0,
         mask := Wrap(n.mask - d, U32),
         selBase := if n.selHiEn && (oneDct || n.selBase >= selD) then Wrap(n.selBase - selD, U32) else n.selBase,
         selOffset := if n.selHiEn then 0 else n.selOffset)
    else
      n.(base := Wrap(n.base - d, U32),
         mask := Wrap(n.mask - d, U32),
         selBase := if n.selHiEn then Wrap(n.selBase - selD, U32) else n.selBase)
  }

  /** The size of the hole in KB: 4 GiB minus its start, as a 32-bit unsigned. */
  function HoleSizeK(startk: nat): nat
  {
    Wrap(FourGiBK - startk, U32)
  }

  /**
   * disable_hoist_memory: every node below the hole's node is untouched,
   * every unpopulated node above it too, and the hole's node loses its
   * hoist.
   */
  function DisableHoistMemory(nodes: seq<DramNode>, startk: nat, nodeId: nat, oneDct: bool): (r: seq<DramNode>)
    requires nodeId < |nodes|
    ensures |r| == |nodes|
    ensures forall i :: 0 <= i < nodeId ==> r[i] == nodes[i]
    ensures forall i :: nodeId < i < |nodes| && !Bit0(nodes[i].mask) ==> r[i] == nodes[i]
    ensures !Bit0(r[nodeId].hole)
    ensures Bit0(nodes[nodeId].hole) ==> r[nodeId].base == nodes[nodeId].base
  {
    var d := HoleSizeK(startk) / 512;
    var selD := startk / 1024;
    seq(|nodes|, i requires 0 <= i < |nodes| =>
      if i < nodeId then nodes[i]
      else if i == nodeId then ShiftOwner(nodes[i], d, selD, oneDct)
      else ShiftLater(nodes[i], d, selD))
  }

  /** The KB a node contributes to the map: limit minus base when populated. */
  function NodeSizeK(n: DramNode): int
  {
    if Bit0(n.mask) then LimitK(n) - BaseK(n) else 0
  }

  function TotalSizeK(nodes: seq<DramNode>): int
  {
    if |nodes| == 0 then 0 else TotalSizeK(nodes[..|nodes| - 1]) + NodeSizeK(nodes[|nodes| - 1])
  }

  /** Register words the hoist removal can move down by `d` without wrapping or leaving bits 28:8. */
  predicate Movable(n: DramNode, d: nat)
  {
    d <= n.base < 0x2000_0000 && d <= n.mask && n.mask + 0x100 < 0x2000_0000
  }

  lemma ShiftDownField(x: nat, d: nat)
    requires d % 256 == 0 && d <= x < 0x2000_0000
    ensures FieldK(x - d) + d * 512 == FieldK(x)
    ensures Bit0(x - d) == Bit0(x)
  {
    var q := x / 256;
    var e := d / 256;
    assert x == q * 256 + x % 256;
    assert d == e * 256;
    assert x - d == (q - e) * 256 + x % 256;
    assert (x - d) / 256 == q - e;
    LowBitKept(x, d);
  }

  lemma LowBitKept(x: nat, d: nat)
    requires d % 256 == 0 && d <= x
    ensures Bit0(x - d) == Bit0(x)
  {
    var t := d / 2;
    assert d == 2 * t by {
      assert d == 256 * (d / 256);
    }
    EvenShift(x - d, t);
  }

  lemma EvenShift(a: int, t: int)
    ensures (a + 2 * t) % 2 == a % 2
  {
  }

  /** A movable populated node above the hole keeps its size and moves down by the hole size. */
  lemma ShiftLaterMoves(n: DramNode, d: nat, selD: nat)
    requires d % 256 == 0 && Movable(n, d) && Bit0(n.mask)
    ensures Bit0(ShiftLater(n, d, selD).mask)
    ensures Bit0(ShiftLater(n, d, selD).base) == Bit0(n.base)
    ensures BaseK(ShiftLater(n, d, selD)) + d * 512 == BaseK(n)
    ensures LimitK(ShiftLater(n, d, selD)) + d * 512 == LimitK(n)
    ensures NodeSizeK(ShiftLater(n, d, selD)) == NodeSizeK(n)
  {
    ShiftDownField(n.base, d);
    ShiftDownField(n.mask, d);
    ShiftDownField(n.mask + 0x100, d);
    assert n.mask - d + 0x100 == n.mask + 0x100 - d;
  }

  /** The hoisting owner keeps its base and loses the hole from its limit; a non-hoisting owner moves like a later node. */
  lemma ShiftOwnerMoves(n: DramNode, d: nat, selD: nat, oneDct: bool)
    requires d % 256 == 0 && Movable(n, d) && Bit0(n.mask)
    ensures Bit0(ShiftOwner(n, d, selD, oneDct).mask)
    ensures Bit0(n.hole) ==> BaseK(ShiftOwner(n, d, selD, oneDct)) == BaseK(n)
    ensures !Bit0(n.hole) ==> BaseK(ShiftOwner(n, d, selD, oneDct)) + d * 512 == BaseK(n)
    ensures LimitK(ShiftOwner(n, d, selD, oneDct)) + d * 512 == LimitK(n)
    ensures NodeSizeK(ShiftOwner(n, d, selD, oneDct)) + (if Bit0(n.hole) then d * 512 else 0) == NodeSizeK(n)
  {
    ShiftDownField(n.base, d);
    ShiftDownField(n.mask, d);
    ShiftDownField(n.mask + 0x100, d);
    assert n.mask - d + 0x100 == n.mask + 0x100 - d;
  }

  lemma {:induction false} TotalSizeOneChange(a: seq<DramNode>, b: seq<DramNode>, k: nat, c: int)
    requires |a| == |b| && k < |a|
    requires forall i :: 0 <= i < |a| && i != k ==> NodeSizeK(b[i]) == NodeSizeK(a[i])
    requires NodeSizeK(b[k]) + c == NodeSizeK(a[k])
    ensures TotalSizeK(b) + c == TotalSizeK(a)
    decreases |a|
  {
    var n := |a| - 1;
    if n == k {
      TotalSizeSame(a[..n], b[..n]);
    } else {
      TotalSizeOneChange(a[..n], b[..n], k, c);
    }
  }

  lemma {:induction false} TotalSizeSame(a: seq<DramNode>, b: seq<DramNode>)
    requires |a| == |b|
    requires forall i :: 0 <= i < |a| ==> NodeSizeK(b[i]) == NodeSizeK(a[i])
    ensures TotalSizeK(b) == TotalSizeK(a)
    decreases |a|
  {
    if |a| > 0 {
      TotalSizeSame(a[..|a| - 1], b[..|b| - 1]);
    }
  }

  /**
   * Undoing a hoist gives the hole back: when the hole is a whole number of
   * 128 MiB steps and no register wraps, the populated DRAM shrinks by
   * exactly the hole size if the owner hoisted, and every other node keeps
   * its size; without a hoist, the total is unchanged.
   */
  lemma DisableHoistConserves(nodes: seq<DramNode>, startk: nat, nodeId: nat, oneDct: bool)
    requires nodeId < |nodes|
    requires startk <= FourGiBK && (FourGiBK - startk) % 0x2_0000 == 0
    requires Bit0(nodes[nodeId].mask)
    requires forall i :: nodeId <= i < |nodes| && Bit0(nodes[i].mask) ==> Movable(nodes[i], HoleSizeK(startk) / 512)
    ensures TotalSizeK(DisableHoistMemory(nodes, startk, nodeId, oneDct))
            + (if Bit0(nodes[nodeId].hole) then HoleSizeK(startk) else 0)
            == TotalSizeK(nodes)
  {
    var r := DisableHoistMemory(nodes, startk, nodeId, oneDct);
    var d := HoleSizeK(startk) / 512;
    var selD := startk / 1024;
    assert HoleSizeK(startk) == FourGiBK - startk;
    assert d * 512 == HoleSizeK(startk);
    assert d % 256 == 0;
    forall i | 0 <= i < |nodes| && i != nodeId
      ensures NodeSizeK(r[i]) == NodeSizeK(nodes[i])
    {
      if i > nodeId && Bit0(nodes[i].mask) {
        ShiftLaterMoves(nodes[i], d, selD);
      }
    }
    ShiftOwnerMoves(nodes[nodeId], d, selD, oneDct);
    TotalSizeOneChange(nodes, r, nodeId, if Bit0(nodes[nodeId].hole) then HoleSizeK(startk) else 0);
  }

  /** Base and limit fields count in 128 MiB steps, so the populated DRAM is always a whole number of them. */
  lemma {:induction false} TotalSizeSteps(nodes: seq<DramNode>)
    ensures TotalSizeK(nodes) % 0x2_0000 == 0
  {
    if |nodes| > 0 {
      TotalSizeSteps(nodes[..|nodes| - 1]);
    }
  }

  /**
   * No change to the base and limit registers can move the populated DRAM
   * by a hole that is not a whole number of 128 MiB steps, such as one of
   * the 16 MiB steps the hoist register allows.
   */
  lemma SubStepHoleNotExact(before: seq<DramNode>, after: seq<DramNode>, holeK: nat)
    requires holeK % 0x2_0000 != 0
    ensures TotalSizeK(after) + holeK != TotalSizeK(before)
  {
    TotalSizeSteps(before);
    TotalSizeSteps(after);
    StepsDifference(TotalSizeK(before), TotalSizeK(after), holeK);
  }

  /** Two whole numbers of 128 MiB steps never differ by less than whole steps. */
  lemma StepsDifference(a: int, b: int, h: nat)
    requires a % 0x2_0000 == 0 && b % 0x2_0000 == 0 && h % 0x2_0000 != 0
    ensures b + h != a
  {
    var p := a / 0x2_0000;
    var q := b / 0x2_0000;
    assert a - b == (p - q) * 0x2_0000;
  }

  /**
   * With a 16 MiB hole, `hole_sizek >> 9` is 32 register units, below one
   * 128 MiB step: undoing the hoist borrows from the limit field, and the
   * owner loses a whole 128 MiB step.
   */
  lemma DisableHoistSubStepHole()
    ensures var nodes := [DramNode(1, 0x2001, 1, false, 0, 0)];
      TotalSizeK(DisableHoistMemory(nodes, FourGiBK - 0x4000, 0, false)) + 0x2_0000 == TotalSizeK(nodes)
  {
    var nodes := [DramNode(1, 0x2001, 1, false, 0, 0)];
    var r := DisableHoistMemory(nodes, FourGiBK - 0x4000, 0, false);
    assert r[0].mask == 0x1fe1;
    assert nodes[..0] == [] && r[..0] == [];
  }

  // ---------------------------------------------------------------------
  // The MMIO base
  // ---------------------------------------------------------------------

  /**
   * `pci_tolm >> 10` rounded down to a 64 MiB multiple: the largest such
   * multiple at or below it. The source first clears the low 6 bits and then
   * the low 16 bits; `MaskTwice` shows the first mask changes nothing.
   */
  function MmioRound(pciTolm: nat): (r: nat)
    ensures r % 0x1_0000 == 0
    ensures r <= pciTolm / 1024 < r + 0x1_0000
  {
    var k := pciTolm / 1024;
    (k / 0x1_0000) * 0x1_0000
  }

  /** `x & ~63 & ~0xffff` is `x & ~0xffff`. */
  lemma MaskTwice(x: bv32)
    ensures x & !63 & !0xffff == x & !0xffff
  {
  }

  /** mmio_basek: the rounded PCI top of low memory, lowered to the hole's start when a hole exists below it. */
  function MmioBaseK(pciTolm: nat, hole: HoleInfo): (r: nat)
    ensures r <= MmioRound(pciTolm)
    ensures hole.nodeId == -1 ==> r == MmioRound(pciTolm)
    ensures hole.nodeId != -1 ==> r <= hole.startk && (r == MmioRound(pciTolm) || r == hole.startk)
  {
    var k := MmioRound(pciTolm);
    if hole.nodeId != -1 && k > hole.startk then hole.startk else k
  }

  // ---------------------------------------------------------------------
  // Splitting each node's RAM
  // ---------------------------------------------------------------------

  /** A RAM resource: index `idx | node`, start and size in KB. */
  datatype RamRange = RamRange(idx: nat, node: nat, basek: nat, sizek: nat)

  /** The ranges produced so far, the next resource index and high_tables_base (0 while unset). */
  datatype Split = Split(ranges: seq<RamRange>, idx: nat, htb: nat)

  /** A piece of one node's DRAM handed out as RAM: start and size in KB. */
  datatype Piece = Piece(basek: nat, sizek: nat)

  /** How much the high part shrinks when a node below 4 GiB is split: as the source computes it, or by the part actually cut. */
  datatype CutRule = FromMmio | FromBase

  const LegacyLow: nat := 8 * 64 + 8 * 16
  const LegacyHigh: nat := 8 * 64 + 16 * 16

  /** The legacy VGA window is cut out of a node that starts below it and is larger than its top. */
  predicate HasLegacy(basek: nat, limitk: nat)
  {
    basek < LegacyLow && Wrap(limitk - basek, U64) > LegacyHigh
  }

  /** The part below the MMIO base, handed out when the node straddles it. */
  function PreSizeK(basek1: nat, limitk: nat, mmio: nat): nat
  {
    if basek1 < FourGiBK && limitk > mmio && basek1 <= mmio then Wrap(mmio - basek1, U32) else 0
  }

  /** The pieces of a node from `basek1` (after the legacy cut) with size `sizek1`: the split around [mmio, 4 GiB). */
  function Tail(basek1: nat, sizek1: nat, limitk: nat, mmio: nat, rule: CutRule): seq<Piece>
  {
    if basek1 < FourGiBK && limitk > mmio then
      var pre := PreSizeK(basek1, limitk, mmio);
      var sizek2 := Wrap(sizek1 - pre, U64);
      var basek2 := if basek1 <= mmio then mmio else basek1;
      var cut := FourGiBK - (if rule == FromMmio then mmio else basek2);
      (if pre > 0 then [Piece(basek1, pre)] else [])
      + (if Wrap(basek2 + sizek2, U64) <= FourGiBK then [Piece(basek2, 0)]
         else [Piece(FourGiBK, Wrap(sizek2 - cut, U64))])
    else [Piece(basek1, sizek1)]
  }

  /** The pieces one populated node contributes, in the order the source hands them out. */
  function Pieces(basek: nat, limitk: nat, mmio: nat, rule: CutRule): seq<Piece>
  {
    if HasLegacy(basek, limitk) then
      [Piece(basek, LegacyLow - basek)] + Tail(LegacyHigh, Wrap(limitk - LegacyHigh, U64), limitk, mmio, rule)
    else Tail(basek, Wrap(limitk - basek, U64), limitk, mmio, rule)
  }

  /** high_tables_base after the node: set once, below the MMIO base if a part below it was handed out, else below the node's limit. */
  function NodeHtb(htb: nat, basek: nat, limitk: nat, mmio: nat, hms: nat): nat
  {
    var basek1 := if HasLegacy(basek, limitk) then LegacyHigh else basek;
    var h1 := if PreSizeK(basek1, limitk, mmio) > 0 && htb == 0 then Wrap(Wrap(mmio * 1024, U32) - hms, U32) else htb;
    if h1 == 0 then Wrap(limitk * 1024 - hms, U64) else h1
  }

  /**
   * Resources `idx | node`, `idx + 0x10 | node`, ... for the pieces, each
   * base and size cut to the 32-bit KiB count the resource helper takes.
   */
  function Number(p: seq<Piece>, idx: nat, node: nat): (r: seq<RamRange>)
    ensures |r| == |p|
    ensures forall j :: 0 <= j < |p| ==>
      r[j] == RamRange(idx + 0x10 * j, node, ResourceK(p[j].basek), ResourceK(p[j].sizek))
  {
    seq(|p|, j requires 0 <= j < |p| => RamRange(idx + 0x10 * j, node, ResourceK(p[j].basek), ResourceK(p[j].sizek)))
  }

  /** One populated node's share of amdfam10_domain_set_resources, under the given cut rule. */
  function CarveNode(s: Split, node: nat, basek: nat, limitk: nat, mmio: nat, hms: nat, rule: CutRule): Split
  {
    var p := Pieces(basek, limitk, mmio, rule);
    Split(s.ranges + Number(p, s.idx, node), s.idx + 0x10 * |p|, NodeHtb(s.htb, basek, limitk, mmio, hms))
  }

  /** The node split as the source writes it. */
  function NodeRamAsWritten(s: Split, node: nat, basek: nat, limitk: nat, mmio: nat, hms: nat): Split
  {
    CarveNode(s, node, basek, limitk, mmio, hms, FromMmio)
  }

  /** The node split with the high part shrunk by what was actually cut below 4 GiB. */
  function NodeRam(s: Split, node: nat, basek: nat, limitk: nat, mmio: nat, hms: nat): Split
  {
    CarveNode(s, node, basek, limitk, mmio, hms, FromBase)
  }

  /**
   * `r` keeps the resources of `s` and appends resources of `node` numbered
   * on from the next index; a high_tables_base once set stays.
   */
  predicate Appends(s: Split, r: Split, node: nat)
  {
    |s.ranges| <= |r.ranges|
    && r.ranges[..|s.ranges|] == s.ranges
    && r.idx == s.idx + 0x10 * (|r.ranges| - |s.ranges|)
    && (forall j :: |s.ranges| <= j < |r.ranges| ==>
          r.ranges[j].node == node && r.ranges[j].idx == s.idx + 0x10 * (j - |s.ranges|))
    && (s.htb != 0 ==> r.htb == s.htb)
  }

  /** A populated node adds one to three resources after the existing ones. */
  lemma NodeRamShape(s: Split, node: nat, basek: nat, limitk: nat, mmio: nat, hms: nat)
    ensures var r := NodeRam(s, node, basek, limitk, mmio, hms);
      1 <= |r.ranges| - |s.ranges| <= 3 && Appends(s, r, node)
  {
    var p := Pieces(basek, limitk, mmio, FromBase);
    assert NodeRam(s, node, basek, limitk, mmio, hms).ranges == s.ranges + Number(p, s.idx, node);
  }

  /** `[b, b + n)` misses `[lo, hi)`. */
  predicate Avoids(p: Piece, lo: nat, hi: nat)
  {
    p.sizek == 0 || p.basek + p.sizek <= lo || hi <= p.basek
  }

  /** `[b, b + n)` lies inside `[lo, hi)` or is empty. */
  predicate Within(p: Piece, lo: nat, hi: nat)
  {
    p.sizek == 0 || (lo <= p.basek && p.basek + p.sizek <= hi)
  }

  function Min(a: int, b: int): int { if a <= b then a else b }
  function Max(a: int, b: int): int { if a >= b then a else b }

  /** The length of the intersection of `[a, b)` and `[c, d)`. */
  function Overlap(a: int, b: int, c: int, d: int): (r: nat)
    ensures r <= Max(0, b - a)
  {
    Max(0, Min(b, d) - Max(a, c))
  }

  function PieceSum(p: seq<Piece>): nat
  {
    if |p| == 0 then 0 else PieceSum(p[..|p| - 1]) + p[|p| - 1].sizek
  }

  lemma {:induction false} PieceSumAppend(a: seq<Piece>, b: seq<Piece>)
    ensures PieceSum(a + b) == PieceSum(a) + PieceSum(b)
    decreases |b|
  {
    if |b| > 0 {
      assert (a + b)[..|a + b| - 1] == a + b[..|b| - 1];
      assert (a + b)[|a + b| - 1] == b[|b| - 1];
      PieceSumAppend(a, b[..|b| - 1]);
    } else {
      assert a + b == a;
    }
  }

  function SizeSum(rs: seq<RamRange>): nat
  {
    if |rs| == 0 then 0 else SizeSum(rs[..|rs| - 1]) + rs[|rs| - 1].sizek
  }

  lemma {:induction false} SizeSumAppend(a: seq<RamRange>, b: seq<RamRange>)
    ensures SizeSum(a + b) == SizeSum(a) + SizeSum(b)
    decreases |b|
  {
    if |b| > 0 {
      assert (a + b)[..|a + b| - 1] == a + b[..|b| - 1];
      assert (a + b)[|a + b| - 1] == b[|b| - 1];
      SizeSumAppend(a, b[..|b| - 1]);
    } else {
      assert a + b == a;
    }
  }

  lemma {:induction false} SizeSumNumber(p: seq<Piece>, idx: nat, node: nat)
    requires forall j :: 0 <= j < |p| ==> p[j].sizek < U32
    ensures SizeSum(Number(p, idx, node)) == PieceSum(p)
    decreases |p|
  {
    if |p| > 0 {
      var q := p[..|p| - 1];
      assert Number(p, idx, node)[..|p| - 1] == Number(q, idx, node);
      SizeSumNumber(q, idx, node);
    }
  }

  /** The conditions the decoded registers guarantee: 128 MiB granularity, a limit not below the base, an MMIO base between the legacy window and 4 GiB. */
  predicate Decoded(basek: nat, limitk: nat, mmio: nat)
  {
    basek % 0x2_0000 == 0 && limitk % 0x2_0000 == 0 && basek <= limitk < 0x40_0000_0000
    && LegacyHigh <= mmio <= FourGiBK
  }

  /** The split around the MMIO window keeps out of it, stays inside the node and loses exactly the overlap. */
  lemma TailSound(basek1: nat, limitk: nat, mmio: nat)
    requires basek1 <= limitk < 0x40_0000_0000 && mmio <= FourGiBK
    ensures forall p :: p in Tail(basek1, limitk - basek1, limitk, mmio, FromBase) ==>
      Avoids(p, mmio, FourGiBK) && Within(p, basek1, limitk)
    ensures PieceSum(Tail(basek1, limitk - basek1, limitk, mmio, FromBase))
            == (limitk - basek1) - Overlap(basek1, limitk, mmio, FourGiBK)
  {
    if basek1 < FourGiBK && limitk > mmio {
      TailCut(basek1, limitk, mmio);
    } else {
      assert Tail(basek1, limitk - basek1, limitk, mmio, FromBase) == [Piece(basek1, limitk - basek1)];
    }
  }

  /** The part of [basek1, ...) below the MMIO base, if any. */
  function BelowMmio(basek1: nat, mmio: nat): seq<Piece>
  {
    if basek1 < mmio then [Piece(basek1, mmio - basek1)] else []
  }

  /** The part of a node ending at `limitk` above 4 GiB, or an empty piece at `from`. */
  function Above4G(from: nat, limitk: nat): seq<Piece>
  {
    if limitk <= FourGiBK then [Piece(from, 0)] else [Piece(FourGiBK, limitk - FourGiBK)]
  }

  lemma TailCutShape(basek1: nat, limitk: nat, mmio: nat)
    requires basek1 <= limitk < 0x40_0000_0000 && mmio <= FourGiBK
    requires basek1 < FourGiBK && limitk > mmio
    ensures Tail(basek1, limitk - basek1, limitk, mmio, FromBase)
            == BelowMmio(basek1, mmio) + Above4G(if basek1 <= mmio then mmio else basek1, limitk)
  {
    var pre := PreSizeK(basek1, limitk, mmio);
    var basek2 := if basek1 <= mmio then mmio else basek1;
    assert pre == basek2 - basek1;
    assert Wrap(limitk - basek1 - pre, U64) == limitk - basek2;
    assert Wrap(basek2 + (limitk - basek2), U64) == limitk;
  }

  /** A node that reaches into the MMIO window: what lies below it, then what lies above 4 GiB. */
  lemma TailCut(basek1: nat, limitk: nat, mmio: nat)
    requires basek1 <= limitk < 0x40_0000_0000 && mmio <= FourGiBK
    requires basek1 < FourGiBK && limitk > mmio
    ensures forall p :: p in Tail(basek1, limitk - basek1, limitk, mmio, FromBase) ==>
      Avoids(p, mmio, FourGiBK) && Within(p, basek1, limitk)
    ensures PieceSum(Tail(basek1, limitk - basek1, limitk, mmio, FromBase))
            == (limitk - basek1) - Overlap(basek1, limitk, mmio, FourGiBK)
  {
    TailCutShape(basek1, limitk, mmio);
    var head := BelowMmio(basek1, mmio);
    var last := Above4G(if basek1 <= mmio then mmio else basek1, limitk);
    PieceSumAppend(head, last);
    assert PieceSum(head) == (if basek1 < mmio then mmio - basek1 else 0);
    assert PieceSum(last) == (if limitk <= FourGiBK then 0 else limitk - FourGiBK);
  }

  /**
   * The pieces of one node avoid the legacy VGA window [640K, 768K) and the
   * MMIO window [mmio, 4 GiB), lie inside the node, and add up to the node's
   * size minus exactly what those two windows take from it.
   */
  lemma PiecesSound(basek: nat, limitk: nat, mmio: nat)
    requires Decoded(basek, limitk, mmio)
    ensures forall p :: p in Pieces(basek, limitk, mmio, FromBase) ==>
      Avoids(p, LegacyLow, LegacyHigh) && Avoids(p, mmio, FourGiBK) && Within(p, basek, limitk)
    ensures PieceSum(Pieces(basek, limitk, mmio, FromBase))
            == (limitk - basek) - Overlap(basek, limitk, LegacyLow, LegacyHigh) - Overlap(basek, limitk, mmio, FourGiBK)
  {
    if HasLegacy(basek, limitk) {
      PiecesLegacy(basek, limitk, mmio);
    } else {
      PiecesPlain(basek, limitk, mmio);
    }
  }

  /** A node with the legacy cut starts at 0 and its pieces are [0, 640K) followed by the split of the rest from 768K. */
  lemma LegacyShape(basek: nat, limitk: nat, mmio: nat)
    requires Decoded(basek, limitk, mmio) && HasLegacy(basek, limitk)
    ensures basek == 0 && limitk >= 0x2_0000
    ensures Pieces(basek, limitk, mmio, FromBase)
            == [Piece(0, LegacyLow)] + Tail(LegacyHigh, limitk - LegacyHigh, limitk, mmio, FromBase)
  {
    Granule(basek);
    Granule(limitk);
    assert basek == 0;
    assert Wrap(limitk - LegacyHigh, U64) == limitk - LegacyHigh;
  }

  lemma PiecesLegacy(basek: nat, limitk: nat, mmio: nat)
    requires Decoded(basek, limitk, mmio) && HasLegacy(basek, limitk)
    ensures forall p :: p in Pieces(basek, limitk, mmio, FromBase) ==>
      Avoids(p, LegacyLow, LegacyHigh) && Avoids(p, mmio, FourGiBK) && Within(p, basek, limitk)
    ensures PieceSum(Pieces(basek, limitk, mmio, FromBase))
            == (limitk - basek) - Overlap(basek, limitk, LegacyLow, LegacyHigh) - Overlap(basek, limitk, mmio, FourGiBK)
  {
    LegacyShape(basek, limitk, mmio);
    PiecesLegacyClear(limitk, mmio);
    PiecesLegacySum(limitk, mmio);
  }

  lemma PiecesLegacyClear(limitk: nat, mmio: nat)
    requires Decoded(0, limitk, mmio) && limitk >= 0x2_0000
    ensures forall p :: p in [Piece(0, LegacyLow)] + Tail(LegacyHigh, limitk - LegacyHigh, limitk, mmio, FromBase) ==>
      Avoids(p, LegacyLow, LegacyHigh) && Avoids(p, mmio, FourGiBK) && Within(p, 0, limitk)
  {
    var t := Tail(LegacyHigh, limitk - LegacyHigh, limitk, mmio, FromBase);
    TailSound(LegacyHigh, limitk, mmio);
    forall p | p in [Piece(0, LegacyLow)] + t
      ensures Avoids(p, LegacyLow, LegacyHigh) && Avoids(p, mmio, FourGiBK) && Within(p, 0, limitk)
    {
      if p in t {
        assert Avoids(p, mmio, FourGiBK) && Within(p, LegacyHigh, limitk);
      } else {
        assert p == Piece(0, LegacyLow);
      }
    }
  }

  lemma PiecesLegacySum(limitk: nat, mmio: nat)
    requires Decoded(0, limitk, mmio) && limitk >= 0x2_0000
    ensures PieceSum([Piece(0, LegacyLow)] + Tail(LegacyHigh, limitk - LegacyHigh, limitk, mmio, FromBase))
            == limitk - Overlap(0, limitk, LegacyLow, LegacyHigh) - Overlap(0, limitk, mmio, FourGiBK)
  {
    var head := [Piece(0, LegacyLow)];
    var t := Tail(LegacyHigh, limitk - LegacyHigh, limitk, mmio, FromBase);
    TailSound(LegacyHigh, limitk, mmio);
    PieceSumAppend(head, t);
    assert PieceSum(head) == LegacyLow;
    assert Overlap(0, limitk, LegacyLow, LegacyHigh) == LegacyHigh - LegacyLow;
    assert Overlap(0, limitk, mmio, FourGiBK) == Overlap(LegacyHigh, limitk, mmio, FourGiBK);
  }

  lemma PiecesPlain(basek: nat, limitk: nat, mmio: nat)
    requires Decoded(basek, limitk, mmio) && !HasLegacy(basek, limitk)
    ensures forall p :: p in Pieces(basek, limitk, mmio, FromBase) ==>
      Avoids(p, LegacyLow, LegacyHigh) && Avoids(p, mmio, FourGiBK) && Within(p, basek, limitk)
    ensures PieceSum(Pieces(basek, limitk, mmio, FromBase))
            == (limitk - basek) - Overlap(basek, limitk, LegacyLow, LegacyHigh) - Overlap(basek, limitk, mmio, FourGiBK)
  {
    PlainShape(basek, limitk, mmio);
    var t := Tail(basek, limitk - basek, limitk, mmio, FromBase);
    TailSound(basek, limitk, mmio);
    forall p | p in t
      ensures Avoids(p, LegacyLow, LegacyHigh)
    {
      WithinAboveLegacy(p, basek, limitk);
    }
  }

  /** Without the legacy cut a node is empty at 0 or starts above the legacy window, and its pieces are the split alone. */
  lemma PlainShape(basek: nat, limitk: nat, mmio: nat)
    requires Decoded(basek, limitk, mmio) && !HasLegacy(basek, limitk)
    ensures (basek == 0 && limitk == 0) || basek >= LegacyHigh
    ensures Overlap(basek, limitk, LegacyLow, LegacyHigh) == 0
    ensures Pieces(basek, limitk, mmio, FromBase) == Tail(basek, limitk - basek, limitk, mmio, FromBase)
  {
    PlainBounds(basek, limitk, mmio);
    assert Wrap(limitk - basek, U64) == limitk - basek;
  }

  lemma PlainBounds(basek: nat, limitk: nat, mmio: nat)
    requires Decoded(basek, limitk, mmio) && !HasLegacy(basek, limitk)
    ensures (basek == 0 && limitk == 0) || basek >= LegacyHigh
    ensures Overlap(basek, limitk, LegacyLow, LegacyHigh) == 0
  {
    Granule(basek);
    Granule(limitk);
    assert Wrap(limitk - basek, U64) == limitk - basek;
  }

  lemma WithinAboveLegacy(p: Piece, basek: nat, limitk: nat)
    requires Within(p, basek, limitk)
    requires (basek == 0 && limitk == 0) || basek >= LegacyHigh
    ensures Avoids(p, LegacyLow, LegacyHigh)
  {
  }

  /** A multiple of 128 MiB (in KB) is 0 or at least 128 MiB. */
  lemma Granule(x: nat)
    requires x % 0x2_0000 == 0
    ensures x == 0 || x >= 0x2_0000
  {
    var q := x / 0x2_0000;
    assert x == q * 0x2_0000;
  }

  /** A RAM resource that keeps out of the legacy window and of [mmio, 4 GiB). */
  predicate RangeClear(r: RamRange, mmio: nat)
  {
    Avoids(Piece(r.basek, r.sizek), LegacyLow, LegacyHigh) && Avoids(Piece(r.basek, r.sizek), mmio, FourGiBK)
  }

  predicate Clear(rs: seq<RamRange>, mmio: nat)
  {
    forall r :: r in rs ==> RangeClear(r, mmio)
  }

  /**
   * For a node that ends below 4 TiB, so that every KiB count fits the
   * resource helper's 32-bit argument, the resources it adds avoid the
   * legacy window and the MMIO window, lie inside the node, and add up to
   * the node's size minus exactly what the two windows take from it.
   */
  lemma NodeRamSound(idx: nat, node: nat, basek: nat, limitk: nat, mmio: nat)
    requires Decoded(basek, limitk, mmio) && limitk < U32
    ensures var n := Number(Pieces(basek, limitk, mmio, FromBase), idx, node);
      Clear(n, mmio) && forall x :: x in n ==> Within(Piece(x.basek, x.sizek), basek, limitk)
    ensures SizeSum(Number(Pieces(basek, limitk, mmio, FromBase), idx, node))
            == (limitk - basek) - Overlap(basek, limitk, LegacyLow, LegacyHigh) - Overlap(basek, limitk, mmio, FourGiBK)
  {
    var p := Pieces(basek, limitk, mmio, FromBase);
    var n := Number(p, idx, node);
    PiecesSound(basek, limitk, mmio);
    forall j | 0 <= j < |p|
      ensures p[j].sizek < U32
    {
      assert p[j] in p;
    }
    forall x | x in n
      ensures x.sizek == 0 || Piece(x.basek, x.sizek) in p
    {
      var j :| 0 <= j < |n| && n[j] == x;
      assert p[j] in p;
      if p[j].sizek > 0 {
        assert Piece(x.basek, x.sizek) == p[j];
      }
    }
    SizeSumNumber(p, idx, node);
  }

  /** The source's cut agrees with the corrected one whenever the node, after the legacy cut, starts at or below the MMIO base. */
  lemma NodeRamAgrees(s: Split, node: nat, basek: nat, limitk: nat, mmio: nat, hms: nat)
    requires basek <= mmio && LegacyHigh <= mmio
    ensures NodeRamAsWritten(s, node, basek, limitk, mmio, hms) == NodeRam(s, node, basek, limitk, mmio, hms)
  {
    assert Pieces(basek, limitk, mmio, FromMmio) == Pieces(basek, limitk, mmio, FromBase);
  }

  /**
   * A node that starts between the MMIO base and 4 GiB and ends above 4 GiB:
   * with the MMIO base at 3 GiB and the node at [3.5 GiB, 4.25 GiB), the
   * source subtracts 1 GiB from a 0.75 GiB size and the 64-bit size wraps;
   * cut to the 32-bit argument, 4 TiB less 0.25 GiB is reported where the
   * 0.25 GiB of the node above 4 GiB is meant.
   */
  lemma NodeRamAsWrittenWraps()
    ensures var w := NodeRamAsWritten(Split([], 0x10, 0), 1, 3670016, 4456448, 3145728, 0);
      |w.ranges| == 1 && w.ranges[0] == RamRange(0x10, 1, FourGiBK, U32 - 262144)
    ensures var c := NodeRam(Split([], 0x10, 0), 1, 3670016, 4456448, 3145728, 0);
      |c.ranges| == 1 && c.ranges[0] == RamRange(0x10, 1, FourGiBK, 262144)
  {
    assert Pieces(3670016, 4456448, 3145728, FromMmio) == [Piece(FourGiBK, U64 - 262144)];
    assert Pieces(3670016, 4456448, 3145728, FromBase) == [Piece(FourGiBK, 262144)];
  }

  /**
   * A node at [4 TiB, 4 TiB + 128 MiB): its KiB base does not fit the
   * resource helper's 32-bit argument, so the resource lands at 0 and covers
   * the legacy window.
   */
  lemma NodeRamTruncatesAbove4TiB()
    ensures var c := NodeRam(Split([], 0x10, 0), 0, U32, U32 + 0x2_0000, FourGiBK, 0);
      |c.ranges| == 1 && c.ranges[0] == RamRange(0x10, 0, 0, 0x2_0000) && !RangeClear(c.ranges[0], FourGiBK)
  {
    assert Pieces(U32, U32 + 0x2_0000, FourGiBK, FromBase) == [Piece(U32, 0x2_0000)];
  }

  // ---------------------------------------------------------------------
  // The whole domain
  // ---------------------------------------------------------------------

  /** A node's DRAM as the node loop reads it: populated (limit bit 0), base and limit in KB. */
  datatype Window = Window(populated: bool, basek: nat, limitk: nat)

  function WindowOf(n: DramNode): Window
  {
    Window(Bit0(n.mask), BaseK(n), LimitK(n))
  }

  /** The windows of all nodes, in node order. */
  function Windows(nodes: seq<DramNode>): (ws: seq<Window>)
    ensures |ws| == |nodes|
    ensures forall i :: 0 <= i < |nodes| ==> ws[i] == WindowOf(nodes[i])
  {
    seq(|nodes|, i requires 0 <= i < |nodes| => WindowOf(nodes[i]))
  }

  /** A populated window whose limit is not below its base: 128 MiB granules below 2^38 KB. */
  predicate WindowOk(w: Window)
  {
    w.basek % 0x2_0000 == 0 && w.limitk % 0x2_0000 == 0 && w.basek <= w.limitk < 0x40_0000_0000
  }

  /** Decoding a node gives a well-formed window exactly when its limit is not below its base. */
  lemma WindowOfOk(n: DramNode)
    ensures WindowOk(WindowOf(n)) <==> BaseK(n) <= LimitK(n)
  {
  }

  /** The loop over the first `k` windows, applying `step` to each populated one in turn. */
  function Loop(step: (Split, nat, Window) -> Split, ws: seq<Window>, k: nat, init: Split): Split
    requires k <= |ws|
  {
    if k == 0 then init
    else
      var prev := Loop(step, ws, k - 1, init);
      if ws[k - 1].populated then step(prev, k - 1, ws[k - 1]) else prev
  }

  /** What the node loop of amdfam10_domain_set_resources does with one populated node. */
  function NodeStep(mmio: nat, hms: nat): (Split, nat, Window) -> Split
  {
    (s: Split, i: nat, w: Window) => NodeRam(s, i, w.basek, w.limitk, mmio, hms)
  }

  /** The node loop over the first `k` windows, starting at index 0x10 with high_tables_base `htb0`. */
  function DomainRam(ws: seq<Window>, k: nat, mmio: nat, hms: nat, htb0: nat): Split
    requires k <= |ws|
  {
    Loop(NodeStep(mmio, hms), ws, k, Split([], 0x10, htb0))
  }

  /** A loop whose every step appends numbered resources of its node numbers them all consecutively from the start index. */
  lemma {:induction false} LoopIndices(step: (Split, nat, Window) -> Split, ws: seq<Window>, k: nat, init: Split)
    requires k <= |ws|
    requires init.ranges == [] && init.idx == 0x10
    requires forall s: Split, i: nat, w: Window :: Appends(s, step(s, i, w), i)
    ensures var r := Loop(step, ws, k, init);
      r.idx == 0x10 + 0x10 * |r.ranges|
      && (init.htb != 0 ==> r.htb == init.htb)
      && forall j :: 0 <= j < |r.ranges| ==>
        r.ranges[j].idx == 0x10 + 0x10 * j && r.ranges[j].node < k && ws[r.ranges[j].node].populated
  {
    if k > 0 {
      LoopIndices(step, ws, k - 1, init);
      var prev := Loop(step, ws, k - 1, init);
      if ws[k - 1].populated {
        var r := step(prev, k - 1, ws[k - 1]);
        assert Loop(step, ws, k, init) == r;
        assert Appends(prev, r, k - 1);
        forall j | 0 <= j < |r.ranges|
          ensures r.ranges[j].idx == 0x10 + 0x10 * j && r.ranges[j].node < k && ws[r.ranges[j].node].populated
        {
          if j < |prev.ranges| {
            assert r.ranges[j] == r.ranges[..|prev.ranges|][j];
          }
        }
      }
    }
  }

  /**
   * Resources are numbered 0x10, 0x20, ... in order, each tagged with a
   * populated node below `k`, so no two share an index; high_tables_base,
   * once set, is not changed.
   */
  lemma DomainRamIndices(ws: seq<Window>, k: nat, mmio: nat, hms: nat, htb0: nat)
    requires k <= |ws|
    ensures var r := DomainRam(ws, k, mmio, hms, htb0);
      r.idx == 0x10 + 0x10 * |r.ranges|
      && (htb0 != 0 ==> r.htb == htb0)
      && forall j :: 0 <= j < |r.ranges| ==>
        r.ranges[j].idx == 0x10 + 0x10 * j && r.ranges[j].node < k && ws[r.ranges[j].node].populated
  {
    var step := NodeStep(mmio, hms);
    forall s: Split, i: nat, w: Window
      ensures Appends(s, step(s, i, w), i)
    {
      NodeRamShape(s, i, w.basek, w.limitk, mmio, hms);
    }
    LoopIndices(step, ws, k, Split([], 0x10, htb0));
  }

  /** What a populated node contributes: its size less the legacy and MMIO windows. */
  function NodeRamK(w: Window, mmio: nat): int
  {
    if w.populated
    then (w.limitk - w.basek) - Overlap(w.basek, w.limitk, LegacyLow, LegacyHigh) - Overlap(w.basek, w.limitk, mmio, FourGiBK)
    else 0
  }

  function DomainRamK(ws: seq<Window>, k: nat, mmio: nat): int
    requires k <= |ws|
  {
    if k == 0 then 0 else DomainRamK(ws, k - 1, mmio) + NodeRamK(ws[k - 1], mmio)
  }

  /** Every populated window below `k` is well formed. */
  predicate WindowsOk(ws: seq<Window>, k: nat)
    requires k <= |ws|
  {
    forall i :: 0 <= i < k && ws[i].populated ==> Reportable(ws[i])
  }

  /** A well-formed window that ends below 4 TiB, so its KiB counts fit the resource helper. */
  predicate Reportable(w: Window)
  {
    WindowOk(w) && w.limitk < U32
  }

  /** One populated node keeps every resource clear of both windows. */
  lemma NodeRamClear(prev: Split, node: nat, w: Window, mmio: nat, hms: nat)
    requires LegacyHigh <= mmio <= FourGiBK
    requires w.populated && Reportable(w)
    requires Clear(prev.ranges, mmio)
    ensures Clear(NodeRam(prev, node, w.basek, w.limitk, mmio, hms).ranges, mmio)
  {
    var n := Number(Pieces(w.basek, w.limitk, mmio, FromBase), prev.idx, node);
    assert NodeRam(prev, node, w.basek, w.limitk, mmio, hms).ranges == prev.ranges + n;
    NodeRamSound(prev.idx, node, w.basek, w.limitk, mmio);
  }

  /** One populated node adds its share to the total. */
  lemma NodeRamSum(prev: Split, node: nat, w: Window, mmio: nat, hms: nat)
    requires LegacyHigh <= mmio <= FourGiBK
    requires w.populated && Reportable(w)
    ensures SizeSum(NodeRam(prev, node, w.basek, w.limitk, mmio, hms).ranges) == SizeSum(prev.ranges) + NodeRamK(w, mmio)
  {
    var n := Number(Pieces(w.basek, w.limitk, mmio, FromBase), prev.idx, node);
    assert NodeRam(prev, node, w.basek, w.limitk, mmio, hms).ranges == prev.ranges + n;
    NodeRamSound(prev.idx, node, w.basek, w.limitk, mmio);
    SizeSumAppend(prev.ranges, n);
  }

  /** A loop whose every step on a well-formed window keeps the ranges clear keeps them clear throughout. */
  lemma {:induction false} LoopClear(step: (Split, nat, Window) -> Split, ws: seq<Window>, k: nat, init: Split, mmio: nat)
    requires k <= |ws|
    requires WindowsOk(ws, k) && Clear(init.ranges, mmio)
    requires forall s: Split, i: nat, w: Window :: w.populated && Reportable(w) && Clear(s.ranges, mmio) ==> Clear(step(s, i, w).ranges, mmio)
    ensures Clear(Loop(step, ws, k, init).ranges, mmio)
  {
    if k > 0 {
      assert WindowsOk(ws, k - 1);
      LoopClear(step, ws, k - 1, init, mmio);
    }
  }

  /** A loop whose every step on a well-formed window adds that window's share adds up all the shares. */
  lemma {:induction false} LoopSum(step: (Split, nat, Window) -> Split, ws: seq<Window>, k: nat, init: Split, mmio: nat)
    requires k <= |ws|
    requires WindowsOk(ws, k) && init.ranges == []
    requires forall s: Split, i: nat, w: Window :: w.populated && Reportable(w) ==> SizeSum(step(s, i, w).ranges) == SizeSum(s.ranges) + NodeRamK(w, mmio)
    ensures SizeSum(Loop(step, ws, k, init).ranges) == DomainRamK(ws, k, mmio)
  {
    if k > 0 {
      assert WindowsOk(ws, k - 1);
      LoopSum(step, ws, k - 1, init, mmio);
    }
  }

  /**
   * Over the whole domain, when every populated node ends below 4 TiB, no
   * RAM resource overlaps the legacy window or the MMIO window, and the RAM
   * reported is each node's size less what those windows take from it.
   */
  lemma DomainRamSound(ws: seq<Window>, k: nat, mmio: nat, hms: nat, htb0: nat)
    requires k <= |ws|
    requires LegacyHigh <= mmio <= FourGiBK
    requires WindowsOk(ws, k)
    ensures Clear(DomainRam(ws, k, mmio, hms, htb0).ranges, mmio)
    ensures SizeSum(DomainRam(ws, k, mmio, hms, htb0).ranges) == DomainRamK(ws, k, mmio)
  {
    var step := NodeStep(mmio, hms);
    forall s: Split, i: nat, w: Window | w.populated && Reportable(w) && Clear(s.ranges, mmio)
      ensures Clear(step(s, i, w).ranges, mmio)
    {
      NodeRamClear(s, i, w, mmio, hms);
    }
    forall s: Split, i: nat, w: Window | w.populated && Reportable(w)
      ensures SizeSum(step(s, i, w).ranges) == SizeSum(s.ranges) + NodeRamK(w, mmio)
    {
      NodeRamSum(s, i, w, mmio, hms);
    }
    LoopClear(step, ws, k, Split([], 0x10, htb0), mmio);
    LoopSum(step, ws, k, Split([], 0x10, htb0), mmio);
  }
}

=== FILE: fam10_slots.dfy ===
/**
 * AMD family 10h address-window slots: the base/limit register pairs of
 * function 1 that route IO (0xc0..0xd8) and MMIO (0x80..0xb8) ranges to a
 * (node, link), the extended index used once the fixed pairs run out, the
 * store-once write of an assigned window, and the decode of pairs the
 * earlier boot stage already programmed.
 */
module Fam10Slots {
  import opened Common

  /** Resource flags by name; `other` stands for the remaining low flag bits as a number. */
  datatype Flags = Flags(
    isIo: bool, isMem: bool, isPrefetch: bool, isBridge: bool,
    isAssigned: bool, isStored: bool, other: nat)

  /** The flag word compares `<= 1`: no named flag is set and the remaining value is 0 or 1. */
  predicate AtMostOne(f: Flags)
  {
    !f.isIo && !f.isMem && !f.isPrefetch && !f.isBridge && !f.isAssigned && !f.isStored && f.other <= 1
  }

  const NoFlags := Flags(false, false, false, false, false, false, 0)

  /** The reservation mark the decode of preset pairs leaves (a flag word of 1). */
  const Reserved := NoFlags.(other := 1)

  datatype Resource = Resource(flags: Flags, base: nat, size: nat, align: nat, gran: nat, limit: nat)

  /** A freshly created or reset resource. */
  const Blank := Resource(NoFlags, 0, 0, 0, 0, 0)

  /** A resource of node `node`'s function-0 device, indexed by `raw` (0x1000 + register) and link. */
  datatype Key = Key(node: nat, raw: nat, link: nat)

  type Table = map<Key, Resource>

  const IoFirst: nat := 0xc0
  const IoLast: nat := 0xd8
  const MemFirst: nat := 0x80
  const MemLast: nat := 0xb8

  /** Node `n` has a function-0 device. */
  predicate Present(present: seq<bool>, n: nat)
  {
    n < |present| && present[n]
  }

  /** A resource for register pair `reg` exists on node `n`, link `l`. */
  predicate Owns(tbl: Table, present: seq<bool>, reg: nat, n: nat, l: nat)
  {
    Present(present, n) && l < 8 && Key(n, 0x1000 + reg, l) in tbl
  }

  /** (n1, l1) comes before (n2, l2) in node-major, link-minor order. */
  predicate Before(n1: nat, l1: nat, n2: nat, l2: nat)
  {
    n1 < n2 || (n1 == n2 && l1 < l2)
  }

  /** The first owner of `reg` at or after (n, l) in node-major, link-minor order. */
  function FirstFrom(tbl: Table, present: seq<bool>, reg: nat, n: nat, l: nat): (r: Option<(nat, nat)>)
    ensures r.Some? ==> Key(r.value.0, 0x1000 + reg, r.value.1) in tbl
    decreases |present| - n, 8 - l
  {
    if n >= |present| then None
    else if !present[n] || l >= 8 then FirstFrom(tbl, present, reg, n + 1, 0)
    else if Key(n, 0x1000 + reg, l) in tbl then Some((n, l))
    else FirstFrom(tbl, present, reg, n, l + 1)
  }

  /** FirstFrom finds the earliest owner at or after its starting point, and None means there is none. */
  lemma {:induction false} FirstFromMeaning(tbl: Table, present: seq<bool>, reg: nat, n: nat, l: nat)
    requires l <= 8
    ensures var r := FirstFrom(tbl, present, reg, n, l);
      && (r.Some? ==> Owns(tbl, present, reg, r.value.0, r.value.1) && !Before(r.value.0, r.value.1, n, l))
      && (r.Some? ==> forall n', l' :: Owns(tbl, present, reg, n', l') && !Before(n', l', n, l)
                        ==> !Before(n', l', r.value.0, r.value.1))
      && (r.None? ==> forall n', l' :: Owns(tbl, present, reg, n', l') ==> Before(n', l', n, l))
    decreases |present| - n, 8 - l
  {
    if n >= |present| {
    } else if !present[n] || l >= 8 {
      FirstFromMeaning(tbl, present, reg, n + 1, 0);
    } else if Key(n, 0x1000 + reg, l) in tbl {
    } else {
      FirstFromMeaning(tbl, present, reg, n, l + 1);
    }
  }

  /**
   * reg_useable: 2 when no node owns `reg`; otherwise 1 when the first owner
   * is the goal (node, link) and its flags are at most 1, and 0 else.
   */
  function Useable(tbl: Table, present: seq<bool>, reg: nat, goalNode: nat, goalLink: nat): (r: int)
    ensures 0 <= r <= 2
  {
    match FirstFrom(tbl, present, reg, 0, 0)
    case None => 2
    case Some((n, l)) =>
      if goalNode == n && goalLink == l && AtMostOne(tbl[Key(n, 0x1000 + reg, l)].flags) then 1 else 0
  }

  /** The meaning of Useable in terms of the first owner in node-major order. */
  lemma UseableMeaning(tbl: Table, present: seq<bool>, reg: nat, goalNode: nat, goalLink: nat)
    ensures Useable(tbl, present, reg, goalNode, goalLink) == 2
      <==> forall n, l :: !Owns(tbl, present, reg, n, l)
    ensures Useable(tbl, present, reg, goalNode, goalLink) == 1
      <==> && Owns(tbl, present, reg, goalNode, goalLink)
           && AtMostOne(tbl[Key(goalNode, 0x1000 + reg, goalLink)].flags)
           && forall n, l :: Owns(tbl, present, reg, n, l) ==> !Before(n, l, goalNode, goalLink)
  {
    FirstFromMeaning(tbl, present, reg, 0, 0);
  }

  /**
   * The C loop of reg_useable, with its `!res` exits and the `link - 1`,
   * `nodeid - 1` recovery of where the search stopped.
   */
  method RegUseable(tbl: Table, present: seq<bool>, reg: nat, goalNode: nat, goalLink: nat) returns (result: int)
    ensures result == Useable(tbl, present, reg, goalNode, goalLink)
  {
    var found: Option<Resource> := None;
    var nodeid: nat := 0;
    var link: nat := 0;
    while found.None? && nodeid < |present|
      invariant nodeid <= |present|
      invariant found.None? ==> FirstFrom(tbl, present, reg, 0, 0) == FirstFrom(tbl, present, reg, nodeid, 0)
      invariant found.Some? ==> 1 <= nodeid && 1 <= link <= 8
      invariant found.Some? ==> FirstFrom(tbl, present, reg, 0, 0) == Some(((nodeid - 1) as nat, (link - 1) as nat))
      invariant found.Some? ==> found.value == tbl[Key(nodeid - 1, 0x1000 + reg, link - 1)]
      decreases |present| - nodeid, if found.None? then 1 else 0
    {
      if present[nodeid] {
        link := 0;
        while found.None? && link < 8
          invariant link <= 8
          invariant found.None? ==> FirstFrom(tbl, present, reg, 0, 0) == FirstFrom(tbl, present, reg, nodeid, link)
          invariant found.Some? ==> 1 <= link
          invariant found.Some? ==> FirstFrom(tbl, present, reg, 0, 0) == Some((nodeid, (link - 1) as nat))
          invariant found.Some? ==> found.value == tbl[Key(nodeid, 0x1000 + reg, link - 1)]
        {
          var k := Key(nodeid, 0x1000 + reg, link);
          if k in tbl {
            found := Some(tbl[k]);
          }
          link := link + 1;
        }
      }
      nodeid := nodeid + 1;
    }
    result := 2;
    if found.Some? {
      result := 0;
      if goalLink == link - 1 && goalNode == nodeid - 1 && AtMostOne(found.value.flags) {
        result := 1;
      }
    }
  }

  /** The register pairs of a range: first, first + 8, ..., last. */
  function Slots(first: nat, last: nat): (r: seq<nat>)
    requires first <= last + 8
    ensures forall k :: 0 <= k < |r| ==> first <= r[k] <= last
    ensures forall j, k :: 0 <= j < k < |r| ==> r[j] < r[k]
    ensures |r| == if first > last then 0 else (last - first) / 8 + 1
    ensures forall k :: 0 <= k < |r| ==> r[k] == first + 8 * k
    decreases last + 8 - first
  {
    if first > last then [] else [first] + Slots(first + 8, last)
  }

  /** The extended register number used when no fixed pair is available. */
  function ExtReg(index: nat, kind: nat): (r: nat)
    ensures r < U32
  {
    Wrap(0x110 + index * 0x100_0000 + kind * 0x10_0000, U32)
  }

  /** Which pair the search settles on. */
  datatype Choice = Owned(reg: nat) | Free(reg: nat) | Extended

  /**
   * The scan of find_iopair / find_mempair over `slots`: stop at a pair owned
   * by the goal; otherwise remember the last free pair.
   */
  function ChooseSlot(tbl: Table, present: seq<bool>, node: nat, link: nat, slots: seq<nat>): (c: Choice)
    ensures c.Owned? ==> c.reg in slots && Useable(tbl, present, c.reg, node, link) == 1
    ensures c.Free? ==> c.reg in slots && Useable(tbl, present, c.reg, node, link) == 2
    decreases |slots|
  {
    if |slots| == 0 then Extended
    else
      var u := Useable(tbl, present, slots[0], node, link);
      if u == 1 then Owned(slots[0])
      else
        var rest := ChooseSlot(tbl, present, node, link, slots[1..]);
        if rest.Extended? && u == 2 then Free(slots[0]) else rest
  }

  /** Whether some pair of `slots` is owned by the goal. */
  predicate AnyOwned(tbl: Table, present: seq<bool>, node: nat, link: nat, slots: seq<nat>)
  {
    exists i :: 0 <= i < |slots| && Useable(tbl, present, slots[i], node, link) == 1
  }

  /** The slot choice is the first owned pair, else the last free pair, else the extended index. */
  lemma ChooseSlotMeaning(tbl: Table, present: seq<bool>, node: nat, link: nat, slots: seq<nat>)
    ensures var c := ChooseSlot(tbl, present, node, link, slots);
      && (c.Owned? ==> exists j :: (0 <= j < |slots| && slots[j] == c.reg
            && forall i :: 0 <= i < j ==> Useable(tbl, present, slots[i], node, link) != 1))
      && (c.Owned? <==> AnyOwned(tbl, present, node, link, slots))
      && (c.Free? ==> exists j :: (0 <= j < |slots| && slots[j] == c.reg
            && forall i :: j < i < |slots| ==> Useable(tbl, present, slots[i], node, link) != 2))
      && (c.Extended? ==> forall i :: 0 <= i < |slots| ==> Useable(tbl, present, slots[i], node, link) == 0)
  {
    ChooseOwned(tbl, present, node, link, slots);
    ChooseFree(tbl, present, node, link, slots);
    ChooseExtended(tbl, present, node, link, slots);
  }

  lemma {:induction false} ChooseOwned(tbl: Table, present: seq<bool>, node: nat, link: nat, slots: seq<nat>)
    ensures var c := ChooseSlot(tbl, present, node, link, slots);
      && (c.Owned? ==> exists j :: (0 <= j < |slots| && slots[j] == c.reg
            && forall i :: 0 <= i < j ==> Useable(tbl, present, slots[i], node, link) != 1))
      && (c.Owned? <==> AnyOwned(tbl, present, node, link, slots))
    decreases |slots|
  {
    if |slots| > 0 {
      ChooseOwned(tbl, present, node, link, slots[1..]);
      var c := ChooseSlot(tbl, present, node, link, slots);
      var u := Useable(tbl, present, slots[0], node, link);
      if u == 1 {
        assert slots[0] == c.reg;
        assert AnyOwned(tbl, present, node, link, slots);
      } else {
        assert c == ChooseSlot(tbl, present, node, link, slots[1..]) || (c.Free? && c.reg == slots[0]);
        if c.Owned? {
          var j' :| 0 <= j' < |slots[1..]| && slots[1..][j'] == c.reg
            && forall i :: 0 <= i < j' ==> Useable(tbl, present, slots[1..][i], node, link) != 1;
          assert slots[j' + 1] == c.reg;
          forall i | 0 <= i < j' + 1
            ensures Useable(tbl, present, slots[i], node, link) != 1
          {
            if i > 0 { assert slots[i] == slots[1..][i - 1]; }
          }
        }
        if AnyOwned(tbl, present, node, link, slots) {
          var i :| 0 <= i < |slots| && Useable(tbl, present, slots[i], node, link) == 1;
          assert slots[i] == slots[1..][i - 1];
          assert AnyOwned(tbl, present, node, link, slots[1..]);
        }
        if AnyOwned(tbl, present, node, link, slots[1..]) {
          var i :| 0 <= i < |slots[1..]| && Useable(tbl, present, slots[1..][i], node, link) == 1;
          assert slots[1..][i] == slots[i + 1];
        }
      }
    }
  }

  lemma {:induction false} ChooseFree(tbl: Table, present: seq<bool>, node: nat, link: nat, slots: seq<nat>)
    ensures var c := ChooseSlot(tbl, present, node, link, slots);
      c.Free? ==> exists j :: (0 <= j < |slots| && slots[j] == c.reg
        && forall i :: j < i < |slots| ==> Useable(tbl, present, slots[i], node, link) != 2)
    decreases |slots|
  {
    if |slots| > 0 {
      ChooseFree(tbl, present, node, link, slots[1..]);
      ChooseExtended(tbl, present, node, link, slots[1..]);
      var c := ChooseSlot(tbl, present, node, link, slots);
      var rest := ChooseSlot(tbl, present, node, link, slots[1..]);
      if c.Free? && rest.Free? {
        var j' :| 0 <= j' < |slots[1..]| && slots[1..][j'] == c.reg
          && forall i :: j' < i < |slots[1..]| ==> Useable(tbl, present, slots[1..][i], node, link) != 2;
        assert slots[j' + 1] == c.reg;
        forall i | j' + 1 < i < |slots|
          ensures Useable(tbl, present, slots[i], node, link) != 2
        {
          assert slots[i] == slots[1..][i - 1];
        }
      } else if c.Free? {
        assert slots[0] == c.reg;
        forall i | 0 < i < |slots|
          ensures Useable(tbl, present, slots[i], node, link) != 2
        {
          assert slots[i] == slots[1..][i - 1];
        }
      }
    }
  }

  lemma {:induction false} ChooseExtended(tbl: Table, present: seq<bool>, node: nat, link: nat, slots: seq<nat>)
    ensures var c := ChooseSlot(tbl, present, node, link, slots);
      c.Extended? ==> forall i :: 0 <= i < |slots| ==> Useable(tbl, present, slots[i], node, link) == 0
    decreases |slots|
  {
    if |slots| > 0 {
      ChooseExtended(tbl, present, node, link, slots[1..]);
      var c := ChooseSlot(tbl, present, node, link, slots);
      if c.Extended? {
        forall i | 0 <= i < |slots|
          ensures Useable(tbl, present, slots[i], node, link) == 0
        {
          if i > 0 { assert slots[i] == slots[1..][i - 1]; }
        }
      }
    }
  }

  /** The register pair chosen: the owned or free fixed pair, else the extended register of `index`. */
  function PairReg(c: Choice, index: nat, kind: nat): nat
  {
    if c.Extended? then ExtReg(index, kind) else c.reg
  }

  /** find_iopair: picks the IO pair for (node, link) and (re)creates its resource. */
  function FindIoPair(tbl: Table, present: seq<bool>, node: nat, link: nat, index: nat): (r: (Table, Key))
    ensures r.1.node == node && r.1.link == link && r.0 == tbl[r.1 := Blank]
    ensures var c := ChooseSlot(tbl, present, node, link, Slots(IoFirst, IoLast));
      r.1.raw == 0x1000 + (if c.Extended? then ExtReg(index, 4) else c.reg)
  {
    var c := ChooseSlot(tbl, present, node, link, Slots(IoFirst, IoLast));
    var k := Key(node, 0x1000 + PairReg(c, index, 4), link);
    (tbl[k := Blank], k)
  }

  /** find_mempair: picks an MMIO pair for (node, link) and (re)creates its resource. */
  function FindMemPair(tbl: Table, present: seq<bool>, node: nat, link: nat, index: nat): (r: (Table, Key))
    ensures r.1.node == node && r.1.link == link && r.0 == tbl[r.1 := Blank]
    ensures var c := ChooseSlot(tbl, present, node, link, Slots(MemFirst, MemLast));
      r.1.raw == 0x1000 + (if c.Extended? then ExtReg(index, 6) else c.reg)
  {
    var c := ChooseSlot(tbl, present, node, link, Slots(MemFirst, MemLast));
    var k := Key(node, 0x1000 + PairReg(c, index, 6), link);
    (tbl[k := Blank], k)
  }

  /** Alignment choices of the build: log2 of the IO and memory host alignments. */
  datatype Align = Align(extConf: bool, ioAlign: nat, memAlign: nat)

  /** Whether a resource index lies in the extended configuration space. */
  predicate IsExt(raw: nat)
  {
    raw % 0x2000 == 0x1110
  }

  /** The IO window of a link: IO and bridge flags, limit 0xffff, 8-bit alignment in the extended space. */
  function IoWindow(tbl: Table, present: seq<bool>, node: nat, link: nat, al: Align, index: nat): (r: (Table, Key))
    ensures r.1 in r.0 && r.1.node == node && r.1.link == link
    ensures r.0[r.1].flags == Flags(true, false, false, true, false, false, 0)
    ensures r.0[r.1].limit == 0xffff && r.0[r.1].base == 0 && r.0[r.1].size == 0
    ensures r.0[r.1].align == r.0[r.1].gran == (if al.extConf && IsExt(r.1.raw) then 8 else al.ioAlign)
    ensures forall k :: k in tbl && k != r.1 ==> k in r.0 && r.0[k] == tbl[k]
  {
    var (t, k) := FindIoPair(tbl, present, node, link, index);
    var align := if al.extConf && IsExt(k.raw) then 8 else al.ioAlign;
    (t[k := Resource(Flags(true, false, false, true, false, false, 0), 0, 0, align, align, 0xffff)], k)
  }

  /** An MMIO window of a link: memory and bridge flags, prefetchable or not, limit 2^40 - 1. */
  function MemWindow(tbl: Table, present: seq<bool>, node: nat, link: nat, al: Align, index: nat, prefetch: bool): (r: (Table, Key))
    ensures r.1 in r.0 && r.1.node == node && r.1.link == link
    ensures r.0[r.1].flags == Flags(false, true, prefetch, true, false, false, 0)
    ensures r.0[r.1].limit == 0xff_ffff_ffff && r.0[r.1].base == 0 && r.0[r.1].size == 0
    ensures r.0[r.1].align == r.0[r.1].gran == al.memAlign
    ensures forall k :: k in tbl && k != r.1 ==> k in r.0 && r.0[k] == tbl[k]
  {
    var (t, k) := FindMemPair(tbl, present, node, link, index);
    (t[k := Resource(Flags(false, true, prefetch, true, false, false, 0), 0, 0, al.memAlign, al.memAlign, 0xff_ffff_ffff)], k)
  }

  /** The three windows of a link after amdfam10_link_read_bases. */
  datatype Bases = Bases(tbl: Table, io: Key, prefetch: Key, mem: Key)

  /**
   * amdfam10_link_read_bases: an IO window, then a prefetchable MMIO window,
   * then a non-prefetchable MMIO window, each in the slot its search chose.
   */
  function LinkReadBases(tbl: Table, present: seq<bool>, node: nat, link: nat, al: Align,
                         ioIndex: nat, prefIndex: nat, memIndex: nat): (r: Bases)
  {
    var (t1, kIo) := IoWindow(tbl, present, node, link, al, ioIndex);
    var (t2, kPf) := MemWindow(t1, present, node, link, al, prefIndex, true);
    var (t3, kMem) := MemWindow(t2, present, node, link, al, memIndex, false);
    Bases(t3, kIo, kPf, kMem)
  }

  /** A pair the goal already holds with flags above 1 is neither reusable nor free for it. */
  lemma HeldPairNotUseable(tbl: Table, present: seq<bool>, node: nat, link: nat, reg: nat)
    requires Present(present, node) && link < 8
    requires Key(node, 0x1000 + reg, link) in tbl && !AtMostOne(tbl[Key(node, 0x1000 + reg, link)].flags)
    ensures Useable(tbl, present, reg, node, link) == 0
  {
    UseableMeaning(tbl, present, reg, node, link);
    assert Owns(tbl, present, reg, node, link);
  }

  /**
   * When the node has its function-0 device and the prefetchable window took
   * a fixed pair, the non-prefetchable window that follows it takes a
   * different pair: the prefetchable window's flags exceed 1, so the second
   * search neither reuses nor frees that pair.
   */
  lemma SecondMemWindowDistinct(t1: Table, present: seq<bool>, node: nat, link: nat, al: Align,
                                prefIndex: nat, memIndex: nat)
    requires Present(present, node) && link < 8
    ensures var (t2, kPf) := MemWindow(t1, present, node, link, al, prefIndex, true);
      var (t3, kMem) := MemWindow(t2, present, node, link, al, memIndex, false);
      kPf.raw - 0x1000 in Slots(MemFirst, MemLast) ==> kMem != kPf
  {
    var (t2, kPf) := MemWindow(t1, present, node, link, al, prefIndex, true);
    var slots := Slots(MemFirst, MemLast);
    var reg := kPf.raw - 0x1000;
    if reg in slots {
      HeldPairNotUseable(t2, present, node, link, reg);
      var c := ChooseSlot(t2, present, node, link, slots);
      if c.Extended? {
        ExtRegLow(memIndex, 6);
      }
    }
  }

  /** Both MMIO windows of amdfam10_link_read_bases differ whenever the first one took a fixed pair. */
  lemma LinkReadBasesDistinctMem(tbl: Table, present: seq<bool>, node: nat, link: nat, al: Align,
                                 ioIndex: nat, prefIndex: nat, memIndex: nat)
    requires Present(present, node) && link < 8
    ensures var b := LinkReadBases(tbl, present, node, link, al, ioIndex, prefIndex, memIndex);
      b.prefetch.raw - 0x1000 in Slots(MemFirst, MemLast) ==> b.mem != b.prefetch
  {
    var (t1, kIo) := IoWindow(tbl, present, node, link, al, ioIndex);
    SecondMemWindowDistinct(t1, present, node, link, al, prefIndex, memIndex);
  }

  /** The low 20 bits of an extended register number are always 0x110. */
  lemma ExtRegLow(index: nat, kind: nat)
    ensures ExtReg(index, kind) % 0x10_0000 == 0x110
    ensures ExtReg(index, kind) >= 0x110
  {
    var x := 0x110 + index * 0x100_0000 + kind * 0x10_0000;
    var q := (index * 0x10 + kind) % 0x1000;
    assert x == 0x110 + (index * 0x10 + kind) * 0x10_0000;
    assert ExtReg(index, kind) == x % U32;
    assert x % U32 == 0x110 + q * 0x10_0000 by {
      ModMulShift(index * 0x10 + kind);
    }
  }

  /** (0x110 + m·2^20) mod 2^32 == 0x110 + (m mod 2^12)·2^20. */
  lemma ModMulShift(m: nat)
    ensures (0x110 + m * 0x10_0000) % U32 == 0x110 + (m % 0x1000) * 0x10_0000
  {
    var q := m / 0x1000;
    var rm := m % 0x1000;
    assert m == q * 0x1000 + rm;
    assert 0x110 + m * 0x10_0000 == q * U32 + (0x110 + rm * 0x10_0000);
    assert 0 <= 0x110 + rm * 0x10_0000 < U32;
  }

  /** A write to the node/link address-map registers, with base and end in units of 256. */
  datatype AddrWrite =
    | IoWrite(node: nat, link: nat, reg: nat, ext: nat, base8: nat, end8: nat)
    | MmioWrite(node: nat, link: nat, reg: nat, ext: nat, base8: nat, end8: nat)

  /** The conditions under which amdfam10_set_resource programs a window. */
  predicate Storable(r: Resource, k: Key)
  {
    r.flags.isAssigned && !r.flags.isStored && (r.flags.isMem || r.flags.isIo) && k.raw % 0x1_0000 >= 0x1000
  }

  /**
   * amdfam10_set_resource: programs an assigned, not yet stored IO or MMIO
   * window of function 1 into the address map, then marks it stored.
   * `rend` is the window's end address as computed by the resource core.
   */
  function SetResource(r: Resource, k: Key, nodeid: nat, rend: nat): (out: (Resource, Option<AddrWrite>))
    ensures out.1.Some? <==> Storable(r, k)
    ensures out.1.None? ==> out.0 == r
    ensures out.1.Some? ==> out.0 == r.(flags := r.flags.(isStored := true))
    ensures out.1.Some? ==>
      && out.1.value.node == nodeid && out.1.value.link == k.link
      && out.1.value.reg == k.raw % 0x1000 && out.1.value.ext == k.raw / 0x100_0000
      && out.1.value.base8 * 256 <= r.base < out.1.value.base8 * 256 + 256
      && out.1.value.end8 * 256 <= rend < out.1.value.end8 * 256 + 256
      && (out.1.value.IoWrite? <==> r.flags.isIo)
  {
    if !r.flags.isAssigned then (r, None)
    else if r.flags.isStored then (r, None)
    else if !(r.flags.isMem || r.flags.isIo) then (r, None)
    else if k.raw % 0x1_0000 < 0x1000 then (r, None)
    else
      var reg := k.raw % 0x1000;
      var ext := k.raw / 0x100_0000;
      var w := if r.flags.isIo then IoWrite(nodeid, k.link, reg, ext, r.base / 256, rend / 256)
               else MmioWrite(nodeid, k.link, reg, ext, r.base / 256, rend / 256);
      (r.(flags := r.flags.(isStored := true)), Some(w))
  }

  /** Storing a resource twice programs the registers once: the second call changes nothing. */
  lemma SetResourceIdempotent(r: Resource, k: Key, nodeid: nat, rend: nat)
    ensures var first := SetResource(r, k, nodeid, rend);
      SetResource(first.0, k, nodeid, rend) == (first.0, None)
  {
  }

  /** The node and link a programmed pair is routed to. */
  datatype Route = Route(node: nat, link: nat)

  /**
   * Decodes a function-1 base/limit pair: a pair with either enable bit set
   * routes to the node in the limit's low nibble plus the high node bits of
   * the base, and to the link in limit bits 6:4.
   */
  function DecodePair(reg: nat, base: bv32, limit: bv32): (r: Option<Route>)
    ensures r.Some? <==> base & 3 != 0
    ensures r.Some? ==> r.value.link < 8 && r.value.node < 64
  {
    if base & 3 == 0 then None
    else
      var high := if reg < 0xc0 then base & 0x30 else (base >> 4) & 0x30;
      Some(Route(Nibble(limit) + NodeHigh(high), Nibble(limit >> 4) % 8))
  }

  /** The low four bits of a register as a number. */
  function Nibble(x: bv32): (r: nat)
    ensures r < 16
  {
    (x & 0xf) as nat
  }

  /** Bits 5:4 of a node-select field, as the node-number bits 5:4 they encode. */
  function NodeHigh(h: bv32): (r: nat)
    ensures r % 16 == 0 && r < 64
  {
    var b := h & 0x30;
    if b == 0 then 0 else if b == 0x10 then 16 else if b == 0x20 then 32 else 48
  }

  /** The route of pair `reg` when it is programmed and its node is present. */
  function PresetRoute(f1: nat -> bv32, present: seq<bool>, reg: nat): (r: Option<Route>)
    ensures r.Some? ==> Present(present, r.value.node) && r.value.link < 8
  {
    match DecodePair(reg, f1(reg), f1(reg + 4))
    case Some(rt) => if Present(present, rt.node) then Some(rt) else None
    case None => None
  }

  /**
   * amdfam10_domain_read_resources over the pairs `regs`, in order: every
   * pair that is already programmed and routed to a present node becomes a
   * reservation (flag word 1) of that node and link.
   */
  function DomainReadResources(f1: nat -> bv32, present: seq<bool>, tbl: Table, regs: seq<nat>): (r: Table)
    ensures forall k :: k in tbl ==> k in r
    decreases |regs|
  {
    if |regs| == 0 then tbl
    else
      var t := DomainReadResources(f1, present, tbl, regs[..|regs| - 1]);
      var reg := regs[|regs| - 1];
      match PresetRoute(f1, present, reg)
      case Some(rt) => t[Key(rt.node, 0x1000 + reg, rt.link) := Blank.(flags := Reserved)]
      case None => t
  }

  /**
   * After the decode, pair `reg` has a resource for (n, l) exactly when it
   * had one before or its preset routing names (n, l); the latter is a
   * reservation.
   */
  lemma {:induction false} DomainReadKeys(f1: nat -> bv32, present: seq<bool>, tbl: Table, regs: seq<nat>, reg: nat, n: nat, l: nat)
    ensures var t := DomainReadResources(f1, present, tbl, regs);
      var k := Key(n, 0x1000 + reg, l);
      k in t <==> k in tbl || (reg in regs && PresetRoute(f1, present, reg) == Some(Route(n, l)))
    ensures var t := DomainReadResources(f1, present, tbl, regs);
      reg in regs && PresetRoute(f1, present, reg) == Some(Route(n, l)) ==>
        t[Key(n, 0x1000 + reg, l)] == Blank.(flags := Reserved)
    decreases |regs|
  {
    if |regs| > 0 {
      var init := regs[..|regs| - 1];
      DomainReadKeys(f1, present, tbl, init, reg, n, l);
      assert regs == init + [regs[|regs| - 1]];
    }
  }

  /**
   * After decoding the preset pairs into an empty table, a (node, link) that
   * a preset MMIO pair routes to is offered that pair again, and a pair with
   * no preset routing is free.
   */
  lemma PresetPairReused(f1: nat -> bv32, present: seq<bool>, reg: nat, node: nat, link: nat)
    requires reg in Slots(MemFirst, IoLast)
    ensures var t := DomainReadResources(f1, present, map[], Slots(MemFirst, IoLast));
      && (PresetRoute(f1, present, reg) == Some(Route(node, link)) ==> Useable(t, present, reg, node, link) == 1)
      && (PresetRoute(f1, present, reg).None? ==> Useable(t, present, reg, node, link) == 2)
  {
    var slots := Slots(MemFirst, IoLast);
    var t := DomainReadResources(f1, present, map[], slots);
    forall n, l
      ensures Owns(t, present, reg, n, l) <==> PresetRoute(f1, present, reg) == Some(Route(n, l))
    {
      DomainReadKeys(f1, present, map[], slots, reg, n, l);
    }
    DomainReadKeys(f1, present, map[], slots, reg, node, link);
    UseableMeaning(t, present, reg, node, link);
  }
}

=== FILE: h8dmr_bus_conf.dfy ===
/**
 * The Supermicro H8DMR bus map: run once, it copies the preset
 * HyperTransport chain words into the system configuration, lets the
 * chain discovery adjust them, and derives the MCP55 south-bridge device
 * number and the buses behind the MCP55 bridges and the PCI-X bridge.
 */
module H8dmrBusConf {
  import opened Common
  import opened PciSlots

  /** The preset chain words: bus number in bits 23:16 (bus 0 here). */
  const Pci1234Preset: seq<nat> := [0x0000ff0, 0x0000ff0]

  /** The preset unit-id bases: four HyperTransport devices at unit 0x20 per chain. */
  const HcdnPreset: seq<nat> := [0x20202020, 0x20202020]

  /** The parts of the shared system configuration this code reads and writes. */
  datatype Sysconf = Sysconf(hcPossibleNum: nat, pci1234: seq<nat>, hcdn: seq<nat>, sbdn: nat)
  {
    predicate HasChains() { |pci1234| >= 2 && |hcdn| >= 2 }
  }

  /** The board's globals: the do-once flag, the system configuration and the bus tables. */
  datatype State = State(done: bool, sys: Sysconf, sbdnb: nat,
                         busMcp55: seq<Byte>, busPcix: seq<Byte>, apicidMcp55: nat)

  /** The two preset chains copied into the system configuration. */
  function Preset(sys: Sysconf): (r: Sysconf)
    requires sys.HasChains()
    ensures r.HasChains() && r.hcPossibleNum == 2 && r.sbdn == sys.sbdn
    ensures r.pci1234[..2] == Pci1234Preset && r.hcdn[..2] == HcdnPreset
    ensures r.pci1234[2..] == sys.pci1234[2..] && r.hcdn[2..] == sys.hcdn[2..]
  {
    var r := sys.(hcPossibleNum := 2,
                  pci1234 := sys.pci1234[0 := Pci1234Preset[0]][1 := Pci1234Preset[1]],
                  hcdn := sys.hcdn[0 := HcdnPreset[0]][1 := HcdnPreset[1]]);
    assert r.pci1234[..2] == Pci1234Preset;
    assert r.hcdn[..2] == HcdnPreset;
    r
  }

  /**
   * The MCP55 bridge at device `sbdn + 6`: its secondary bus and the bus
   * after its subordinate one (wrapping to 0 in the byte), else 2 and 3.
   */
  function FirstBridges(found: Option<Bridge>): (r: (Byte, Byte))
    ensures found.None? ==> r == (2, 3)
    ensures found.Some? ==> r.0 == found.value.secondary && r.1 == (found.value.subordinate + 1) % U8
  {
    match found
    case Some(b) => (b.secondary, Wrap(b.subordinate + 1, U8))
    case None => (2, 3)
  }

  /**
   * Entries `i` to 7 of the MCP55 table: the secondary bus of the bridge
   * at device `sbdn + 0x0a + i - 2`, the entry kept when it is absent.
   */
  function {:induction false} ScanMcp55(m: seq<Byte>, find: Finder, bus0: nat, sbdn: nat, i: nat): (r: seq<Byte>)
    requires |m| == 8 && 2 <= i <= 8
    ensures |r| == 8 && r[..i] == m[..i]
    ensures forall k :: i <= k < 8 ==> r[k] == SecondaryOr(find, bus0, DevFn(sbdn + 0x0a + k - 2, 0), m[k])
    decreases 8 - i
  {
    if i == 8 then m
    else
      var next := m[i := SecondaryOr(find, bus0, DevFn(sbdn + 0x0a + i - 2, 0), m[i])];
      var r := ScanMcp55(next, find, bus0, sbdn, i + 1);
      assert r[..i] == next[..i];
      r
  }

  /**
   * The PCI-X table behind bus `bus2`: entry `i + 1` is the secondary bus
   * of the bridge at function `i` of device 0, and entry 0 is `bus2` once
   * either is found.
   */
  function ScanPcix(find: Finder, bus2: Byte): (p: seq<Byte>)
    ensures |p| == 3
    ensures p[0] == (if find(bus2, DevFn(0, 0)).Some? || find(bus2, DevFn(0, 1)).Some? then bus2 else 0)
    ensures forall i :: 0 <= i < 2 ==>
      p[i + 1] == (match find(bus2, DevFn(0, i)) case Some(b) => b.secondary case None => 0)
  {
    var p := [0, 0, 0];
    var p := match find(bus2, DevFn(0, 0)) case Some(b) => p[0 := bus2][1 := b.secondary] case None => p;
    var p := match find(bus2, DevFn(0, 1)) case Some(b) => p[0 := bus2][2 := b.secondary] case None => p;
    p
  }

  /**
   * The MCP55 table for south-bridge device `sbdn` on bus `bus0`: entry 0
   * is the bus itself; entry 1 the secondary bus of the bridge at device
   * `sbdn + 6` (default 2); entry 2 the secondary bus of the bridge at
   * `sbdn + 0x0a`, or failing that the bus after the last one behind
   * `sbdn + 6` (in byte arithmetic, default 3); entries 3 to 7 the
   * secondary buses of the bridges at `sbdn + 0x0b` to `sbdn + 0x0f`, or 0.
   */
  function Mcp55Table(find: Finder, bus0: Byte, sbdn: nat): (m: seq<Byte>)
    ensures |m| == 8 && m[0] == bus0
    ensures m[1] == SecondaryOr(find, bus0, DevFn(sbdn + 0x06, 0), 2)
    ensures m[2] == SecondaryOr(find, bus0, DevFn(sbdn + 0x0a, 0), FirstBridges(find(bus0, DevFn(sbdn + 0x06, 0))).1)
    ensures forall k :: 3 <= k < 8 ==> m[k] == SecondaryOr(find, bus0, DevFn(sbdn + 0x0a + k - 2, 0), 0)
  {
    var (bus1, bus2) := FirstBridges(find(bus0, DevFn(sbdn + 0x06, 0)));
    var m0 := [bus0, bus1, bus2, 0, 0, 0, 0, 0];
    var m := ScanMcp55(m0, find, bus0, sbdn, 2);
    assert m[..2] == m0[..2];
    assert m[0] == m0[0] && m[1] == m0[1];
    m
  }

  /** The PCI-X table: filled only behind a non-zero MCP55 bus 2. */
  function PcixTable(find: Finder, bus2: Byte): (p: seq<Byte>)
    ensures bus2 == 0 ==> p == [0, 0, 0]
    ensures bus2 != 0 ==> p == ScanPcix(find, bus2)
  {
    if bus2 != 0 then ScanPcix(find, bus2) else [0, 0, 0]
  }

  /**
   * `get_bus_conf`. `sblk` is the chain discovery (`get_sblk_pci1234`),
   * `find` the device lookup, `apicidBase` the first I/O APIC ID. A
   * second call changes nothing. The first leaves the chain tables as the
   * discovery left them after the presets were copied in, the
   * south-bridge device numbers as the low bytes of the two unit-id
   * words, the MCP55 table on the bus in bits 23:16 of the first chain
   * word, and the PCI-X table behind its bus 2.
   */
  function GetBusConf(st: State, sblk: Sysconf -> Sysconf, find: Finder, apicidBase: nat): (r: State)
    requires !st.done ==> st.sys.HasChains() && sblk(Preset(st.sys)).HasChains()
    ensures st.done ==> r == st
    ensures !st.done ==>
      var sys := sblk(Preset(st.sys));
      var sbdn := sys.hcdn[0] % 0x100;
      r.done && r.sys == sys.(sbdn := sbdn) && r.sbdnb == sys.hcdn[1] % 0x100 &&
      r.busMcp55 == Mcp55Table(find, (sys.pci1234[0] / 0x1_0000) % 0x100, sbdn) &&
      r.busPcix == PcixTable(find, r.busMcp55[2]) && r.apicidMcp55 == apicidBase
  {
    if st.done then st
    else
      var sys := sblk(Preset(st.sys));
      var sbdn := sys.hcdn[0] % 0x100;
      var m := Mcp55Table(find, BusOf(sys.pci1234[0]), sbdn);
      State(true, sys.(sbdn := sbdn), sys.hcdn[1] % 0x100, m, PcixTable(find, m[2]), apicidBase)
  }

  /**
   * The tables of a first call in terms of the devices found. With `bus0`
   * bits 23:16 of the first chain word after discovery and `sbdn` the low
   * byte of the first unit-id word: entry 0 of the MCP55 table is `bus0`;
   * entry 1 the secondary bus of the bridge at `sbdn + 6`, else 2; entry 2
   * the secondary bus of the bridge at `sbdn + 0x0a`, else the bus after
   * the subordinate bus of the one at `sbdn + 6` (wrapping in the byte),
   * else 3; entries 3 to 7 the secondary buses at `sbdn + 0x0b` to
   * `sbdn + 0x0f`, else 0. The PCI-X table is all zero when entry 2 is 0;
   * otherwise entry `i + 1` is the secondary bus of function `i` of device
   * 0 behind entry 2 (else 0), and entry 0 is entry 2 once either is found.
   */
  lemma GetBusConfTables(st: State, sblk: Sysconf -> Sysconf, find: Finder, apicidBase: nat)
    requires !st.done && st.sys.HasChains() && sblk(Preset(st.sys)).HasChains()
    ensures var r := GetBusConf(st, sblk, find, apicidBase);
      var sys := sblk(Preset(st.sys));
      var bus0 := BusOf(sys.pci1234[0]);
      var sbdn := r.sys.sbdn;
      && r.done && r.apicidMcp55 == apicidBase
      && r.sys.pci1234 == sys.pci1234 && r.sys.hcdn == sys.hcdn
      && sbdn == sys.hcdn[0] % 0x100 && r.sbdnb == sys.hcdn[1] % 0x100
      && |r.busMcp55| == 8 && r.busMcp55[0] == bus0
      && r.busMcp55[1] == SecondaryOr(find, bus0, DevFn(sbdn + 0x06, 0), 2)
      && r.busMcp55[2] == (match find(bus0, DevFn(sbdn + 0x0a, 0))
                           case Some(b) => b.secondary
                           case None => (match find(bus0, DevFn(sbdn + 0x06, 0))
                                         case Some(b) => (b.subordinate + 1) % 0x100
                                         case None => 3))
      && (forall k :: 3 <= k < 8 ==> r.busMcp55[k] == SecondaryOr(find, bus0, DevFn(sbdn + 8 + k, 0), 0))
      && |r.busPcix| == 3
      && (r.busMcp55[2] == 0 ==> r.busPcix == [0, 0, 0])
      && (r.busMcp55[2] != 0 ==>
           var bus2 := r.busMcp55[2];
           && r.busPcix[0] == (if find(bus2, DevFn(0, 0)).Some? || find(bus2, DevFn(0, 1)).Some? then bus2 else 0)
           && forall i :: 0 <= i < 2 ==> r.busPcix[i + 1] == SecondaryOr(find, bus2, DevFn(0, i), 0))
  {
  }

  /** A second call changes nothing: the whole map is computed at most once. */
  lemma GetBusConfOnce(st: State, sblk: Sysconf -> Sysconf, find: Finder, apicidBase: nat,
                       sblk': Sysconf -> Sysconf, find': Finder, apicidBase': nat)
    requires !st.done ==> st.sys.HasChains() && sblk(Preset(st.sys)).HasChains()
    ensures var once := GetBusConf(st, sblk, find, apicidBase);
      once.done && GetBusConf(once, sblk', find', apicidBase') == once
  {
  }
}

=== FILE: i915_cas.dfy ===
/**
 * CAS latency and memory speed selection of the Intel i915 memory
 * initialisation: the latencies every DIMM accepts, and the fastest speed
 * at which all DIMMs share a latency. A socket is `None` when no DIMM is
 * fitted; a call to `die()` is a `Die` result carrying the message.
 */
module I915Cas {
  import opened Common
  import opened I915Spd

  const NoCasMsg := "No DDR-II modules with accepted CAS latencies found.\n"
  const MaxCasMsg := "Invalid max. CAS.\n"
  const NoSpeedMsg := "Could not find common memory frequency and CAS\n"

  /** Whether every fitted DIMM lists CAS latency `c`. */
  predicate AllAccept(dimms: seq<Option<Spd>>, c: nat)
    requires 3 <= c <= 5
  {
    forall i :: 0 <= i < |dimms| && dimms[i].Some? ==> dimms[i].value.cas.Has(c)
  }

  /** CAS 3/4/5 intersected with the acceptable-CAS byte of every fitted DIMM. */
  function CasMask(dimms: seq<Option<Spd>>): Cas
  {
    if |dimms| == 0 then AllCas
    else if dimms[0].Some? then dimms[0].value.cas.Meet(CasMask(dimms[1..]))
    else CasMask(dimms[1..])
  }

  function PossibleCas(dimms: seq<Option<Spd>>): Result<Cas>
  {
    var m := CasMask(dimms);
    if m.IsZero() then Die(NoCasMsg) else Ok(m)
  }

  lemma {:induction false} CasMaskMeaning(dimms: seq<Option<Spd>>)
    ensures CasMask(dimms).rest == 0
    ensures forall c :: 3 <= c <= 5 ==> (CasMask(dimms).Has(c) <==> AllAccept(dimms, c))
  {
    if |dimms| > 0 {
      var tail := dimms[1..];
      CasMaskMeaning(tail);
      assert forall i :: 0 <= i < |tail| ==> tail[i] == dimms[i + 1];
      forall c | 3 <= c <= 5
        ensures CasMask(dimms).Has(c) <==> AllAccept(dimms, c)
      {
        if AllAccept(tail, c) && (dimms[0].Some? ==> dimms[0].value.cas.Has(c)) {
          forall i | 0 <= i < |dimms| && dimms[i].Some?
            ensures dimms[i].value.cas.Has(c)
          {
            if i > 0 {
              assert dimms[i] == tail[i - 1];
            }
          }
        }
      }
    }
  }

  /** The CAS mask lists exactly the latencies every fitted DIMM accepts; an empty one dies. */
  lemma PossibleCasMeaning(dimms: seq<Option<Spd>>)
    ensures PossibleCas(dimms).Ok? <==> exists c :: 3 <= c <= 5 && AllAccept(dimms, c)
    ensures PossibleCas(dimms).Die? ==> PossibleCas(dimms).msg == NoCasMsg
    ensures PossibleCas(dimms).Ok? ==> PossibleCas(dimms).value.rest == 0
    ensures PossibleCas(dimms).Ok? ==>
      forall c :: 3 <= c <= 5 ==> (PossibleCas(dimms).value.Has(c) <==> AllAccept(dimms, c))
  {
    CasMaskMeaning(dimms);
    var m := CasMask(dimms);
    if !m.IsZero() {
      assert AllAccept(dimms, m.Lowest());
    } else {
      assert !m.Has(3) && !m.Has(4) && !m.Has(5);
    }
  }

  /**
   * Index of the fastest speed to try: the controller's capability
   * (400, 533 or 667 MHz; anything else counts as 400), but never above
   * 533 MHz on a 533 MHz front-side bus.
   */
  function MaxRamSpeed(capability: nat, fsb: nat): (j: nat)
    ensures j <= 2
    ensures fsb == 533 ==> j == 1
    ensures fsb != 533 ==> (j == 2 <==> capability == 667) && (j == 1 <==> capability == 533)
  {
    var j := if capability == 533 then 1 else if capability == 667 then 2 else 0;
    if fsb == 533 then 1 else j
  }

  function AccessAt(d: Spd, idx: nat): AccessTime
    requires idx <= 2
  {
    if idx == 0 then d.at0 else if idx == 1 then d.at1 else d.at2
  }

  /** Whether the DIMM meets speed `s` in the SPD column `idx` steps below its highest CAS. */
  predicate FastEnough(d: Spd, s: Speed, idx: nat)
    requires idx <= 2
  {
    AccessAt(d, idx).tclk <= s.MaxTclk() && AccessAt(d, idx).tac <= s.MaxTac()
  }

  /** Which SPD columns of the DIMM meet speed `s`. */
  function Columns(d: Spd, s: Speed): nat -> bool
  {
    (idx: nat) => idx <= 2 && FastEnough(d, s, idx)
  }

  /**
   * Starting from mask `m`, drops the lowest latency while the column it
   * selects (its distance below the highest latency) is not fast. A mask
   * that still has bits but none of CAS 3/4/5 dies.
   */
  function Drop(fast: nat -> bool, m: Cas): Result<Cas>
    decreases m.Count()
  {
    if m.IsZero() then Ok(m)
    else if !m.Any() then Die(MaxCasMsg)
    else if fast(m.Highest() - m.Lowest()) then Ok(m)
    else Drop(fast, m.Without(m.Lowest()))
  }

  /** The mask one DIMM keeps at speed `s`, from its acceptable CAS latencies. */
  function Surviving(d: Spd, s: Speed, m: Cas): Result<Cas>
  {
    Drop(Columns(d, s), m)
  }

  /** The lowest latency of `m` whose column is fast, for highest latency `hi`. */
  function FirstFast(fast: nat -> bool, m: Cas, hi: nat): (r: Option<nat>)
    requires 3 <= hi <= 5
    ensures r.Some? ==> 3 <= r.value <= hi && m.Has(r.value)
  {
    if m.c3 && fast(hi - 3) then Some(3)
    else if 4 <= hi && m.c4 && fast(hi - 4) then Some(4)
    else if hi == 5 && m.c5 && fast(0) then Some(5)
    else None
  }

  /** A latency that is too slow does not change the first fast one. */
  lemma FirstFastSkip(fast: nat -> bool, m: Cas)
    requires m.Any() && !fast(m.Highest() - m.Lowest())
    ensures var m' := m.Without(m.Lowest());
      (m'.Any() ==>
        m'.Highest() == m.Highest() &&
        FirstFast(fast, m', m.Highest()) == FirstFast(fast, m, m.Highest())) &&
      (!m'.Any() ==> FirstFast(fast, m, m.Highest()) == None && m'.rest == m.rest)
    ensures FirstFast(fast, m, m.Highest()).Some? ==>
      var c := FirstFast(fast, m, m.Highest()).value;
      m.Lowest() < c && m.Without(m.Lowest()).From(c) == m.From(c)
  {
  }

  lemma DropFast(fast: nat -> bool, m: Cas)
    requires m.Any() && fast(m.Highest() - m.Lowest())
    ensures FirstFast(fast, m, m.Highest()) == Some(m.Lowest())
    ensures Drop(fast, m) == Ok(m.From(m.Lowest()))
  {
    assert m.From(m.Lowest()) == m;
  }

  lemma DropLast(fast: nat -> bool, m: Cas)
    requires m.Any() && !fast(m.Highest() - m.Lowest())
    requires !m.Without(m.Lowest()).Any()
    ensures Drop(fast, m) == if m.rest == 0 then Ok(Cas(false, false, false, 0)) else Die(MaxCasMsg)
  {
    var m' := m.Without(m.Lowest());
    assert m' == Cas(false, false, false, m.rest);
    assert Drop(fast, m) == Drop(fast, m');
  }

  /**
   * The mask kept is the starting mask from its first latency whose column
   * is fast; with none, nothing is kept, or the scan dies when bits other
   * than CAS 3/4/5 remain.
   */
  lemma {:induction false} DropMeaning(fast: nat -> bool, m: Cas)
    requires m.Any()
    ensures FirstFast(fast, m, m.Highest()).Some? ==>
      Drop(fast, m) == Ok(m.From(FirstFast(fast, m, m.Highest()).value))
    ensures FirstFast(fast, m, m.Highest()).None? ==>
      Drop(fast, m) == if m.rest == 0 then Ok(Cas(false, false, false, 0)) else Die(MaxCasMsg)
    decreases m.Count()
  {
    var lo := m.Lowest();
    if fast(m.Highest() - lo) {
      DropFast(fast, m);
    } else {
      FirstFastSkip(fast, m);
      if m.Without(lo).Any() {
        DropMeaning(fast, m.Without(lo));
      } else {
        DropLast(fast, m);
      }
    }
  }

  /**
   * The mask a DIMM keeps at a speed is its acceptable mask from the first
   * latency at which its SPD timing meets the speed.
   */
  lemma SurvivingMeaning(d: Spd, s: Speed)
    requires d.cas.Any()
    ensures var first := FirstFast(Columns(d, s), d.cas, d.cas.Highest());
      (first.Some? ==> Surviving(d, s, d.cas) == Ok(d.cas.From(first.value))) &&
      (first.None? ==> Surviving(d, s, d.cas) == if d.cas.rest == 0 then Ok(Cas(false, false, false, 0)) else Die(MaxCasMsg))
  {
    DropMeaning(Columns(d, s), d.cas);
  }

  /** Whether CAS `c` survives at speed `s` on every fitted DIMM. */
  predicate AllSurvive(dimms: seq<Option<Spd>>, s: Speed, c: nat)
    requires 3 <= c <= 5
  {
    forall i :: 0 <= i < |dimms| && dimms[i].Some? ==>
      var r := Surviving(dimms[i].value, s, dimms[i].value.cas);
      r.Ok? && r.value.Has(c)
  }

  /**
   * The CAS mask common to all DIMMs at speed `s`, starting from `f`; the
   * scan stops at the first DIMM that keeps nothing.
   */
  function SpeedMask(dimms: seq<Option<Spd>>, s: Speed, f: Cas): Result<Cas>
  {
    if |dimms| == 0 then Ok(f)
    else if dimms[0].None? then SpeedMask(dimms[1..], s, f)
    else
      match Surviving(dimms[0].value, s, dimms[0].value.cas)
      case Die(msg) => Die(msg)
      case Ok(cur) => if cur.IsZero() then Ok(f.Meet(cur)) else SpeedMask(dimms[1..], s, f.Meet(cur))
  }

  lemma AllSurviveCons(dimms: seq<Option<Spd>>, s: Speed, c: nat)
    requires |dimms| > 0 && 3 <= c <= 5
    ensures AllSurvive(dimms, s, c) <==>
      (dimms[0].Some? ==>
        var r := Surviving(dimms[0].value, s, dimms[0].value.cas);
        r.Ok? && r.value.Has(c)) &&
      AllSurvive(dimms[1..], s, c)
  {
    var tail := dimms[1..];
    assert forall i :: 0 <= i < |tail| ==> tail[i] == dimms[i + 1];
    if AllSurvive(tail, s, c) && (dimms[0].Some? ==>
        var r := Surviving(dimms[0].value, s, dimms[0].value.cas);
        r.Ok? && r.value.Has(c)) {
      forall i | 0 <= i < |dimms| && dimms[i].Some?
        ensures var r := Surviving(dimms[i].value, s, dimms[i].value.cas);
          r.Ok? && r.value.Has(c)
      {
        if i > 0 {
          assert dimms[i] == tail[i - 1];
        }
      }
    }
  }

  /**
   * A latency is in the common mask at a speed exactly when it is in the
   * starting mask and survives on every fitted DIMM; a starting mask with
   * no other bits gives a result with none.
   */
  lemma {:induction false} SpeedMaskMeaning(dimms: seq<Option<Spd>>, s: Speed, f: Cas)
    ensures SpeedMask(dimms, s, f).Ok? ==>
      forall c :: 3 <= c <= 5 ==>
        (SpeedMask(dimms, s, f).value.Has(c) <==> f.Has(c) && AllSurvive(dimms, s, c))
    ensures SpeedMask(dimms, s, f).Ok? && f.rest == 0 ==> SpeedMask(dimms, s, f).value.rest == 0
  {
    if |dimms| > 0 {
      var tail := dimms[1..];
      if dimms[0].None? {
        SpeedMaskMeaning(tail, s, f);
        forall c | 3 <= c <= 5
          ensures AllSurvive(dimms, s, c) <==> AllSurvive(tail, s, c)
        {
          AllSurviveCons(dimms, s, c);
        }
      } else {
        var r0 := Surviving(dimms[0].value, s, dimms[0].value.cas);
        if r0.Ok? {
          var cur := r0.value;
          if cur.IsZero() {
            forall c | 3 <= c <= 5
              ensures !AllSurvive(dimms, s, c)
            {
              AllSurviveCons(dimms, s, c);
            }
          } else {
            SpeedMaskMeaning(tail, s, f.Meet(cur));
            forall c | 3 <= c <= 5
              ensures AllSurvive(dimms, s, c) <==> cur.Has(c) && AllSurvive(tail, s, c)
            {
              AllSurviveCons(dimms, s, c);
            }
          }
        }
      }
    }
  }

  /** The speed and CAS latency the memory will run at. */
  datatype Choice = Choice(speed: Speed, cas: nat)

  /** The common mask at speed index `j`, starting from the CAS mask. */
  function Attempt(dimms: seq<Option<Spd>>, cas: Cas, j: nat): Result<Cas>
    requires j <= 2
  {
    SpeedMask(dimms, SpeedOf(j), cas)
  }

  /**
   * Tries speed indices from `j` down to 0 and takes the first whose
   * common mask is non-empty, with that mask's lowest CAS latency.
   */
  function SpeedSearch(dimms: seq<Option<Spd>>, cas: Cas, j: nat): Result<Choice>
    requires j <= 2
  {
    match Attempt(dimms, cas, j)
    case Die(msg) => Die(msg)
    case Ok(f) =>
      if !f.IsZero() then
        (if f.Any() then Ok(Choice(SpeedOf(j), f.Lowest())) else Die(NoSpeedMsg))
      else if j == 0 then Die(NoSpeedMsg)
      else SpeedSearch(dimms, cas, j - 1)
  }

  /** Speed index `k` gives a usable mask and every faster index up to `j` gives none. */
  predicate HighestUsable(dimms: seq<Option<Spd>>, cas: Cas, j: nat, k: nat)
    requires k <= j <= 2
  {
    Attempt(dimms, cas, k).Ok? && Attempt(dimms, cas, k).value.Any() &&
    forall k' :: k < k' <= j ==> Attempt(dimms, cas, k').Ok? && Attempt(dimms, cas, k').value.IsZero()
  }

  /**
   * The search succeeds exactly when some speed at or below the cap is the
   * highest with a usable common mask, and then picks that speed and the
   * mask's lowest latency.
   */
  lemma {:induction false} SpeedSearchMeaning(dimms: seq<Option<Spd>>, cas: Cas, j: nat)
    requires j <= 2
    requires cas.rest == 0
    ensures SpeedSearch(dimms, cas, j).Ok? <==> exists k :: 0 <= k <= j && HighestUsable(dimms, cas, j, k)
    ensures SpeedSearch(dimms, cas, j).Ok? ==>
      var ch := SpeedSearch(dimms, cas, j).value;
      var k := ch.speed.Index();
      k <= j && HighestUsable(dimms, cas, j, k) && ch.cas == Attempt(dimms, cas, k).value.Lowest()
  {
    SpeedMaskMeaning(dimms, SpeedOf(j), cas);
    var a := Attempt(dimms, cas, j);
    if a.Ok? && a.value.IsZero() && j > 0 {
      SpeedSearchMeaning(dimms, cas, j - 1);
      if SpeedSearch(dimms, cas, j).Ok? {
        var k := SpeedSearch(dimms, cas, j).value.speed.Index();
        assert HighestUsable(dimms, cas, j - 1, k);
        assert HighestUsable(dimms, cas, j, k);
      } else {
        forall k | 0 <= k <= j
          ensures !HighestUsable(dimms, cas, j, k)
        {
          if k < j && HighestUsable(dimms, cas, j, k) {
            assert HighestUsable(dimms, cas, j - 1, k);
          }
        }
      }
    } else if a.Ok? && !a.value.IsZero() {
      assert a.value.Any();
      assert HighestUsable(dimms, cas, j, j);
    } else {
      assert forall k :: 0 <= k <= j ==> !HighestUsable(dimms, cas, j, k);
    }
  }

  /** CAS-mask intersection followed by the speed search, as the boot flow runs them. */
  function CasAndSpeed(dimms: seq<Option<Spd>>, capability: nat, fsb: nat): Result<Choice>
  {
    match PossibleCas(dimms)
    case Die(msg) => Die(msg)
    case Ok(m) => SpeedSearch(dimms, m, MaxRamSpeed(capability, fsb))
  }

  /** The chosen CAS latency is one every fitted DIMM both accepts and meets at the chosen speed. */
  lemma CasAndSpeedSound(dimms: seq<Option<Spd>>, capability: nat, fsb: nat)
    ensures CasAndSpeed(dimms, capability, fsb).Ok? ==>
      var ch := CasAndSpeed(dimms, capability, fsb).value;
      3 <= ch.cas <= 5 && ch.speed.Index() <= MaxRamSpeed(capability, fsb) &&
      AllAccept(dimms, ch.cas) && AllSurvive(dimms, ch.speed, ch.cas)
  {
    PossibleCasMeaning(dimms);
    if PossibleCas(dimms).Ok? {
      var m := PossibleCas(dimms).value;
      var j := MaxRamSpeed(capability, fsb);
      SpeedSearchMeaning(dimms, m, j);
      if SpeedSearch(dimms, m, j).Ok? {
        var ch := SpeedSearch(dimms, m, j).value;
        SpeedMaskMeaning(dimms, ch.speed, m);
      }
    }
  }
}

=== FILE: i915_geometry.dfy ===
/**
 * DIMM geometry in the Intel i915 memory initialisation: the log2 size of
 * each DIMM side from its SPD bytes, the bank sizes in 32 MiB units, the
 * cumulative row boundaries (DRB) with the top of low usable DRAM (TOLUD),
 * the channel mode and the row attributes (DRA).
 */
module I915Geometry {
  import opened Common
  import opened I915Spd

  const BadSpdMsg := "Bad SPD value\n"
  const SmallRankMsg := "DDR-II rank size smaller than 128MB is not supported.\n"
  const DraMsg := "Unsupported Rows/Columns. (DRA)"

  /** Floor of the base-2 logarithm; 0 for 0 and 1. */
  function Log2(n: nat): nat
  {
    if n <= 1 then 0 else 1 + Log2(n / 2)
  }

  /** `Log2(n)` names the power of two at or just below `n`. */
  lemma {:induction false} Log2Bounds(n: nat)
    requires n >= 1
    ensures Pow2(Log2(n)) <= n < 2 * Pow2(Log2(n))
  {
    if n > 1 {
      Log2Bounds(n / 2);
    }
  }

  /** The two data widths the controller accepts both have log2 6. */
  lemma WidthLog2()
    ensures Log2(64) == 6 && Log2(72) == 6
  {
    assert Log2(72) == 1 + Log2(36) == 2 + Log2(18) == 3 + Log2(9) == 4 + Log2(4);
    assert Log2(64) == 1 + Log2(32) == 2 + Log2(16) == 3 + Log2(8) == 4 + Log2(4);
  }

  /** Low and high nibble of an SPD byte. */
  function Lo(b: bv8): (r: nat)
    ensures r < 16
  {
    (b & 0x0f) as nat
  }

  function Hi(b: bv8): (r: nat)
    ensures r < 16
  {
    ((b >> 4) & 0x0f) as nat
  }

  /** Log2 of a DIMM side's size in bits; side 2 is 0 on a single-rank DIMM. */
  datatype Sides = Sides(side1: nat, side2: nat)

  /**
   * The log2 size of the two sides of a DIMM. A failed SPD read reports
   * no memory; an SPD value the controller cannot use dies.
   */
  function DimmSize(d: Spd): Result<Sides>
  {
    if d.rows.None? then Ok(Sides(0, 0))
    else if Lo(d.rows.value) == 0 then Die(BadSpdMsg)
    else if d.cols.None? then Ok(Sides(0, 0))
    else if Lo(d.cols.value) == 0 then Die(BadSpdMsg)
    else if d.banks.None? then Ok(Sides(0, 0))
    else if d.banks.value == 0 then Die(BadSpdMsg)
    else if d.widthMsb.None? || d.widthLsb.None? then Ok(Sides(0, 0))
    else
      var rows := d.rows.value;
      var cols := d.cols.value;
      var width := d.widthMsb.value as nat * 256 + d.widthLsb.value as nat;
      if width != 72 && width != 64 then Die(BadSpdMsg)
      else
        var side1 := Lo(rows) + Lo(cols) + Log2(d.banks.value as nat) + Log2(width);
        if d.ranks.None? then Ok(Sides(0, 0))
        else
          var ranks := (d.ranks.value & 7) as nat + 1;
          if ranks == 1 then Ok(Sides(side1, 0))
          else if ranks != 2 then Die(BadSpdMsg)
          else if rows & 0xf0 == 0 then Ok(Sides(side1, side1))
          else Ok(Sides(side1, side1 - Lo(rows) + Hi(rows) - Lo(cols) + Hi(cols)))
  }

  /** Every geometry byte of the DIMM was read. */
  predicate AllRead(d: Spd)
  {
    d.rows.Some? && d.cols.Some? && d.banks.Some? && d.widthMsb.Some? && d.widthLsb.Some? && d.ranks.Some?
  }

  /** The data width of the module, from its two SPD bytes. */
  function Width(d: Spd): nat
    requires AllRead(d)
  {
    d.widthMsb.value as nat * 256 + d.widthLsb.value as nat
  }

  /** The geometry bytes describe a DIMM the controller can use. */
  predicate Usable(d: Spd)
    requires AllRead(d)
  {
    Lo(d.rows.value) != 0 && Lo(d.cols.value) != 0 && d.banks.value != 0 &&
    (Width(d) == 64 || Width(d) == 72) && d.ranks.value & 7 <= 1
  }

  /**
   * A DIMM whose bytes all read is accepted exactly when it is usable;
   * then side 1 is rows + columns + log2(banks) + 6 (the log2 of a 64- or
   * 72-bit width), and side 2 is absent on one rank, equal on a symmetric
   * DIMM, and uses the high row and column nibbles otherwise. A failed
   * read of the row byte reports no memory; a failed read of a later byte
   * reports no memory too, unless a byte read before it was already bad.
   */
  lemma DimmSizeMeaning(d: Spd)
    ensures d.rows.None? ==> DimmSize(d) == Ok(Sides(0, 0))
    ensures !AllRead(d) ==> DimmSize(d) == Ok(Sides(0, 0)) || DimmSize(d) == Die(BadSpdMsg)
    ensures AllRead(d) ==> (DimmSize(d).Ok? <==> Usable(d))
    ensures AllRead(d) && DimmSize(d).Die? ==> DimmSize(d).msg == BadSpdMsg
    ensures AllRead(d) && DimmSize(d).Ok? ==>
      var sz := DimmSize(d).value;
      var base := Log2(d.banks.value as nat) + 6;
      sz.side1 == Lo(d.rows.value) + Lo(d.cols.value) + base &&
      (d.ranks.value & 7 == 0 ==> sz.side2 == 0) &&
      (d.ranks.value & 7 == 1 && Hi(d.rows.value) == 0 ==> sz.side2 == sz.side1) &&
      (d.ranks.value & 7 == 1 && Hi(d.rows.value) != 0 ==>
        sz.side2 == Hi(d.rows.value) + Hi(d.cols.value) + base)
  {
    WidthLog2();
    if AllRead(d) {
      var rows := d.rows.value;
      assert rows & 0xf0 == 0 <==> Hi(rows) == 0;
    }
  }

  /** A bank-size unit: 32 MiB, or 2^28 bits. */
  const UnitBits: nat := 0x1000_0000

  /** The two bank sizes of a DIMM of the given size, in 32 MiB units (0 for an absent side). */
  function BanksOf(size: Result<Sides>): Result<(nat, nat)>
  {
    match size
    case Die(msg) => Die(msg)
    case Ok(sz) =>
      if sz.side1 < 30 then Die(SmallRankMsg)
      else if sz.side2 == 0 then Ok((Pow2(sz.side1 - 28), 0))
      else if sz.side2 < 30 then Die(SmallRankMsg)
      else Ok((Pow2(sz.side1 - 28), Pow2(sz.side2 - 28)))
  }

  /** The two bank sizes of one socket. */
  function SocketBanks(o: Option<Spd>): Result<(nat, nat)>
  {
    if o.None? then Ok((0, 0)) else BanksOf(DimmSize(o.value))
  }

  /** Bank sizes of all sockets, two per socket, stopping at the first socket that dies. */
  function BankSizes(dimms: seq<Option<Spd>>): (r: Result<seq<nat>>)
    ensures r.Ok? ==> |r.value| == 2 * |dimms|
  {
    if |dimms| == 0 then Ok([])
    else
      match SocketBanks(dimms[0])
      case Die(msg) => Die(msg)
      case Ok(p) =>
        match BankSizes(dimms[1..])
        case Die(msg) => Die(msg)
        case Ok(rest) => Ok([p.0, p.1] + rest)
  }

  /**
   * A bank size counts 32 MiB units: 2^28 bits each, so a side of log2
   * size `side` bits gets 2^(side-28) units; sides under 128 MiB die.
   */
  lemma BanksOfMeaning(size: Result<Sides>)
    ensures size.Die? ==> BanksOf(size) == Die(size.msg)
    ensures size.Ok? ==>
      (size.value.side1 < 30 || 0 < size.value.side2 < 30 <==> BanksOf(size) == Die(SmallRankMsg))
    ensures size.Ok? && BanksOf(size).Ok? ==>
      var sz := size.value;
      var b := BanksOf(size).value;
      sz.side1 >= 30 && b.0 * UnitBits == Pow2(sz.side1) && b.0 >= 4 &&
      (sz.side2 == 0 ==> b.1 == 0) &&
      (sz.side2 != 0 ==> sz.side2 >= 30 && b.1 * UnitBits == Pow2(sz.side2) && b.1 >= 4)
  {
    if size.Ok? {
      if size.value.side1 >= 30 {
        BankUnits(size.value.side1);
      }
      if size.value.side2 >= 30 {
        BankUnits(size.value.side2);
      }
    }
  }

  lemma Pow2Of28()
    ensures Pow2(28) == UnitBits
  {
    assert Pow2(7) == 2 * Pow2(6) == 4 * Pow2(5) == 8 * Pow2(4) == 16 * Pow2(3) == 128;
    Pow2Add(7, 7);
    Pow2Add(14, 14);
  }

  /** A side of 2^side bits, at least 128 MiB, holds 2^(side-28) units of 32 MiB. */
  lemma BankUnits(side: nat)
    requires side >= 30
    ensures Pow2(side - 28) * UnitBits == Pow2(side) && Pow2(side - 28) >= 4
  {
    Pow2Of28();
    Pow2Add(side - 28, 28);
    Pow2Monotone(2, side - 28);
  }

  lemma {:induction false} BankSizesMeaning(dimms: seq<Option<Spd>>)
    ensures BankSizes(dimms).Ok? <==> forall i :: 0 <= i < |dimms| ==> SocketBanks(dimms[i]).Ok?
    ensures BankSizes(dimms).Ok? ==>
      forall i :: 0 <= i < |dimms| ==>
        BankSizes(dimms).value[2 * i] == SocketBanks(dimms[i]).value.0 &&
        BankSizes(dimms).value[2 * i + 1] == SocketBanks(dimms[i]).value.1
  {
    if |dimms| > 0 {
      var tail := dimms[1..];
      BankSizesMeaning(tail);
      assert forall i :: 0 <= i < |tail| ==> tail[i] == dimms[i + 1];
      if BankSizes(dimms).Ok? {
        var b := BankSizes(dimms).value;
        var p := SocketBanks(dimms[0]).value;
        var rest := BankSizes(tail).value;
        assert b == [p.0, p.1] + rest;
        forall i | 0 <= i < |dimms|
          ensures b[2 * i] == SocketBanks(dimms[i]).value.0 && b[2 * i + 1] == SocketBanks(dimms[i]).value.1
        {
          if i > 0 {
            assert b[2 * i] == rest[2 * (i - 1)];
            assert b[2 * i + 1] == rest[2 * (i - 1) + 1];
          }
        }
      } else if SocketBanks(dimms[0]).Ok? {
        assert !BankSizes(tail).Ok?;
      }
    }
  }

  // ---------------------------------------------------------------------
  // Row boundaries and TOLUD
  // ---------------------------------------------------------------------

  /** Largest TOLUD the firmware programs: 3.25 GiB in 16 MiB units. */
  const ToludCap: nat := 0xd0

  function Min(a: nat, b: nat): nat
  {
    if a <= b then a else b
  }

  lemma SumSnoc(s: seq<nat>, i: nat)
    requires i < |s|
    ensures Sum(s[..i + 1]) == Sum(s[..i]) + s[i]
  {
    assert s[..i + 1] == s[..i] + [s[i]];
    SumAppend(s[..i], [s[i]]);
  }

  /**
   * Programs the eight DRB registers and TOLUD. Channel 0's boundaries are
   * running sums of its four bank sizes; channel 1 continues from channel
   * 0's total, or restarts at 0 when interleaved. Each DRB register holds
   * 8 bits. TOLUD is twice the memory in 32 MiB units, capped at 0xd0.
   */
  method RowBoundaries(banks: seq<nat>, interleaved: bool) returns (drb0: seq<nat>, drb1: seq<nat>, tolud: nat)
    requires |banks| == 8
    ensures |drb0| == 4 && |drb1| == 4
    ensures forall i :: 0 <= i < 4 ==> drb0[i] == Wrap(Sum(banks[..i + 1]), U8)
    ensures forall i :: 0 <= i < 4 ==>
      drb1[i] == Wrap((if interleaved then 0 else Sum(banks[..4])) + Sum(banks[4..5 + i]), U8)
    ensures tolud == Min(ToludCap, 2 * Sum(banks))
  {
    var cum0 := 0;
    drb0 := [];
    var i := 0;
    while i < 4
      invariant 0 <= i <= 4
      invariant cum0 == Sum(banks[..i])
      invariant |drb0| == i
      invariant forall k :: 0 <= k < i ==> drb0[k] == Wrap(Sum(banks[..k + 1]), U8)
    {
      SumSnoc(banks, i);
      cum0 := cum0 + banks[i];
      drb0 := drb0 + [Wrap(cum0, U8)];
      i := i + 1;
    }
    var cum1 := if interleaved then 0 else cum0;
    var start := cum1;
    var ch1 := banks[4..];
    drb1 := [];
    i := 0;
    while i < 4
      invariant 0 <= i <= 4
      invariant cum1 == start + Sum(ch1[..i])
      invariant |drb1| == i
      invariant forall k :: 0 <= k < i ==> drb1[k] == Wrap(start + Sum(banks[4..5 + k]), U8)
    {
      SumSnoc(ch1, i);
      assert ch1[..i + 1] == banks[4..5 + i];
      cum1 := cum1 + ch1[i];
      drb1 := drb1 + [Wrap(cum1, U8)];
      i := i + 1;
    }
    assert banks == banks[..4] + ch1;
    SumAppend(banks[..4], ch1);
    assert ch1[..4] == ch1;
    var t := if interleaved then (cum0 + cum1) * 2 else (if cum1 != 0 then cum1 else cum0) * 2;
    tolud := if t > ToludCap then ToludCap else t;
  }

  // ---------------------------------------------------------------------
  // Channel mode
  // ---------------------------------------------------------------------

  /** How the two channels are used, with its code in DCC bits 2:0. */
  datatype Mode = DualInterleaved | SingleChannel1 | DualAsymmetric | SingleChannel0
  {
    function Bits(): bv32
    {
      match this
      case DualInterleaved => 2
      case SingleChannel1 => 4
      case DualAsymmetric => 1
      case SingleChannel0 => 0
    }
  }

  /** The mode DCC bits 2:0 encode, if any. */
  function ModeOf(bits: bv32): Option<Mode>
  {
    if bits == 2 then Some(DualInterleaved)
    else if bits == 4 then Some(SingleChannel1)
    else if bits == 1 then Some(DualAsymmetric)
    else if bits == 0 then Some(SingleChannel0)
    else None
  }

  lemma ModeRoundTrip(m: Mode)
    ensures ModeOf(m.Bits()) == Some(m)
  {
  }

  lemma Sum4(s: seq<nat>)
    requires |s| == 4
    ensures Sum(s) == s[0] + s[1] + s[2] + s[3]
  {
    var a := s[1..];
    var b := a[1..];
    var c := b[1..];
    assert Sum(c) == c[0] + Sum(c[1..]);
    assert c[1..] == [];
    assert Sum(b) == b[0] + Sum(c);
    assert Sum(a) == a[0] + Sum(b);
  }

  /** Bank-size total of channel 0 (sockets 0, 1) and channel 1 (sockets 2, 3). */
  function Channel0(banks: seq<nat>): nat
    requires |banks| == 8
  {
    banks[0] + banks[1] + banks[2] + banks[3]
  }

  function Channel1(banks: seq<nat>): nat
    requires |banks| == 8
  {
    banks[4] + banks[5] + banks[6] + banks[7]
  }

  /**
   * Chooses the channel mode and writes it into DCC bits 2:0: interleaved
   * when the controller can and both channels hold the same memory;
   * otherwise channel 1 alone when channel 0's sockets are empty,
   * asymmetric dual channel when supported and socket 2 is fitted, else
   * channel 0 alone.
   */
  function ChannelMode(banks: seq<nat>, fitted: seq<bool>, canInterleave: bool, canDual: bool, dcc: bv32): (bool, bv32)
    requires |banks| == 8 && |fitted| == 4
  {
    var interleaved := canInterleave && Channel0(banks) == Channel1(banks);
    var mode := if interleaved then DualInterleaved
      else if !fitted[0] && !fitted[1] then SingleChannel1
      else if canDual && fitted[2] then DualAsymmetric
      else SingleChannel0;
    (interleaved, (dcc & !7) | mode.Bits())
  }

  /**
   * Interleaving is chosen exactly when allowed and both channels are the
   * same size; the DCC bits above 2 are kept, and bits 2:0 decode to the
   * chosen mode, with channel 0 alone (all bits 0) whenever none of the
   * other three modes applies.
   */
  lemma ChannelModeMeaning(banks: seq<nat>, fitted: seq<bool>, canInterleave: bool, canDual: bool, dcc: bv32)
    requires |banks| == 8 && |fitted| == 4
    ensures var (il, reg) := ChannelMode(banks, fitted, canInterleave, canDual, dcc);
      (il <==> canInterleave && Sum(banks[..4]) == Sum(banks[4..])) &&
      reg & !7 == dcc & !7 &&
      (ModeOf(reg & 7) == Some(DualInterleaved) <==> il) &&
      (ModeOf(reg & 7) == Some(SingleChannel1) <==> !il && !fitted[0] && !fitted[1]) &&
      (ModeOf(reg & 7) == Some(DualAsymmetric) <==> !il && (fitted[0] || fitted[1]) && canDual && fitted[2]) &&
      (ModeOf(reg & 7) == Some(SingleChannel0) <==> !il && (fitted[0] || fitted[1]) && !(canDual && fitted[2]))
  {
    Sum4(banks[..4]);
    Sum4(banks[4..]);
    var (il, reg) := ChannelMode(banks, fitted, canInterleave, canDual, dcc);
    var mode := ModeOf(reg & 7).value;
    assert reg & 7 == mode.Bits();
  }

  // ---------------------------------------------------------------------
  // Row attributes
  // ---------------------------------------------------------------------

  /**
   * The DRA code of a rows/columns pair (row and column address bits from
   * the SPD nibbles), for the five geometries the controller supports.
   */
  function DraCode(rows: nat, cols: nat): Option<nat>
  {
    var key := rows + 16 * cols;
    if key == 0x9d then Some(2)
    else if key == 0xad then Some(3)
    else if key == 0xbd then Some(4)
    else if key == 0xae then Some(3)
    else if key == 0xbe then Some(4)
    else None
  }

  /**
   * Supported geometries have 13 or 14 row bits and 9 to 11 column bits,
   * except 14 rows with 9 columns; the code is the column bits less 7.
   */
  lemma DraCodeMeaning(rows: nat, cols: nat)
    requires rows < 16 && cols < 16
    ensures DraCode(rows, cols).Some? <==>
      (rows == 13 || rows == 14) && 9 <= cols <= 11 && !(rows == 14 && cols == 9)
    ensures DraCode(rows, cols).Some? ==> DraCode(rows, cols).value == cols - 7
  {
  }

  /** The low nibble of an SPD read; a failed read (-1 in the source) gives 0xf. */
  function Nibble(o: Option<bv8>): (r: nat)
    ensures r < 16
  {
    if o.None? then 0xf else Lo(o.value)
  }

  /** The DRA byte of one socket: its code, repeated in the high nibble when double-sided. */
  function SocketDra(dimms: seq<Option<Spd>>, banks: seq<nat>, i: nat): Result<nat>
    requires |dimms| == 4 && |banks| == 8 && i < 4
  {
    if dimms[i].None? then Ok(0)
    else
      match DraCode(Nibble(dimms[i].value.rows), Nibble(dimms[i].value.cols))
      case None => Die(DraMsg)
      case Some(code) => Ok(if banks[2 * i + 1] != 0 then code * 16 + code else code)
  }

  /**
   * The two 16-bit DRA registers: sockets 0 and 1 in the low and high
   * byte of channel 0's, sockets 2 and 3 in channel 1's.
   */
  function RowAttributes(dimms: seq<Option<Spd>>, banks: seq<nat>): Result<(nat, nat)>
    requires |dimms| == 4 && |banks| == 8
  {
    PackDra(SocketDra(dimms, banks, 0), SocketDra(dimms, banks, 1),
            SocketDra(dimms, banks, 2), SocketDra(dimms, banks, 3))
  }

  /** Packs the socket bytes in socket order, dying with the first socket that dies. */
  function PackDra(r0: Result<nat>, r1: Result<nat>, r2: Result<nat>, r3: Result<nat>): Result<(nat, nat)>
  {
    match r0
    case Die(m) => Die(m)
    case Ok(b0) =>
      match r1
      case Die(m) => Die(m)
      case Ok(b1) =>
        match r2
        case Die(m) => Die(m)
        case Ok(b2) =>
          match r3
          case Die(m) => Die(m)
          case Ok(b3) => Ok((b0 + 256 * b1, b2 + 256 * b3))
  }

  /** The DRA byte of socket `i` as the registers hold it. */
  function DraByte(dra: (nat, nat), i: nat): nat
    requires i < 4
  {
    var reg := if i < 2 then dra.0 else dra.1;
    if i % 2 == 0 then reg % 256 else reg / 256
  }

  /** Two bytes packed into a 16-bit register read back unchanged. */
  lemma PackBytes(lo: nat, hi: nat)
    requires lo < 256 && hi < 256
    ensures (lo + 256 * hi) % 256 == lo && (lo + 256 * hi) / 256 == hi && lo + 256 * hi < 0x1_0000
  {
  }

  /** One socket's DRA byte: 0 when empty, else its geometry code, twice when double-sided. */
  lemma SocketDraMeaning(dimms: seq<Option<Spd>>, banks: seq<nat>, i: nat)
    requires |dimms| == 4 && |banks| == 8 && i < 4
    ensures SocketDra(dimms, banks, i).Ok? <==>
      (dimms[i].Some? ==> DraCode(Nibble(dimms[i].value.rows), Nibble(dimms[i].value.cols)).Some?)
    ensures SocketDra(dimms, banks, i).Ok? ==>
      var b := SocketDra(dimms, banks, i).value;
      b < 256 &&
      (dimms[i].None? ==> b == 0) &&
      (dimms[i].Some? ==>
        var code := DraCode(Nibble(dimms[i].value.rows), Nibble(dimms[i].value.cols)).value;
        b % 16 == code && b / 16 == (if banks[2 * i + 1] != 0 then code else 0))
  {
    if dimms[i].Some? {
      var c := DraCode(Nibble(dimms[i].value.rows), Nibble(dimms[i].value.cols));
      if c.Some? {
        assert c.value <= 4;
      }
    }
  }

  /** The registers hold the four socket bytes, each where `DraByte` finds it. */
  lemma PackDraMeaning(r0: Result<nat>, r1: Result<nat>, r2: Result<nat>, r3: Result<nat>)
    requires r0.Ok? ==> r0.value < 256
    requires r1.Ok? ==> r1.value < 256
    requires r2.Ok? ==> r2.value < 256
    requires r3.Ok? ==> r3.value < 256
    ensures PackDra(r0, r1, r2, r3).Ok? <==> r0.Ok? && r1.Ok? && r2.Ok? && r3.Ok?
    ensures PackDra(r0, r1, r2, r3).Ok? ==>
      var dra := PackDra(r0, r1, r2, r3).value;
      dra.0 < 0x1_0000 && dra.1 < 0x1_0000 &&
      DraByte(dra, 0) == r0.value && DraByte(dra, 1) == r1.value &&
      DraByte(dra, 2) == r2.value && DraByte(dra, 3) == r3.value
  {
    if PackDra(r0, r1, r2, r3).Ok? {
      PackBytes(r0.value, r1.value);
      PackBytes(r2.value, r3.value);
    }
  }

  /**
   * Each socket's byte reads back from the registers: 0 when empty, else
   * the geometry code in the low nibble and, when the socket's second side
   * has memory, again in the high nibble. Any fitted socket with an
   * unsupported geometry dies.
   */
  lemma RowAttributesMeaning(dimms: seq<Option<Spd>>, banks: seq<nat>)
    requires |dimms| == 4 && |banks| == 8
    ensures RowAttributes(dimms, banks).Ok? <==>
      forall i :: 0 <= i < 4 && dimms[i].Some? ==>
        DraCode(Nibble(dimms[i].value.rows), Nibble(dimms[i].value.cols)).Some?
    ensures RowAttributes(dimms, banks).Ok? ==>
      var dra := RowAttributes(dimms, banks).value;
      dra.0 < 0x1_0000 && dra.1 < 0x1_0000 &&
      forall i :: 0 <= i < 4 ==>
        (dimms[i].None? ==> DraByte(dra, i) == 0) &&
        (dimms[i].Some? ==>
          var code := DraCode(Nibble(dimms[i].value.rows), Nibble(dimms[i].value.cols)).value;
          DraByte(dra, i) % 16 == code &&
          DraByte(dra, i) / 16 == (if banks[2 * i + 1] != 0 then code else 0))
  {
    SocketDraMeaning(dimms, banks, 0);
    SocketDraMeaning(dimms, banks, 1);
    SocketDraMeaning(dimms, banks, 2);
    SocketDraMeaning(dimms, banks, 3);
    PackDraMeaning(SocketDra(dimms, banks, 0), SocketDra(dimms, banks, 1),
                   SocketDra(dimms, banks, 2), SocketDra(dimms, banks, 3));
    forall i | 0 <= i < 4
      ensures SocketDra(dimms, banks, i).Ok? <==>
        (dimms[i].Some? ==> DraCode(Nibble(dimms[i].value.rows), Nibble(dimms[i].value.cols)).Some?)
    {
      SocketDraMeaning(dimms, banks, i);
    }
    if RowAttributes(dimms, banks).Ok? {
      forall i | 0 <= i < 4 {
        SocketDraMeaning(dimms, banks, i);
      }
    }
  }
}

=== FILE: i915_registers.dfy ===
/**
 * Register programming in the Intel i915 memory initialisation: the clock
 * gates of fitted sockets, the JEDEC command field of DCC, and the top of
 * RAM left below TSEG (with the TSEG sizes as written and as intended).
 */
module I915Registers {
  import opened Common

  // ---------------------------------------------------------------------
  // Memory clocks
  // ---------------------------------------------------------------------

  /** Three clock pairs per socket. */
  const ClockGroup: bv8 := 0x07

  /**
   * The clock-enable bytes of channels 0 and 1: the low three bits for the
   * first socket of the channel, the next three for the second.
   */
  function ClockGates(fitted: seq<bool>): (bv8, bv8)
    requires |fitted| == 4
  {
    var c0 := (if fitted[0] then ClockGroup else 0) | (if fitted[1] then ClockGroup << 3 else 0);
    var c1 := (if fitted[2] then ClockGroup else 0) | (if fitted[3] then ClockGroup << 3 else 0);
    (c0, c1)
  }

  /** Which sockets of a channel a clock byte runs: both groups of three bits wholly set. */
  function Clocked(c: bv8): (bool, bool)
  {
    (c & 0x07 == 0x07, c & 0x38 == 0x38)
  }

  /**
   * The clocks run exactly for the fitted sockets, each socket's group is
   * all set or all clear, and the two top bits stay clear.
   */
  lemma ClockGatesMeaning(fitted: seq<bool>)
    requires |fitted| == 4
    ensures var (c0, c1) := ClockGates(fitted);
      Clocked(c0) == (fitted[0], fitted[1]) && Clocked(c1) == (fitted[2], fitted[3]) &&
      c0 & 0xc0 == 0 && c1 & 0xc0 == 0 &&
      (c0 & 0x07 == 0 || c0 & 0x07 == 0x07) && (c0 & 0x38 == 0 || c0 & 0x38 == 0x38) &&
      (c1 & 0x07 == 0 || c1 & 0x07 == 0x07) && (c1 & 0x38 == 0 || c1 & 0x38 == 0x38)
  {
  }

  // ---------------------------------------------------------------------
  // JEDEC commands
  // ---------------------------------------------------------------------

  /** DCC bits 16 to 22: the command field. */
  const CommandField: bv32 := 0x7f_0000

  /**
   * DCC with the command field cleared and `command` OR-ed in. A command
   * within the field replaces the field and keeps every other bit.
   */
  function CommandReg(dcc: bv32, command: bv32): (r: bv32)
    ensures command & !CommandField == 0 ==> r & CommandField == command
    ensures command & !CommandField == 0 ==> r & !CommandField == dcc & !CommandField
  {
    (dcc & !CommandField) | command
  }

  /**
   * The DCC writes that issue `command`; the normal-operation command is
   * followed by a second write that also sets the initialisation-complete
   * bit. Both codes come from the chipset's register header and are
   * parameters.
   */
  function RamCommand(dcc: bv32, command: bv32, normal: bv32, complete: bv32): (w: seq<bv32>)
    ensures 1 <= |w| <= 2 && w[0] == CommandReg(dcc, command)
    ensures |w| == 2 <==> command == normal
    ensures |w| == 2 ==> w[1] == w[0] | complete
  {
    var reg := CommandReg(dcc, command);
    if command == normal then [reg, reg | complete] else [reg]
  }

  /** After the writes the DCC command field names the command. */
  lemma RamCommandField(dcc: bv32, command: bv32, normal: bv32, complete: bv32)
    requires command & !CommandField == 0 && complete & CommandField == 0
    ensures var w := RamCommand(dcc, command, normal, complete);
      w[|w| - 1] & CommandField == command
  {
  }

  /**
   * After the writes every DCC bit outside the command field, except the
   * initialisation-complete bit, is the old one.
   */
  lemma RamCommandKeeps(dcc: bv32, command: bv32, normal: bv32, complete: bv32)
    requires command & !CommandField == 0 && complete & CommandField == 0
    ensures var w := RamCommand(dcc, command, normal, complete);
      w[|w| - 1] & !CommandField & !complete == dcc & !CommandField & !complete
  {
  }

  /**
   * The initialisation-complete bit ends up set by the normal-operation
   * command and as it was otherwise.
   */
  lemma RamCommandComplete(dcc: bv32, command: bv32, normal: bv32, complete: bv32)
    requires command & !CommandField == 0 && complete & CommandField == 0
    ensures var w := RamCommand(dcc, command, normal, complete);
      (command == normal ==> w[|w| - 1] & complete == complete) &&
      (command != normal ==> w[|w| - 1] & complete == dcc & complete)
  {
  }

  // ---------------------------------------------------------------------
  // Top of RAM
  // ---------------------------------------------------------------------

  /**
   * The top of memory before TSEG, in bytes: the graphics stolen-memory
   * base when the integrated graphics is enabled (DEVEN bit 3 or 4),
   * otherwise TOLUD (16 MiB units, bit 3 ignored).
   */
  function TopOfMemory(deven: bv8, bsm: bv32, tolud: bv8): (r: nat)
    ensures r < U32
  {
    if deven & 0x18 != 0 then bsm as nat else (tolud & 0xf7) as nat * 0x100_0000
  }

  /**
   * With the integrated graphics enabled the top of memory is the BSM
   * register whatever TOLUD holds; with it disabled it is a whole number of
   * 16 MiB units, at most 0xf7 of them, and TOLUD bit 3 does not affect it.
   */
  lemma TopOfMemoryMeaning(deven: bv8, bsm: bv32, tolud: bv8)
    ensures deven & 0x18 != 0 ==> forall t: bv8 :: TopOfMemory(deven, bsm, t) == bsm as nat
    ensures deven & 0x18 == 0 ==>
      var r := TopOfMemory(deven, bsm, tolud);
      r % 0x100_0000 == 0 && r <= 0xf7 * 0x100_0000 &&
      r == TopOfMemory(deven, bsm, tolud | 0x08) && r == TopOfMemory(deven, bsm, tolud & 0xf7)
  {
    assert (tolud | 0x08) & 0xf7 == tolud & 0xf7;
    assert (tolud & 0xf7) & 0xf7 == tolud & 0xf7;
    assert (tolud & 0xf7) as nat <= 0xf7;
  }

  /** The TSEG size an ESMRAM value selects, in MiB; 0 for disabled or invalid. */
  function TsegMiB(esmram: bv8): nat
  {
    if esmram == 0x01 then 1 else if esmram == 0x03 then 2 else if esmram == 0x05 then 8 else 0
  }

  /** The bytes subtracted for TSEG as the source writes them. */
  function TsegAsWritten(esmram: bv8): nat
  {
    match esmram
    case 0x01 => 0x1_0000
    case 0x03 => 0x2_0000
    case 0x05 => 0x8_0000
    case _ => 0
  }

  /** The bytes subtracted for TSEG, corrected to the sizes named by its cases. */
  function Tseg(esmram: bv8): nat
  {
    match esmram
    case 0x01 => 0x10_0000
    case 0x03 => 0x20_0000
    case 0x05 => 0x80_0000
    case _ => 0
  }

  /** Top of RAM below TSEG, as the source computes it (32-bit wrap-around). */
  function TopOfRamAsWritten(deven: bv8, bsm: bv32, tolud: bv8, esmram: bv8): nat
  {
    Wrap(TopOfMemory(deven, bsm, tolud) - TsegAsWritten(esmram), U32)
  }

  /** Top of RAM below TSEG with the corrected sizes. */
  function TopOfRam(deven: bv8, bsm: bv32, tolud: bv8, esmram: bv8): nat
  {
    Wrap(TopOfMemory(deven, bsm, tolud) - Tseg(esmram), U32)
  }

  /**
   * The corrected sizes are the MiB counts the ESMRAM cases name; the
   * sizes as written are a sixteenth of them.
   */
  lemma TsegSizes(esmram: bv8)
    ensures Tseg(esmram) == TsegMiB(esmram) * 0x10_0000
    ensures TsegAsWritten(esmram) * 16 == TsegMiB(esmram) * 0x10_0000
  {
  }

  /**
   * The corrected top of RAM sits exactly the TSEG size, in MiB, below the
   * top of memory whenever TSEG fits below it; without TSEG they coincide.
   */
  lemma TopOfRamMeaning(deven: bv8, bsm: bv32, tolud: bv8, esmram: bv8)
    ensures var tom := TopOfMemory(deven, bsm, tolud);
      var top := TopOfRam(deven, bsm, tolud, esmram);
      (tom >= TsegMiB(esmram) * 0x10_0000 ==> top + TsegMiB(esmram) * 0x10_0000 == tom) &&
      (TsegMiB(esmram) == 0 ==> top == tom)
  {
    TsegSizes(esmram);
  }

  /**
   * As written, a 1 MiB TSEG removes only 64 KiB: with graphics disabled
   * and TOLUD 0x40 (1 GiB) the top of RAM lands at 0x3fff_0000, inside
   * TSEG, instead of 0x3ff0_0000.
   */
  lemma TopOfRamAsWrittenMissesTseg()
    ensures TopOfMemory(0, 0, 0x40) == 0x4000_0000
    ensures TopOfRamAsWritten(0, 0, 0x40, 0x01) == 0x3fff_0000
    ensures TopOfRam(0, 0, 0x40, 0x01) == 0x3ff0_0000
    ensures TopOfRamAsWritten(0, 0, 0x40, 0x01) + TsegMiB(0x01) * 0x10_0000 != TopOfMemory(0, 0, 0x40)
  {
  }
}

=== FILE: i915_spd.dfy ===
/**
 * The SPD data the Intel i915 memory initialisation reads from each DIMM,
 * the three DDR2 speeds it can run at, and the CAS-latency mask of SPD
 * byte 18 viewed as three latency flags plus the remaining bits.
 */
module I915Spd {
  import opened Common

  /** The SPD access-time pair of one CAS column: cycle time and access time. */
  datatype AccessTime = AccessTime(tclk: bv8, tac: bv8)

  /**
   * The SPD bytes of one DIMM that the memory initialisation reads. The
   * CAS byte is held decoded (`DecodeCas`, which loses nothing). The
   * geometry bytes are optional because only the DIMM-size decode checks
   * for a failed read.
   */
  datatype Spd = Spd(
    cas: Cas,                // acceptable CAS latencies (byte 18, decoded)
    at0: AccessTime,         // at the highest CAS latency (bytes 9, 10)
    at1: AccessTime,         // one below it (bytes 23, 24)
    at2: AccessTime,         // two below it (bytes 25, 26)
    tras: bv8, trp: bv8, trcd: bv8, twr: bv8,
    rows: Option<bv8>, cols: Option<bv8>, banks: Option<bv8>,
    widthMsb: Option<bv8>, widthLsb: Option<bv8>, ranks: Option<bv8>)

  /** The three memory speeds, in the order of the speed table. */
  datatype Speed = S400 | S533 | S667
  {
    function Index(): (r: nat)
      ensures r <= 2
    {
      match this
      case S400 => 0
      case S533 => 1
      case S667 => 2
    }

    function MHz(): nat
    {
      match this
      case S400 => 400
      case S533 => 533
      case S667 => 667
    }

    /** Largest SPD cycle time a DIMM may have at this speed. */
    function MaxTclk(): bv8
    {
      match this
      case S400 => 0x50
      case S533 => 0x3d
      case S667 => 0x30
    }

    /** Largest SPD access time a DIMM may have at this speed. */
    function MaxTac(): bv8
    {
      match this
      case S400 => 0x60
      case S533 => 0x50
      case S667 => 0x45
    }

    /** One clock in quarter nanoseconds. */
    function Mult(): (r: nat)
      ensures r > 0
    {
      match this
      case S400 => 0x14
      case S533 => 0x0f
      case S667 => 0x0c
    }
  }

  function SpeedOf(j: nat): (s: Speed)
    requires j <= 2
    ensures s.Index() == j
  {
    if j == 0 then S400 else if j == 1 then S533 else S667
  }

  /**
   * A CAS-latency mask: whether it lists CAS 3, 4 and 5 (bits 3, 4, 5)
   * and the bits it has outside those three.
   */
  datatype Cas = Cas(c3: bool, c4: bool, c5: bool, rest: bv8)
  {
    predicate Has(c: nat)
      requires 3 <= c <= 5
    {
      if c == 3 then c3 else if c == 4 then c4 else c5
    }

    /** Whether it lists any of CAS 3, 4, 5. */
    predicate Any()
    {
      c3 || c4 || c5
    }

    predicate IsZero()
    {
      !Any() && rest == 0
    }

    /** Lowest listed latency, 0 for none. */
    function Lowest(): (c: nat)
      ensures Any() <==> 3 <= c <= 5
      ensures !Any() ==> c == 0
    {
      if c3 then 3 else if c4 then 4 else if c5 then 5 else 0
    }

    /** Highest listed latency, 0 for none. */
    function Highest(): (c: nat)
      ensures Any() <==> 3 <= c <= 5
      ensures !Any() ==> c == 0
    {
      if c5 then 5 else if c4 then 4 else if c3 then 3 else 0
    }

    function Count(): nat
    {
      (if c3 then 1 else 0) + (if c4 then 1 else 0) + (if c5 then 1 else 0)
    }

    /** The mask without latency `c`. */
    function Without(c: nat): (r: Cas)
      requires 3 <= c <= 5
      ensures Has(c) ==> r.Count() < Count()
    {
      if c == 3 then this.(c3 := false) else if c == 4 then this.(c4 := false) else this.(c5 := false)
    }

    /** The mask without the latencies below `c`. */
    function From(c: nat): Cas
      requires 3 <= c <= 5
    {
      if c == 3 then this else if c == 4 then this.(c3 := false) else this.(c3 := false, c4 := false)
    }

    /** Bitwise intersection. */
    function Meet(o: Cas): (r: Cas)
    {
      Cas(c3 && o.c3, c4 && o.c4, c5 && o.c5, rest & o.rest)
    }
  }

  /** CAS 3, 4 and 5 and nothing else: the latencies the controller supports. */
  const AllCas := Cas(true, true, true, 0)

  function DecodeCas(b: bv8): Cas
  {
    Cas(b & 0x08 != 0, b & 0x10 != 0, b & 0x20 != 0, b & 0xc7)
  }

  function EncodeCas(m: Cas): bv8
  {
    (if m.c3 then 0x08 else 0) | (if m.c4 then 0x10 else 0) | (if m.c5 then 0x20 else 0) | (m.rest & 0xc7)
  }

  /** Decoding loses nothing, and encoding is its inverse on masks whose rest avoids bits 3-5. */
  lemma CasRoundTrip(b: bv8, m: Cas)
    ensures EncodeCas(DecodeCas(b)) == b
    ensures m.rest & 0x38 == 0 ==> DecodeCas(EncodeCas(m)) == m
  {
  }

  /** The supported-latency constant is the byte 0x38. */
  lemma AllCasIs0x38()
    ensures DecodeCas(0x38) == AllCas && EncodeCas(AllCas) == 0x38
  {
  }

  /** `Meet` is the byte-wise AND. */
  lemma MeetIsAnd(a: bv8, b: bv8)
    ensures DecodeCas(a & b) == DecodeCas(a).Meet(DecodeCas(b))
  {
  }

  /** `Without(c)` clears bit `c`. */
  lemma WithoutIsClear(a: bv8)
    ensures DecodeCas(a & !0x08) == DecodeCas(a).Without(3)
    ensures DecodeCas(a & !0x10) == DecodeCas(a).Without(4)
    ensures DecodeCas(a & !0x20) == DecodeCas(a).Without(5)
  {
  }

  /** Only the zero byte decodes to the empty mask. */
  lemma ZeroIsZero(a: bv8)
    ensures DecodeCas(a).IsZero() <==> a == 0
  {
  }
}

=== FILE: i915_timing.dfy ===
/**
 * Smallest cycle counts for the DDR2 timings tRAS, tRP, tRCD and tWR in the
 * Intel i915 memory initialisation: the fewest clocks, from a per-timing
 * minimum, that cover every fitted DIMM's SPD minimum at the chosen speed.
 */
module I915Timing {
  import opened Common
  import opened I915Spd

  // ---------------------------------------------------------------------

  /** The four timings searched for the smallest cycle count. */
  datatype Timing = TRas | TRp | TRcd | TWr
  {
    /** Minimum number of clocks. */
    function Start(): nat
    {
      if this == TRas then 4 else 2
    }

    /** Largest number of clocks the controller supports. */
    function Cap(): nat
    {
      match this
      case TRas => 0x18
      case TRp => 6
      case TRcd => 6
      case TWr => 5
    }

    /** The DIMM's SPD minimum for this timing. */
    function Byte(d: Spd): nat
    {
      match this
      case TRas => d.tras as nat
      case TRp => d.trp as nat
      case TRcd => d.trcd as nat
      case TWr => d.twr as nat
    }

    function ZeroMsg(): string
    {
      match this
      case TRas => "Invalid tRAS value.\n"
      case TRp => "Invalid tRP value.\n"
      case TRcd => "Invalid tRCD value.\n"
      case TWr => "Invalid tWR value.\n"
    }

    function CapMsg(): string
    {
      match this
      case TRas => "DDR-II Module does not support this frequency (tRAS error)\n"
      case TRp => "DDR-II Module does not support this frequency (tRP error)\n"
      case TRcd => "DDR-II Module does not support this frequency (tRCD error)\n"
      case TWr => "DDR-II Module does not support this frequency (tWR error)\n"
    }
  }

  /**
   * Whether an elapsed time covers the SPD minimum `v`. Time is counted in
   * quarter nanoseconds; the tRAS byte is in whole nanoseconds.
   */
  predicate TimeCovers(t: Timing, time: nat, v: nat)
  {
    if t == TRas then time / 4 >= v else time >= v
  }

  /** Whether `c` clocks at speed `s` cover the SPD minimum `v`. */
  predicate Covers(t: Timing, s: Speed, c: nat, v: nat)
  {
    TimeCovers(t, c * s.Mult(), v)
  }

  /** Whether `c` clocks cover the minimum of every fitted DIMM. */
  predicate Enough(t: Timing, s: Speed, dimms: seq<Option<Spd>>, c: nat)
  {
    forall i :: 0 <= i < |dimms| && dimms[i].Some? ==> Covers(t, s, c, t.Byte(dimms[i].value))
  }

  predicate HasZero(t: Timing, dimms: seq<Option<Spd>>)
  {
    exists i :: 0 <= i < |dimms| && dimms[i].Some? && t.Byte(dimms[i].value) == 0
  }

  lemma CoversMonotone(t: Timing, s: Speed, c: nat, c': nat, v: nat)
    requires c <= c' && Covers(t, s, c, v)
    ensures Covers(t, s, c', v)
  {
    var m := s.Mult();
    assert c * m <= c' * m by {
      assert (c' - c) * m >= 0;
    }
  }

  lemma EnoughMonotone(t: Timing, s: Speed, dimms: seq<Option<Spd>>, c: nat, c': nat)
    requires c <= c' && Enough(t, s, dimms, c)
    ensures Enough(t, s, dimms, c')
  {
    forall i | 0 <= i < |dimms| && dimms[i].Some?
      ensures Covers(t, s, c', t.Byte(dimms[i].value))
    {
      CoversMonotone(t, s, c, c', t.Byte(dimms[i].value));
    }
  }

  /**
   * Adds clocks one at a time, from `c0`, until the elapsed time covers
   * `v`: the inner `while` of each timing search.
   */
  method Raise(t: Timing, s: Speed, c0: nat, time0: nat, v: nat) returns (c: nat, time: nat)
    requires time0 == c0 * s.Mult()
    ensures c0 <= c && time == c * s.Mult()
    ensures Covers(t, s, c, v)
    ensures forall c' :: c0 <= c' < c ==> !Covers(t, s, c', v)
  {
    var mult := s.Mult();
    c, time := c0, time0;
    var bound := if t == TRas then 4 * v else v;
    while !TimeCovers(t, time, v)
      invariant c0 <= c && time == c * mult
      invariant forall c' :: c0 <= c' < c ==> !Covers(t, s, c', v)
      decreases bound - time
    {
      time := time + mult;
      c := c + 1;
    }
  }

  /** Sockets up to `n` need more than `c` clocks, or more than `c` is too few for all. */
  predicate TooFew(t: Timing, s: Speed, dimms: seq<Option<Spd>>, n: nat, lo: nat, hi: nat)
    requires n <= |dimms|
  {
    forall c :: lo <= c < hi ==> !Enough(t, s, dimms[..n], c)
  }

  /** Covering a prefix and the next socket covers the longer prefix. */
  lemma EnoughExtend(t: Timing, s: Speed, dimms: seq<Option<Spd>>, i: nat, c: nat)
    requires i < |dimms| && Enough(t, s, dimms[..i], c)
    requires dimms[i].Some? ==> Covers(t, s, c, t.Byte(dimms[i].value))
    ensures Enough(t, s, dimms[..i + 1], c)
  {
    var next := dimms[..i + 1];
    forall k | 0 <= k < i + 1 && next[k].Some?
      ensures Covers(t, s, c, t.Byte(next[k].value))
    {
      if k < i {
        assert next[k] == dimms[..i][k];
      }
    }
  }

  /** Failing a prefix fails every longer prefix. */
  lemma NotEnoughExtend(t: Timing, s: Speed, dimms: seq<Option<Spd>>, i: nat, c: nat)
    requires i < |dimms| && !Enough(t, s, dimms[..i], c)
    ensures !Enough(t, s, dimms[..i + 1], c)
  {
    var k :| 0 <= k < i && dimms[..i][k].Some? && !Covers(t, s, c, t.Byte(dimms[..i][k].value));
    assert dimms[..i + 1][k] == dimms[..i][k];
  }

  /** One socket of the scan: the invariants carry over from `i` to `i + 1` sockets. */
  lemma ScanStep(t: Timing, s: Speed, dimms: seq<Option<Spd>>, i: nat, c0: nat, c: nat)
    requires i < |dimms| && c0 <= c
    requires Enough(t, s, dimms[..i], c0) && TooFew(t, s, dimms, i, t.Start(), c0)
    requires dimms[i].None? ==> c == c0
    requires dimms[i].Some? ==> Covers(t, s, c, t.Byte(dimms[i].value))
    requires dimms[i].Some? ==> forall c' :: c0 <= c' < c ==> !Covers(t, s, c', t.Byte(dimms[i].value))
    ensures Enough(t, s, dimms[..i + 1], c) && TooFew(t, s, dimms, i + 1, t.Start(), c)
  {
    EnoughMonotone(t, s, dimms[..i], c0, c);
    EnoughExtend(t, s, dimms, i, c);
    var next := dimms[..i + 1];
    forall c' | t.Start() <= c' < c
      ensures !Enough(t, s, next, c')
    {
      if c' < c0 {
        NotEnoughExtend(t, s, dimms, i, c');
      } else {
        assert dimms[..i + 1][i] == dimms[i];
      }
    }
  }

  /**
   * The smallest number of clocks, at least the timing's minimum, that
   * covers every fitted DIMM's SPD value. A zero SPD value dies first; a
   * count above the controller's cap dies after the scan.
   */
  method SmallestCycles(t: Timing, s: Speed, dimms: seq<Option<Spd>>) returns (r: Result<nat>)
    ensures HasZero(t, dimms) ==> r == Die(t.ZeroMsg())
    ensures r.Ok? ==> !HasZero(t, dimms) && t.Start() <= r.value <= t.Cap()
    ensures r.Ok? ==> Enough(t, s, dimms, r.value)
    ensures r.Ok? ==> forall c :: t.Start() <= c < r.value ==> !Enough(t, s, dimms, c)
    ensures !HasZero(t, dimms) && r.Die? ==>
      r.msg == t.CapMsg() && forall c :: t.Start() <= c <= t.Cap() ==> !Enough(t, s, dimms, c)
  {
    var cycles := t.Start();
    var time := cycles * s.Mult();
    var i := 0;
    while i < |dimms|
      invariant 0 <= i <= |dimms|
      invariant cycles >= t.Start() && time == cycles * s.Mult()
      invariant !HasZero(t, dimms[..i])
      invariant Enough(t, s, dimms[..i], cycles)
      invariant TooFew(t, s, dimms, i, t.Start(), cycles)
    {
      var c0 := cycles;
      if dimms[i].Some? {
        var v := t.Byte(dimms[i].value);
        if v == 0 {
          ZeroAt(t, dimms, i);
          return Die(t.ZeroMsg());
        }
        cycles, time := Raise(t, s, cycles, time, v);
      }
      ScanStep(t, s, dimms, i, c0, cycles);
      NoZeroStep(t, dimms, i);
      i := i + 1;
    }
    assert dimms[..i] == dimms;
    if cycles > t.Cap() {
      return Die(t.CapMsg());
    }
    return Ok(cycles);
  }

  lemma ZeroAt(t: Timing, dimms: seq<Option<Spd>>, i: nat)
    requires i < |dimms| && dimms[i].Some? && t.Byte(dimms[i].value) == 0
    ensures HasZero(t, dimms)
  {
  }

  lemma NoZeroStep(t: Timing, dimms: seq<Option<Spd>>, i: nat)
    requires i < |dimms| && !HasZero(t, dimms[..i])
    requires dimms[i].Some? ==> t.Byte(dimms[i].value) != 0
    ensures !HasZero(t, dimms[..i + 1])
  {
    var next := dimms[..i + 1];
    forall k | 0 <= k < i + 1 && next[k].Some?
      ensures t.Byte(next[k].value) != 0
    {
      if k < i {
        assert next[k] == dimms[..i][k];
      }
    }
  }
}

=== FILE: i945_northbridge.dfy ===
/**
 * The Intel i945 northbridge's memory accounting: the PCIe configuration
 * BAR, the TSEG and graphics (UMA) memory stolen from the top of low
 * memory, the RAM ranges reported to the resource allocator, and the
 * subsystem ID written to the host bridge. Register values are inputs;
 * sizes are in KiB unless named otherwise.
 */
module I945Northbridge {
  import opened Common
  import opened Arith

  // ---------------------------------------------------------------------
  // PCIe configuration BAR
  // ---------------------------------------------------------------------

  const MiB: nat := 0x10_0000

  /** The BAR length a PCIEXBAR size field selects, in bytes; 0 for the reserved value 3. */
  function BarLength(field: nat): (len: nat)
    requires field < 4
    ensures field < 3 <==> len > 0
    ensures field < 3 ==> len * Pow2(field) == 256 * MiB
  {
    assert Pow2(0) == 1 && Pow2(1) == 2 && Pow2(2) == 4;
    if field == 0 then 256 * MiB else if field == 1 then 128 * MiB else if field == 2 then 64 * MiB else 0
  }

  /** The outcome of `get_pcie_bar`: whether a BAR was found, its base and its length in bytes. */
  datatype PcieBar = PcieBar(found: bool, base: nat, len: nat)

  /**
   * The PCIe configuration BAR of the host bridge, `None` when the bridge
   * is absent: bit 0 enables it, bits 2:1 select the size, and the base is
   * the register with every bit below the size cleared (bits 31:28, 31:27
   * or 31:26 kept).
   */
  function GetPcieBar(reg: Option<nat>): (r: PcieBar)
    requires reg.Some? ==> reg.value < U32
    ensures r.found <==> reg.Some? && reg.value % 2 == 1 && (reg.value / 2) % 4 != 3
    ensures !r.found ==> r.base == 0 && r.len == 0
    ensures r.found ==> r.len == BarLength((reg.value / 2) % 4)
  {
    if reg.None? || reg.value % 2 == 0 then PcieBar(false, 0, 0)
    else
      var len := BarLength((reg.value / 2) % 4);
      if len == 0 then PcieBar(false, 0, 0)
      else PcieBar(true, reg.value / len * len, len)
  }

  /**
   * A BAR that is found is aligned to its length, lies below 4 GiB, and is
   * the register value rounded down to that alignment: it holds the
   * register's own address bits.
   */
  lemma GetPcieBarMeaning(reg: nat)
    requires reg < U32
    ensures var r := GetPcieBar(Some(reg));
      r.found ==>
        r.len > 0 && r.base % r.len == 0 && r.base <= reg < r.base + r.len && r.base + r.len <= U32
  {
    var r := GetPcieBar(Some(reg));
    if r.found {
      var field := (reg / 2) % 4;
      if field == 0 {
        AlignDown(reg, 256 * MiB, 16);
      } else if field == 1 {
        AlignDown(reg, 128 * MiB, 32);
      } else {
        AlignDown(reg, 64 * MiB, 64);
      }
    }
  }

  /** Rounding down to a multiple of `len`, where `len` divides 4 GiB. */
  lemma AlignDown(x: nat, len: nat, k: nat)
    requires x < U32 && len > 0 && k * len == U32
    ensures var base := x / len * len;
      base % len == 0 && base <= x < base + len && base + len <= U32
  {
    var q := x / len;
    assert x == q * len + x % len;
    DivAddMultiple(q, 0, len);
    DivBelow(x, len, k);
    MulMono(q + 1, k, len);
  }

  // ---------------------------------------------------------------------
  // Stolen memory
  // ---------------------------------------------------------------------

  /** TSEG size for ESMRAMC bits 2:1: 1, 2 or 8 MiB, and nothing for 3. */
  function TsegKiB(field: nat): nat
    requires field < 4
  {
    if field == 0 then 1024 else if field == 1 then 2048 else if field == 2 then 8192 else 0
  }

  /** Graphics stolen memory for GGC bits 6:4: 1 MiB for 1, 8 MiB for 3, nothing otherwise. */
  function UmaKiB(field: nat): nat
    requires field < 8
  {
    if field == 1 then 1024 else if field == 3 then 8192 else 0
  }

  /**
   * The memory accounting: top of low memory, what is left once TSEG and
   * graphics memory are taken from its top, and the two stolen regions in
   * bytes.
   */
  datatype Stolen = Stolen(tomk: nat, tomkStolen: nat,
                           tsegBase: nat, tsegSize: nat, umaBase: nat, umaSize: nat)

  /** TSEG is decoded when ESMRAMC bit 0 is set. */
  predicate TsegOn(esmramc: nat) { esmramc % 2 == 1 }

  /** Graphics memory is decoded when GGC bit 1 is clear. */
  predicate UmaOn(ggc: nat) { (ggc / 2) % 2 == 0 }

  function TsegTaken(esmramc: nat): nat
    requires esmramc < U8
  {
    if TsegOn(esmramc) then TsegKiB((esmramc / 2) % 4) else 0
  }

  function UmaTaken(ggc: nat): nat
    requires ggc < U16
  {
    if UmaOn(ggc) then UmaKiB((ggc / 16) % 8) else 0
  }

  /**
   * TOLUD (16 MiB units) in KiB, less TSEG and then graphics memory, in
   * 64-bit unsigned arithmetic; each decoded region starts at the memory
   * left below it. Without graphics memory the UMA region is the one
   * recorded before (`umaBase0`, `umaSize0`).
   */
  function StealMemory(tolud: nat, esmramc: nat, ggc: nat, umaBase0: nat, umaSize0: nat): (s: Stolen)
    requires tolud < U8 && esmramc < U8 && ggc < U16
    ensures s.tomk == tolud * 0x4000
    ensures !TsegOn(esmramc) ==> s.tsegBase == 0 && s.tsegSize == 0
    ensures !UmaOn(ggc) ==> s.umaBase == umaBase0 && s.umaSize == umaSize0
    ensures TsegOn(esmramc) ==> s.tsegSize == TsegTaken(esmramc) * 1024
    ensures UmaOn(ggc) ==> s.umaSize == UmaTaken(ggc) * 1024
  {
    var tomk := tolud * 0x4000;
    var (afterTseg, tsegBase, tsegSize) :=
      if TsegOn(esmramc) then
        var size := TsegKiB((esmramc / 2) % 4);
        var left := Wrap(tomk - size, U64);
        (left, Wrap(left * 1024, U64), size * 1024)
      else (tomk, 0, 0);
    var (afterUma, umaBase, umaSize) :=
      if UmaOn(ggc) then
        var size := UmaKiB((ggc / 16) % 8);
        var left := Wrap(afterTseg - size, U64);
        (left, Wrap(left * 1024, U64), size * 1024)
      else (afterTseg, umaBase0, umaSize0);
    Stolen(tomk, afterUma, tsegBase, tsegSize, umaBase, umaSize)
  }

  /**
   * When TOLUD covers both stolen regions, they sit at the top of low
   * memory with nothing between them: TSEG ends at TOLUD, graphics memory
   * (when decoded) ends where TSEG starts, and what is left for the
   * system is TOLUD less both.
   */
  lemma StealMemoryLayout(tolud: nat, esmramc: nat, ggc: nat, umaBase0: nat, umaSize0: nat)
    requires tolud < U8 && esmramc < U8 && ggc < U16
    requires tolud * 0x4000 >= TsegTaken(esmramc) + UmaTaken(ggc)
    ensures var s := StealMemory(tolud, esmramc, ggc, umaBase0, umaSize0);
      s.tomkStolen + TsegTaken(esmramc) + UmaTaken(ggc) == s.tomk &&
      (TsegOn(esmramc) ==> s.tsegBase + s.tsegSize == s.tomk * 1024) &&
      (UmaOn(ggc) ==> s.umaBase == s.tomkStolen * 1024) &&
      (UmaOn(ggc) && TsegOn(esmramc) ==> s.umaBase + s.umaSize == s.tsegBase) &&
      (UmaOn(ggc) && !TsegOn(esmramc) ==> s.umaBase + s.umaSize == s.tomk * 1024)
  {
  }

  /** A resource handed to the allocator, base and size in KiB. */
  datatype Resource = Ram(basek: nat, sizek: nat) | Uma(basek: nat, sizek: nat) | Mmio(basek: nat, sizek: nat)

  /**
   * Conventional memory and 768 KiB up to TOLUD as RAM, graphics memory as
   * reserved and TSEG as MMIO; every base and size is passed as a 32-bit
   * KiB count.
   */
  function Resources(s: Stolen): (rs: seq<Resource>)
    ensures |rs| == 4 && rs[0] == Ram(0, 640)
  {
    [Ram(0, 640), Ram(768, ResourceK(s.tomk - 768)),
     Uma(ResourceK(s.umaBase / 1024), ResourceK(s.umaSize / 1024)),
     Mmio(ResourceK(s.tsegBase / 1024), ResourceK(s.tsegSize / 1024))]
  }

  /**
   * The RAM range runs to TOLUD, and the stolen regions, when decoded and
   * non-empty, lie inside it at its top and do not overlap each other.
   */
  lemma ResourcesMeaning(tolud: nat, esmramc: nat, ggc: nat, umaBase0: nat, umaSize0: nat)
    requires tolud < U8 && esmramc < U8 && ggc < U16
    requires tolud * 0x4000 >= 768 + TsegTaken(esmramc) + UmaTaken(ggc)
    ensures var s := StealMemory(tolud, esmramc, ggc, umaBase0, umaSize0);
      var rs := Resources(s);
      rs[1] == Ram(768, s.tomk - 768) &&
      (TsegOn(esmramc) ==> 768 <= rs[3].basek && rs[3].basek + rs[3].sizek == s.tomk) &&
      (UmaOn(ggc) ==>
        (768 <= rs[2].basek && rs[2].basek + rs[2].sizek <= s.tomk && rs[2].basek == s.tomkStolen)) &&
      (UmaOn(ggc) && TsegOn(esmramc) ==> rs[2].basek + rs[2].sizek <= rs[3].basek)
  {
    var s := StealMemory(tolud, esmramc, ggc, umaBase0, umaSize0);
    StealMemoryLayout(tolud, esmramc, ggc, umaBase0, umaSize0);
    if TsegOn(esmramc) {
      DivAddMultiple(s.tsegBase / 1024, 0, 1024);
    }
  }

  /**
   * The high tables (ACPI, PIRQ, MP) take the `highSize` bytes just below
   * the memory left for the system.
   */
  function HighTablesBase(s: Stolen, highSize: nat): (base: nat)
    ensures s.tomkStolen * 1024 >= highSize && s.tomkStolen * 1024 < U64 ==>
      base + highSize == s.tomkStolen * 1024
  {
    Wrap(s.tomkStolen * 1024 - highSize, U64)
  }

  // ---------------------------------------------------------------------
  // Subsystem ID
  // ---------------------------------------------------------------------

  /**
   * The subsystem vendor/device word: a copy of the device's own
   * vendor/device register when either ID is 0, else the device ID
   * (low 16 bits) above the vendor ID (low 16 bits).
   */
  function SubsystemId(vendor: nat, device: nat, ownIds: nat): (r: nat)
    requires ownIds < U32
    ensures r < U32
    ensures vendor == 0 || device == 0 ==> r == ownIds
    ensures vendor != 0 && device != 0 ==> r % U16 == vendor % U16 && r / U16 == device % U16
  {
    if vendor == 0 || device == 0 then ownIds
    else
      DivAddMultiple(device % U16, vendor % U16, U16);
      MulMono(device % U16, U16 - 1, U16);
      (device % U16) * U16 + vendor % U16
  }
}

=== FILE: pci_slots.dfy ===
/**
 * The PCI lookups the board bus-configuration code relies on: a device
 * found by bus and device/function number, and the bus numbers a bridge
 * reports. The device tree itself is outside the model, so a lookup is an
 * arbitrary partial map from (bus, devfn) to the bridge's bus numbers.
 */
module PciSlots {
  import opened Common

  /** The secondary and subordinate bus numbers a PCI bridge holds in its configuration space. */
  datatype Bridge = Bridge(secondary: Byte, subordinate: Byte)

  /** `dev_find_slot(bus, devfn)` together with the bridge registers of the device found. */
  type Finder = (nat, nat) -> Option<Bridge>

  /** `PCI_DEVFN(slot, func)`: the slot's low five bits above the function's low three. */
  function DevFn(slot: nat, func: nat): nat
  {
    (slot % 32) * 8 + func % 8
  }

  /** The secondary bus of the bridge at `devfn` on `bus`, or `absent` when there is none. */
  function SecondaryOr(find: Finder, bus: nat, devfn: nat, absent: Byte): Byte
  {
    match find(bus, devfn)
    case Some(b) => b.secondary
    case None => absent
  }

  /** Bits 23:16 of a 32-bit HyperTransport chain word: the chain's bus number. */
  function BusOf(word: nat): Byte
  {
    (word / 0x1_0000) % 0x100
  }
}
